=== FILE: README.md ===
# AI Real-Time Subtitle Tool — a verified model of its core

The tool captures the audio the computer plays and cuts it into fixed-length
chunks. It sends each chunk to one of four speech-to-text back ends (OpenAI,
Azure, Aliyun DashScope, a local Whisper model) and shows the text that comes
back as a subtitle. This project models the sequential logic under the GUI,
sound-device and vendor-SDK plumbing, as pure Dafny functions over immutable
datatypes, and proves what the code promises about it.

One module per concern:

- `AudioCapture` (audio_capture.dfy) models the `AudioCapture` class.
  - The stream callback buffers samples and cuts at most one chunk per call into a FIFO queue.
  - `start_capture` and `stop_capture` are modelled as a recording state.
  - `get_audio_chunk` pops the oldest chunk, or returns `None`.
- `Worker` (worker.dfy) models `TranscriptionWorker` in main.py.
  - `start` and `stop`.
  - One pass of the loop as a pure step over an abstract transcriber.
  - A loop of `rounds` passes proved against a reference transcript.
- `App` (app.dfy) models `AISubtitleApp` in main.py.
  - `initialize`, `start_capture`, `stop_capture` and `cleanup`.
  - A whole session: initialize, start, audio arriving, the worker running.
- `Transcription` (transcription.dfy) models transcription_service.py.
  - The factory.
  - Each service's `transcribe`, as an attempt collapsed to a string.
  - The Aliyun counters and `get_stats`.
  - The language-hint rule.
  - The Local Whisper notice.
  - `_resample`.
- `Wav` (wav.dfy) models the mono 16-bit PCM container that `audio_to_wav_bytes` writes.
  - The header follows the WAVE Form Definition (RIFF, `fmt ` chunk with WAVE_FORMAT_PCM, `data` chunk) of the Microsoft/IBM "Multimedia Programming Interface and Data Specifications 1.0".
  - A reader (`Decode`) is proved to recover the frame rate and samples.
- `Config` (config.dfy) models the `Config` class: every setting read from the environment with its default, and `validate`.
- `EnvFile` (env_file.dfy) models the `.env` file of the settings dialog.
  - The line parser of `load_config`.
  - The fixed layout `save_config` writes.
  - The round trip between them.
- `Settings` (settings.dfy) models `SettingsWindow`.
  - The combo-box label/key/index maps.
  - `apply_config_to_ui`, `get_config_from_ui`, `validate_config`, `save_config` and `on_service_changed`.
  - The proof that saving and reopening shows what was saved, and that what the dialog accepts the application accepts.
- `Devices` (devices.dfy) models `check_audio_devices` in check_devices.py: the per-device tag and the stereo-mix recommendation.
- `Text` (text.dfy) models the Python string operations the code relies on: `strip`, `lower`, `in`, `split`, text-mode line reading, `str(int)` and `int(str)`.
- `Results` (results.dfy) holds `Option` and `Result`.

Everything outside the program is a parameter:

- Sound-device streams become `StartEnv` and `devicesReadable`.
- Vendor SDK calls become the function fields of `Transcription.Externals`.
- Whether an SDK imports becomes `Transcription.Installed`.
- `float()` is a parameter of `Settings.ApplyConfig`.
- File contents become `Option<string>` arguments.

Some behaviour of the code that a reader might not expect:

- The callback cuts at most one chunk per call (an `if`, not a loop). A block larger than a chunk therefore leaves more than a chunk buffered. `AudioCapture.LargeBlockMakesOneChunk` exhibits this.
  - So `floor(N / size)` chunks come out of `N` samples only when every block is at most a chunk long. The stream's block size of 0.1 s keeps it so (`AudioCapture.FeedCounts`).
- Local Whisper without a model returns a non-blank notice, not the empty string, so the worker shows it as a subtitle (`Transcription.NoticeIsShown`).
- The settings dialog defaults `AI_SERVICE` to `aliyun`, while `Config` defaults it to `openai`. Both are modelled as written.
- `Config.validate` compares the selector exactly, but the factory lower-cases it (`Transcription.ValidationIsCaseSensitive`).

## Model

| member | source | states |
|---|---|---|
| AudioCapture.NewCapture | audio_capture.py:11-18 | a new capture object is idle, has no stream, and has an empty buffer and queue; it keeps the configured rate, chunk duration and callback |
| AudioCapture.PyCut | audio_capture.py:58-59 | the cut position of Python's `s[:k]` / `s[k:]` is clamped to the sequence and equals `k` when `0 <= k <= n` |
| AudioCapture.AudioCallback | audio_capture.py:53-66 | old buffer ++ block == chunk cut (if any) ++ new buffer. A chunk is cut iff the buffer reaches the chunk size, and it is exactly one chunk long. Otherwise the buffer is just extended. A buffer below the chunk size stays below it for blocks no larger than a chunk. The chunk goes to the back of the queue and, when a callback exists, to the callback. Nothing else changes |
| AudioCapture.FeedConserves | audio_capture.py:53-59 | over any run of callbacks, old buffer ++ all delivered samples == all chunks cut ++ what is still buffered |
| AudioCapture.FeedEnqueues | audio_capture.py:57-62 | over any run of callbacks, the chunks cut join the back of the queue in the order they were cut; only the buffer and the queue change |
| AudioCapture.FeedChunkLength | audio_capture.py:56-59 | every chunk cut over any run of callbacks is exactly `sample_rate * chunk_duration` samples long |
| AudioCapture.FeedCounts | audio_capture.py:53-59 | with blocks no longer than a chunk (block size 0.1 s), `N` samples make `N div size` chunks and leave `N mod size` buffered |
| AudioCapture.OneChunkOfSilence | audio_capture.py:56-62 | 48000 zeros at 16000 Hz with 3 s chunks make one chunk of zeros; the buffer is left empty |
| AudioCapture.LargeBlockMakesOneChunk | audio_capture.py:57-59 | a single block of 100000 samples makes only one 48000-sample chunk and leaves 52000 buffered |
| AudioCapture.SmallBlocksMakeTwoChunks | audio_capture.py:53-62 | 100000 samples in chunk-sized or smaller blocks make two chunks and leave 4000 buffered |
| AudioCapture.ResolveDevice | audio_capture.py:76-79 | an explicit index is used; otherwise the configured index; -1 means the default output device |
| AudioCapture.StartCapture | audio_capture.py:68-115 | while recording, nothing changes. Otherwise it succeeds iff the chosen device or the default input opens, and the first that opens becomes the stream. When both fail it raises, not recording, and holds the last stream built, which was never started. The buffer and queue are untouched |
| AudioCapture.FailedStartKeepsStream | audio_capture.py:87-124 | a default-input stream whose `start()` raises stays in the object, and a later `stop_capture` returns before closing it |
| AudioCapture.StopCapture | audio_capture.py:117-129 | a no-op when idle. Otherwise recording stops, the stream is dropped and the buffer is emptied. Queued chunks remain |
| AudioCapture.GetAudioChunk | audio_capture.py:131-136 | returns the oldest queued chunk and removes it, or `None` with no change on an empty queue; it never raises |
| AudioCapture.Step | audio_capture.py:53-136 | each event (callback, take, start, stop) keeps queue ++ produced == consumed ++ new queue, a failed start included |
| AudioCapture.QueueIsFifo | audio_capture.py:53-134 | under any interleaving of callbacks, takes, starts and stops, the old queue plus everything enqueued equals everything taken plus what is still queued |
| Worker.NewWorker | main.py:19-24 | a new worker is not running and has spawned no thread |
| Worker.Start | main.py:26-33 | starting while running changes nothing; otherwise `running` becomes true and one thread is spawned |
| Worker.Stop | main.py:35-39 | stopping always clears `running` and spawns nothing |
| Worker.StartIdempotent | main.py:28-29 | starting twice is starting once |
| Worker.Shown | main.py:60-64 | text is shown iff it was returned and is not blank after `strip()`; what is shown is the untrimmed text; a raised exception shows nothing |
| Worker.ShownIsNotBlank | main.py:60-62 | a shown subtitle contains a character that is not whitespace |
| Worker.ProcessOnce | main.py:45-68 | on an empty queue the pass calls nothing and shows nothing. Otherwise it takes the oldest chunk, transcribes it at the configured sample rate, and shows what `Shown` allows |
| Worker.TranscriptBounded | main.py:50-62 | at most one subtitle per chunk |
| Worker.RunRounds | main.py:45-68 | `rounds` passes take the oldest `min(rounds, queue length)` chunks and leave the rest queued. The subtitles are exactly the reference transcript of those chunks, in queue order |
| App.Initialize | main.py:87-124 | it succeeds iff validation passes, the devices can be listed and the factory builds a service. The steps run in that order, and a later failure leaves earlier parts built. On success the worker is new and stopped |
| App.StopApp | main.py:145-161 | afterwards nothing runs. The worker is stopped before the capture, each only when it exists. The service is untouched and queued chunks stay queued |
| App.StopIdempotent | main.py:171-174 | `cleanup` after the stop button changes nothing |
| App.StartApp | main.py:126-143 | it succeeds iff both parts exist and a stream opens, and then both run. A failure presses stop, so nothing is left running |
| App.FedPrefix | audio_capture.py:53-62 | with nothing buffered beforehand, the chunks cut are a prefix of the delivered samples |
| App.StartedEmpty | main.py:87-135 | after a successful initialize and start, the capture object records at the configured chunk size with nothing buffered or queued, and the service is the factory's |
| App.Listen | main.py:45-62 | the chunks the worker takes are a prefix of the delivered audio, in order, each a chunk long, at most `rounds` of them. The subtitles are the reference transcript of those chunks |
| App.Session | main.py:87-135 | the same for a whole session from a valid configuration: the subtitles are the transcript, at the configured sample rate, of the captured audio's chunks in order |
| Transcription.CreateService | transcription_service.py:324-341 | the selector is lower-cased and mapped to one of four services. Anything else raises an unknown-service error naming it. A missing SDK raises too, except for Local Whisper, which is built without its model |
| Transcription.FactoryIgnoresCase | transcription_service.py:326 | the factory gives the same result for a selector and its lower-case form |
| Transcription.ValidationIsCaseSensitive | config.py:41-42 | "OpenAI" with no key passes `validate`, yet the factory still builds the OpenAI service |
| Transcription.WavBytes | transcription_service.py:16-30 | the payload decodes to the given frame rate and the quantised samples, and is 44 + 2 × sample-count bytes long; a non-positive rate fails |
| Transcription.Quantised | transcription_service.py:19 | one int16 sample per input sample, in order |
| Transcription.AliyunRequestFor | transcription_service.py:181-198 | `language_hints=['zh','en']` is passed iff the model is `paraformer-realtime-v2`; model, format `wav`, rate and audio are passed through |
| Transcription.Resample | transcription_service.py:311-321 | the identity when the rates agree; dividing by a zero original rate raises |
| Transcription.Collapse | transcription_service.py:287-309 | a failure or silence becomes "", heard text is returned as is, and a missing model gives the notice |
| Transcription.OpenAIAttempt | transcription_service.py:44-65 | text returned by OpenAI is stripped |
| Transcription.AliyunAttempt | transcription_service.py:171-242 | a WAV or call failure is a failure and no success. A non-200 status is a failure naming the status and no success. Status 200 is a success: the sentence stripped when it is non-empty, otherwise silence. Any text returned is stripped |
| Transcription.AzureAttempt | transcription_service.py:80-115 | a WAV or call failure is a failure. For a reply: recognised speech iff text, which is the recognised text; no match iff silence; any other reason is a failure naming it. It never reports a missing model |
| Transcription.WhisperAttempt | transcription_service.py:287-309 | the notice appears iff no model is loaded; transcribed text is stripped |
| Transcription.Transcribe | transcription_service.py:165-205 | the string returned is the collapsed attempt. Only Aliyun changes state: its call counter grows by one on every call, and successes never exceed calls |
| Transcription.FailuresAreEmpty | transcription_service.py:238-242 | every failure of every service returns "" |
| Transcription.AliyunSuccessCounting | transcription_service.py:204-205 | the success counter grows exactly when DashScope answered HTTP 200 |
| Transcription.AzureTextOnlyWhenRecognised | transcription_service.py:105-111 | Azure returns non-empty text only for RecognizedSpeech, and for RecognizedSpeech it returns the recognised text |
| Transcription.OpenAIStripsResponse | transcription_service.py:61 | OpenAI returns the stripped response, or "" for a missing or empty one or a raised call |
| Transcription.NoticeIsShown | transcription_service.py:290-291 | Local Whisper without a model returns the fixed notice, which the worker shows |
| Transcription.WhisperAtNativeRate | transcription_service.py:313-314 | at 16000 Hz the samples reach the model unchanged |
| Transcription.GetStats | transcription_service.py:244-253 | `None` iff no call was made; otherwise both counters |
| Transcription.AliyunCountsCalls | transcription_service.py:244-253 | after the worker transcribes `n` chunks with a fresh Aliyun service: `n` calls, at most `n` successes, and stats exist iff `n > 0` |
| Wav.PcmData | transcription_service.py:27 | two bytes per sample |
| Wav.PcmRoundTrip | transcription_service.py:27 | the little-endian int16 bytes read back as the samples |
| Wav.Header | transcription_service.py:23-27 | the header is 44 bytes |
| Wav.Encode | transcription_service.py:16-30 | it fails iff the rate is not positive or a 32-bit field overflows. Otherwise: format PCM, 1 channel, frame rate = sample rate, 16 bits per sample, data length 2 × sample count, and the data is the sample bytes |
| Wav.ReadWrittenHeader | transcription_service.py:23-27 | a written header reads back as its frame rate and data length |
| Wav.EncodeDecode | transcription_service.py:16-30 | decoding the written container gives back the frame rate and the samples |
| Config.GetText | config.py:11-25 | the variable's value when set, else the default |
| Config.GetInt | config.py:28-36 | the default when unset; `int()` of the value when it parses; otherwise a `ValueError` naming the variable |
| Config.ReadInts | config.py:28-36 | it raises iff some integer variable does not parse, naming the first such one; otherwise every value in order |
| Config.Load | config.py:7-36 | the class body raises iff an integer variable does not parse. Otherwise each of the eight text settings is its variable or its default, and each of the six integer settings is the variable's value or its default |
| Config.LoadEmpty | config.py:11-36 | with nothing set, every setting takes its default: `openai`, 16000 Hz, 3 s, device -1, 800 × 120, font 24 |
| Config.LoadAsEnvironment | config.py:11-36 | loading an environment that spells out a configuration gives it back, when no integer has more digits than `int()` converts |
| Config.Validate | config.py:39-47 | `openai` needs a non-empty key. `azure` needs a non-empty key and region. `aliyun` needs a non-empty key. Any other selector passes, including `local_whisper` and unknown ones |
| Config.DefaultsNeedOpenAIKey | config.py:41-42 | the defaults select OpenAI with no key, so they do not validate |
| Text.Strip | settings_window.py:393 | the result has no whitespace at either end and is the middle of the input, with only whitespace cut away |
| Text.StripIdempotent | settings_window.py:460 | stripping twice is stripping once |
| Text.BlankIffAllSpace | main.py:60 | text is blank after `strip()` iff every character is whitespace |
| Text.Lower | check_devices.py:27 | same length, and each ASCII capital is lowered |
| Text.Find | check_devices.py:27 | the first occurrence of a substring, if any |
| Text.FindDecidesContains | check_devices.py:27 | `Find` answers Python's `in` |
| Text.BeforeFirst | settings_window.py:346 | `split(sep)[0]`: the text before the first separator, or all of it |
| Text.SplitLines | settings_window.py:392 | at least one line, none containing a newline |
| Text.UniversalNewlines | settings_window.py:391 | text mode leaves no carriage return |
| Text.SplitJoin | settings_window.py:527-557 | reading back lines written one per line gives the lines plus the empty tail |
| Text.IntToString | settings_window.py:475-482 | `str(n)`: a sign only for negatives, then the digits of the magnitude |
| Text.IntRoundTrip | config.py:28 | `int(str(n)) == n` for every `n` of at most 4300 digits |
| Text.TooManyDigitsRefused | config.py:28 | `int(str(n))` raises when `n` has more than 4300 digits |
| Text.ParseInt | config.py:28-36 | `int(text)` succeeds iff the text holds no ASCII separator (U+001C..U+001F) and, stripped, is an optional sign and then one to 4300 digits. The value is the digits' decimal value, negated after a minus sign; a negative value comes only after a minus |
| Text.ParseIgnoresWhitespace | config.py:28-36 | `int()` gives the same answer with the surrounding whitespace stripped, unless the text holds an ASCII separator, which `int()` always refuses |
| Text.SeparatorRefused | config.py:28 | `"\x1c5".strip()` is `"5"`, yet `int("\x1c5")` raises |
| EnvFile.ParseLine | settings_window.py:393-396 | a stripped line is skipped iff it is empty, starts with `#` or has no `=`. Otherwise it splits at the first `=` into a stripped key and a stripped value |
| EnvFile.LastLineWins | settings_window.py:392-396 | after reading, each key holds the value of its last line, and keys no line mentions keep their value |
| EnvFile.LoadConfig | settings_window.py:384-396 | reads `.env` if present, else `.env.example`, else nothing, into an empty dictionary |
| EnvFile.SavedKeysListed | settings_window.py:527-557 | the file written holds all sixteen keys |
| EnvFile.LayoutWellFormed | settings_window.py:528-553 | every heading, comment and blank line written is skipped by the reader |
| EnvFile.FieldLine | settings_window.py:393-396 | a written `KEY=value` line reads back as that key and value |
| EnvFile.NoteLine | settings_window.py:394 | a written comment or blank line is skipped |
| EnvFile.SavedLines | settings_window.py:527-557 | the text written splits back into the lines written |
| EnvFile.SaveThenLoad | settings_window.py:527-557 | reading the saved file yields exactly the dictionary it was written from, when values are stripped and have no line break |
| Settings.KeyOfLabel | settings_window.py:346 | the key part of an item is the key it was made from |
| Settings.IndexOr0 | settings_window.py:404-411 | `service_map.get(name, 0)`: a known name's position, else 0 |
| Settings.SetCurrentText | settings_window.py:438 | selects the item equal to the text, and otherwise keeps the selection |
| Settings.Clamp | settings_window.py:439-446 | a spin box pulls a value into its range and keeps one already inside |
| Settings.ApplyConfig | settings_window.py:401-449 | it fails at the first spin setting that does not parse or does not fit a C `int` (`setValue` raises `OverflowError`), then at a non-number opacity, then at the font size, for the same two reasons. Otherwise each widget shows its setting or default: selectors by map with index 0 as fallback, the sample rate kept when unknown, numbers clamped |
| Settings.Show | settings_window.py:404-446 | the widgets stay in range, and the selectors follow the dictionary |
| Settings.Stripped | settings_window.py:460-471 | stripping the line edits keeps every widget in range |
| Settings.ConfigFromUi | settings_window.py:451-484 | exactly the sixteen keys `save_config` writes, each with its widget's text |
| Settings.ServiceKeys | settings_window.py:88-93 | the service saved is the key of the chosen item, not its label |
| Settings.ModelKeys | settings_window.py:136-141 | the model saved is the key of the chosen item, not its label |
| Settings.SelectorsRoundTrip | settings_window.py:404-424 | position → item → key → position is the identity for the service box and for the model box |
| Settings.Validate | settings_window.py:486-516 | `aliyun` and `openai` need a non-blank key. `azure` needs a non-blank key, then a non-blank region. `local_whisper` always passes; whitespace counts as missing |
| Settings.SaveConfig | settings_window.py:518-523 | nothing is written iff validation fails |
| Settings.VisibleGroups | settings_window.py:344-351 | exactly the chosen service's group is visible; none for `local_whisper` |
| Settings.SetSpins | settings_window.py:439-444 | the spin boxes are set in order, each read and set before the next: it fails iff some setting does not parse or does not fit a C `int`, with the first such error; otherwise every value in order, each within the C `int` range |
| Settings.OverflowingSpinRefused | settings_window.py:439-440 | a chunk duration outside the C `int` range, but of at most 4300 digits, makes opening the dialog fail with an out-of-range error rather than being clamped to 1..10 |
| Settings.OverlongSpinRefused | settings_window.py:439 | a chunk duration of more than 4300 digits makes opening the dialog fail because `int()` raises |
| Settings.ApplySaved | settings_window.py:401-449 | applying a dictionary that holds what widgets `u` give, to freshly built widgets, shows `u` again |
| Settings.SaveThenReopen | settings_window.py:518-557 | saving and reopening the dialog shows the widgets as saved, with line edits stripped |
| Settings.LoadsSaved | config.py:11-36 | the application's configuration loads from the saved dictionary and sees the saved service and credentials |
| Settings.AcceptedByApplication | settings_window.py:486-516 | what the dialog accepts, `Config` loads and `Config.validate` passes |
| Devices.TagOf | check_devices.py:27-32 | the tag is decided by the first test that holds: stereo-mix name (whatever the channels), then input, then output, then none |
| Devices.FirstRecommendable | check_devices.py:40-49 | the first recording stereo mix, if any, with none before it |
| Devices.InputPositions | check_devices.py:63-65 | exactly the input devices, in increasing index order |
| Devices.Advise | check_devices.py:14-79 | a recommendation exists iff some device records and is a stereo mix, and it is the lowest such index. Otherwise exactly the input devices are listed, in order. A failed query gives the error |
| Devices.MarkerInAnyCase | check_devices.py:27 | "stereo mix" matches in any letter case |
| Devices.TagAndRecommendationDiffer | check_devices.py:27-42 | a stereo mix that cannot record is tagged as one but never recommended |
| Devices.RecommendationIgnoresLaterDevices | check_devices.py:40-49 | devices after the recommended one do not change the advice |
| Devices.FirstRecommendableUnique | check_devices.py:40-49 | a recording stereo mix with none before it is the recommendation |

## Left out

- Sound-device streams and device queries are not modelled: opening a stream, `list_devices` and `get_loopback_device`. Whether a device opens, and whether the list can be read, are inputs.
- Stereo-to-mono averaging, float32 samples and the `* 32767` scaling are floating point. Samples are integers, and the scaling is the parameter `quantise`.
- `_resample`'s linear interpolation is floating point and is the parameter `interpolate`. Only its identity case and its division by the original rate are modelled.
- Vendor SDK and network calls are parameters: OpenAI, the Azure recognizer, DashScope `Recognition.call` and Whisper inference. The temporary file written for DashScope, and deleting it, are left out because they are file I/O.
- The Python `wave` module is not part of this model. `Wav.Encode` writes the header the WAVE Form Definition prescribes for mono 16-bit PCM. `Wav.WavError` stands for the exceptions `wave` raises, for a non-positive rate or a header field too wide for 32 bits.
- Threads, `join(timeout=2)`, `time.sleep`, Qt signals and the event loop are concurrency. The worker is a sequential step over the queue. `run()` and `main()` only sequence the modelled calls.
- Message boxes, printing, the preview's opacity alpha, widget layout, the subtitle window and the installer dialog are display only.
- Config.Load does not read `WINDOW_OPACITY`: it is a float. So a non-number opacity, which raises between `WINDOW_HEIGHT` and `FONT_SIZE`, is not modelled.
- `dotenv` loading the `.env` file into the process environment is not modelled. The environment is a map argument.
- Settings.ApplyConfig takes `float()` and the opacity box's rounding and clamping as the parameter `float`, because they are floating point.
- Settings.ApplyConfig returns an error when `int()`, `float()` or a spin box's `setValue` raises. The widgets already updated before the exception are not modelled, because the dialog is then never shown.
- Settings.SaveThenReopen requires line edits without line breaks (`Writable`). A key typed with a newline would split the saved line, and Qt line edits normally do not hold one.
- Text.Lower lowers ASCII letters only. Python's Unicode case mapping is not modelled, and the markers and selectors compared are ASCII or CJK, which have no case.
- Text.ParseInt accepts an optional sign and ASCII digits inside whitespace. Python's `int()` also accepts underscores between digits and non-ASCII digits, and these are not modelled. The digit limit is CPython's default of 4300, which applies since Python 3.11 and the 2022 security releases of 3.7 to 3.10. Changing it with `PYTHONINTMAXSTRDIGITS` or `sys.set_int_max_str_digits` is not modelled.
- Text.IntToString does not model the same 4300-digit limit on `str(n)`. The source converts only spin-box values, which have at most four digits.
- File I/O errors while reading or writing `.env` are not modelled: the file contents are `Option<string>` arguments.
- App.StopApp does not model an exception raised inside `stop_capture`, which is only printed.
- `AudioCapture.__del__` only calls `stop_capture`, which `StopCapture` models.
- AudioCapture.StartCapture records which stream `self.stream` holds but not whether a replaced or left-behind stream is closed. The fallback overwrites a built first stream without closing it, and a stream left by a failed start is never closed, because `stop_capture` returns while not recording. Releasing sound-device resources is outside the model.
- The Aliyun first-call metric print is left out: it is output only.

=== FILE: app.dfy ===
/** The application object (`AISubtitleApp` in main.py): `initialize` builds
    the capture object, the transcription service and the worker in that
    order, after validating the configuration; the window's start and stop
    buttons run `start_capture` and `stop_capture`, and `cleanup` stops
    everything on exit.  Message boxes, printing and the Qt event loop are
    not modelled; an exception caught by a handler becomes a result. */
module App {
  import opened Results
  import opened AudioCapture
  import Config
  import W = Worker
  import T = Transcription

  /** The application's parts; each is absent until `initialize` builds it. */
  datatype App = App(capture: Option<Capture>, service: Option<T.Service>, worker: Option<W.Worker>)

  /** The application as the constructor leaves it. */
  const Unbuilt := App(None, None, None)

  /** Why `initialize` returns `False`: the configuration does not validate,
      the device list cannot be read, or the factory raises. */
  datatype InitError =
    | Invalid(invalid: Config.ValidationError)
    | DevicesUnreadable
    | NoService(failure: T.FactoryError)

  datatype Initialized = Initialized(app: App, error: Option<InitError>)

  /** `initialize`.  Each step assigns its part before the next step runs,
      so a later failure leaves the earlier parts built. */
  function Initialize(a: App, cfg: Config.Settings, sdk: T.Installed, devicesReadable: bool): (r: Initialized)
    // it succeeds exactly when every step does
    ensures r.error.None? <==>
      Config.Validate(cfg).None? && devicesReadable && T.CreateService(cfg, sdk).Ok?
    // a configuration that does not validate builds nothing
    ensures Config.Validate(cfg).Some? ==> r == Initialized(a, Some(Invalid(Config.Validate(cfg).value)))
    // once it validates, an idle capture object with the configured rate and
    // chunk duration and no extra callback is built
    ensures Config.Validate(cfg).None? ==>
      r.app.capture == Some(NewCapture(cfg.sampleRate, cfg.chunkDuration, false))
    ensures Config.Validate(cfg).None? && !devicesReadable ==>
      r.error == Some(DevicesUnreadable) && r.app == a.(capture := r.app.capture)
    ensures Config.Validate(cfg).None? && devicesReadable && T.CreateService(cfg, sdk).Err? ==>
      r.error == Some(NoService(T.CreateService(cfg, sdk).error)) && r.app == a.(capture := r.app.capture)
    // on success the service is the factory's and the worker is new and stopped
    ensures r.error.None? ==>
      r.app.service == Some(T.CreateService(cfg, sdk).value) && r.app.worker == Some(W.NewWorker())
  {
    match Config.Validate(cfg)
    case Some(e) => Initialized(a, Some(Invalid(e)))
    case None =>
      var a1 := a.(capture := Some(NewCapture(cfg.sampleRate, cfg.chunkDuration, false)));
      if !devicesReadable then Initialized(a1, Some(DevicesUnreadable))
      else
        match T.CreateService(cfg, sdk)
        case Err(e) => Initialized(a1, Some(NoService(e)))
        case Ok(s) => Initialized(a1.(service := Some(s), worker := Some(W.NewWorker())), None)
  }

  /** Neither the worker loop nor the capture stream is running. */
  predicate NothingRunning(a: App) {
    && (a.worker.Some? ==> !a.worker.value.running)
    && (a.capture.Some? ==> !a.capture.value.isRecording)
  }

  /** What `stop_capture` does, in order. */
  datatype Action = WorkerStopped | CaptureStopped

  datatype StopResult = StopResult(app: App, actions: seq<Action>)

  /** `stop_capture` (and `cleanup`, which only calls it): stops the worker,
      then the capture, each only if it has been built. */
  function StopApp(a: App): (r: StopResult)
    ensures NothingRunning(r.app)
    // each part that exists is stopped once, the worker first
    ensures WorkerStopped in r.actions <==> a.worker.Some?
    ensures CaptureStopped in r.actions <==> a.capture.Some?
    ensures forall i, j :: 0 <= i < j < |r.actions| ==>
      r.actions[i] == WorkerStopped && r.actions[j] == CaptureStopped
    // the parts stay built, the service is untouched and queued chunks stay queued
    ensures r.app.capture.Some? <==> a.capture.Some?
    ensures r.app.worker.Some? <==> a.worker.Some?
    ensures r.app.service == a.service
    ensures a.capture.Some? ==> r.app.capture.value.queue == a.capture.value.queue
  {
    var worker := match a.worker case None => None case Some(w) => Some(W.Stop(w));
    var capture := match a.capture case None => None case Some(c) => Some(StopCapture(c));
    StopResult(App(capture, a.service, worker),
            (if a.worker.Some? then [WorkerStopped] else []) + (if a.capture.Some? then [CaptureStopped] else []))
  }

  /** Stopping an application that is already stopped changes nothing, so
      `cleanup` after the stop button is harmless. */
  lemma StopIdempotent(a: App)
    ensures StopApp(StopApp(a).app).app == StopApp(a).app
  {
  }

  datatype StartResult = StartResult(app: App, failed: bool)

  /** `start_capture`: starts the capture, then the worker.  Any exception
      (a part not built, no stream opening) shows a warning and presses the
      window's stop button, which runs `stop_capture`. */
  function StartApp(a: App, env: StartEnv): (r: StartResult)
    // it succeeds exactly when both parts exist and a stream opens
    ensures !r.failed <==> a.capture.Some? && a.worker.Some? && StartCapture(a.capture.value, env).Ok?
    ensures !r.failed ==> r.app.capture.Some? && r.app.capture.value.isRecording
    ensures !r.failed ==> r.app.worker.Some? && r.app.worker.value.running
    // a failed start leaves nothing running
    ensures r.failed ==> NothingRunning(r.app)
    ensures r.app.service == a.service
  {
    match a.capture
    case None => StartResult(StopApp(a).app, true)
    case Some(c) =>
      match StartCapture(c, env)
      case Err(e) => StartResult(StopApp(a.(capture := Some(e.left))).app, true)
      case Ok(c') =>
        var a' := a.(capture := Some(c'));
        match a.worker
        case None => StartResult(StopApp(a').app, true)
        case Some(w) => StartResult(a'.(worker := Some(W.Start(w))), false)
  }

  /** `a` is a prefix of `b`'s samples when its chunks are a prefix of `b`'s. */
  lemma FlattenPrefix(a: seq<Chunk>, b: seq<Chunk>)
    requires a <= b
    ensures Flatten(a) <= Flatten(b)
  {
    assert b == a + b[|a|..];
    FlattenAppend(a, b[|a|..]);
  }

  /** A run of callbacks on an empty capture object: the queue holds
      exactly the chunks cut, they are the start of the delivered samples,
      and each is a chunk long. */
  lemma FedPrefix(c: Capture, blocks: seq<seq<Sample>>)
    requires c.buffer == [] && c.queue == []
    ensures var f := Feed(c, blocks);
      && f.capture.queue == f.chunks
      && Flatten(f.chunks) <= Flatten(blocks)
      && (ChunkSize(c) >= 0 ==> Uniform(f.chunks, ChunkSize(c)))
  {
    var f := Feed(c, blocks);
    FeedConserves(c, blocks);
    FeedEnqueues(c, blocks);
    assert Flatten(blocks) == Flatten(f.chunks) + f.capture.buffer;
    if ChunkSize(c) >= 0 {
      FeedChunkLength(c, blocks);
    }
  }

  /** The first chunks of a uniform prefix of the samples are again a
      uniform prefix of the samples. */
  lemma TakenPrefix(taken: seq<Chunk>, chunks: seq<Chunk>, samples: seq<Sample>, size: int)
    requires taken <= chunks && Flatten(chunks) <= samples
    requires size >= 0 ==> Uniform(chunks, size)
    ensures Flatten(taken) <= samples
    ensures size >= 0 ==> Uniform(taken, size)
  {
    FlattenPrefix(taken, chunks);
    PrefixTransitive(Flatten(taken), Flatten(chunks), samples);
    forall k | 0 <= k < |taken|
      ensures taken[k] == chunks[k]
    {
    }
  }

  lemma PrefixTransitive<X>(a: seq<X>, b: seq<X>, c: seq<X>)
    requires a <= b && b <= c
    ensures a <= c
  {
    assert forall k :: 0 <= k < |a| ==> a[k] == b[k] == c[k];
  }

  /** After a successful `initialize` and start, the capture object is
      recording with the configured rate and chunk duration, and nothing is
      buffered or queued yet. */
  lemma StartedEmpty(cfg: Config.Settings, sdk: T.Installed, env: StartEnv)
    requires Config.Validate(cfg).None? && T.CreateService(cfg, sdk).Ok?
    requires env.device.Opens? || env.defaultInput.Opens?
    ensures var a := StartApp(Initialize(Unbuilt, cfg, sdk, true).app, env).app;
      && a.capture.Some? && a.capture.value.isRecording
      && a.capture.value.buffer == [] && a.capture.value.queue == []
      && ChunkSize(a.capture.value) == cfg.sampleRate * cfg.chunkDuration
      && a.service == Some(T.CreateService(cfg, sdk).value)
  {
  }

  /** The stream delivers `blocks` to an empty capture object and the
      worker then runs `rounds` passes: the subtitles are the transcript,
      at `sampleRate`, of the chunks taken, and those chunks are the start
      of the delivered audio, in order, each a chunk long. */
  method Listen(c: Capture, s: T.Service, ext: T.Externals, sampleRate: int,
                blocks: seq<seq<Sample>>, rounds: nat)
    returns (taken: seq<Chunk>, subtitles: seq<string>)
    requires c.buffer == [] && c.queue == []
    ensures Flatten(taken) <= Flatten(blocks)
    ensures |taken| <= rounds
    ensures ChunkSize(c) >= 0 ==> forall k :: 0 <= k < |taken| ==> |taken[k]| == ChunkSize(c)
    ensures subtitles == W.TranscribeAll(s, taken, T.AsTranscriber(ext), sampleRate).subtitles
  {
    var fed := Feed(c, blocks);
    FedPrefix(c, blocks);
    var c', s';
    c', s', taken, subtitles := W.RunRounds(fed.capture, s, T.AsTranscriber(ext), sampleRate, rounds);
    TakenPrefix(taken, fed.chunks, Flatten(blocks), ChunkSize(c));
  }

  /** A whole session: initialize, press start, let the stream deliver
      `blocks`, and let the worker run `rounds` passes.  The subtitles are
      the transcript, at the configured sample rate, of the chunks taken,
      and those chunks are the start of the captured audio, in order. */
  method Session(cfg: Config.Settings, sdk: T.Installed, env: StartEnv, ext: T.Externals,
                 blocks: seq<seq<Sample>>, rounds: nat)
    returns (taken: seq<Chunk>, subtitles: seq<string>)
    requires Config.Validate(cfg).None? && T.CreateService(cfg, sdk).Ok?
    requires env.device.Opens? || env.defaultInput.Opens?
    ensures Flatten(taken) <= Flatten(blocks)
    ensures |taken| <= rounds
    ensures cfg.sampleRate * cfg.chunkDuration >= 0 ==>
      forall k :: 0 <= k < |taken| ==> |taken[k]| == cfg.sampleRate * cfg.chunkDuration
    ensures subtitles
      == W.TranscribeAll(T.CreateService(cfg, sdk).value, taken, T.AsTranscriber(ext), cfg.sampleRate).subtitles
  {
    StartedEmpty(cfg, sdk, env);
    var a := StartApp(Initialize(Unbuilt, cfg, sdk, true).app, env).app;
    taken, subtitles := Listen(a.capture.value, a.service.value, ext, cfg.sampleRate, blocks, rounds);
  }
}

=== FILE: audio_capture.dfy ===
/** The capture side of the pipeline (`AudioCapture` in audio_capture.py):
    the stream callback appends each delivered block to a buffer and, once the
    buffer holds a chunk's worth of samples, cuts off exactly one chunk and
    enqueues it; the worker later takes chunks from the queue oldest first.
    Opening the sound-device stream is reduced to two yes/no answers. */
module AudioCapture {
  import opened Results

  /** One captured sample.  The source holds float32 values in [-1, 1];
      nothing in the capture logic depends on the value. */
  type Sample = int

  /** A chunk of consecutive samples, oldest first. */
  type Chunk = seq<Sample>

  /** Where an open input stream reads from: a device index, or the system's
      default input (the fallback when the chosen device cannot be opened). */
  datatype StreamSource = Device(index: int) | DefaultInput

  datatype Capture = Capture(
    isRecording: bool,
    stream: Option<StreamSource>,
    buffer: seq<Sample>,
    queue: seq<Chunk>,
    sampleRate: int,
    chunkDuration: int,
    hasCallback: bool)   // whether an extra chunk callback was supplied

  /** `AudioCapture(callback)` with the configured sample rate and chunk
      duration: idle, nothing buffered, nothing queued. */
  function NewCapture(sampleRate: int, chunkDuration: int, hasCallback: bool): (c: Capture)
    ensures !c.isRecording && c.stream.None? && c.buffer == [] && c.queue == []
    ensures c.sampleRate == sampleRate && c.chunkDuration == chunkDuration
    ensures c.hasCallback == hasCallback
  {
    Capture(false, None, [], [], sampleRate, chunkDuration, hasCallback)
  }

  /** `int(sample_rate * chunk_duration)`; both factors are integers. */
  function ChunkSize(c: Capture): int {
    c.sampleRate * c.chunkDuration
  }

  /** All samples of a sequence of chunks, in order. */
  function Flatten(chunks: seq<Chunk>): (s: seq<Sample>)
  {
    if chunks == [] then [] else chunks[0] + Flatten(chunks[1..])
  }

  lemma {:induction false} FlattenAppend(a: seq<Chunk>, b: seq<Chunk>)
    ensures Flatten(a + b) == Flatten(a) + Flatten(b)
  {
    if a != [] {
      assert (a + b)[0] == a[0];
      assert (a + b)[1..] == a[1..] + b;
      FlattenAppend(a[1..], b);
      calc {
        Flatten(a + b);
        a[0] + Flatten(a[1..] + b);
        a[0] + (Flatten(a[1..]) + Flatten(b));
        (a[0] + Flatten(a[1..])) + Flatten(b);
      }
    } else {
      assert a + b == b;
    }
  }

  /** The position at which Python's `s[:k]` and `s[k:]` cut a sequence of
      length `n`: a negative `k` counts from the end, and the position is
      clamped to `0..n`. */
  function PyCut(n: nat, k: int): (i: nat)
    ensures i <= n
    ensures 0 <= k <= n ==> i == k
    ensures k > n ==> i == n
  {
    if k < 0 then (if n + k < 0 then 0 else n + k) else if k > n then n else k
  }

  /** The result of one stream callback: the new capture state, the chunk it
      cut and enqueued (if any), and what it passed to the extra callback. */
  datatype Delivery = Delivery(capture: Capture, chunk: Option<Chunk>, forwarded: Option<Chunk>)

  /** `audio_callback` for a mono block.  At most one chunk leaves per call,
      even when the block is larger than a chunk. */
  function AudioCallback(c: Capture, block: seq<Sample>): (r: Delivery)
    // nothing is lost or reordered
    ensures c.buffer + block == Flatten(AsSeq(r.chunk)) + r.capture.buffer
    // a chunk is cut exactly when the buffer reaches the chunk size
    ensures r.chunk.Some? <==> |c.buffer| + |block| >= ChunkSize(c)
    ensures r.chunk.Some? && ChunkSize(c) >= 0 ==> |r.chunk.value| == ChunkSize(c)
    ensures r.chunk.None? ==> r.capture.buffer == c.buffer + block
    // a buffer below the chunk size stays below it for blocks no larger than a chunk
    ensures |c.buffer| < ChunkSize(c) && |block| <= ChunkSize(c) ==> |r.capture.buffer| < ChunkSize(c)
    // the chunk is enqueued at the back, and handed to the extra callback if there is one
    ensures r.capture.queue == c.queue + AsSeq(r.chunk)
    ensures r.forwarded == (if c.hasCallback then r.chunk else None)
    ensures r.capture == c.(buffer := r.capture.buffer, queue := r.capture.queue)
  {
    var all := c.buffer + block;
    if |all| >= ChunkSize(c) then
      var cut := PyCut(|all|, ChunkSize(c));
      var chunk := all[..cut];
      assert chunk + all[cut..] == all;
      Delivery(c.(buffer := all[cut..], queue := c.queue + [chunk]), Some(chunk),
               if c.hasCallback then Some(chunk) else None)
    else
      Delivery(c.(buffer := all), None, None)
  }

  /** The state after a run of callbacks, and the chunks they cut, in order. */
  datatype Fed = Fed(capture: Capture, chunks: seq<Chunk>)

  function Feed(c: Capture, blocks: seq<seq<Sample>>): Fed
    decreases |blocks|
  {
    if blocks == [] then Fed(c, [])
    else
      var d := AudioCallback(c, blocks[0]);
      var rest := Feed(d.capture, blocks[1..]);
      Fed(rest.capture, AsSeq(d.chunk) + rest.chunks)
  }

  /** Over any run of callbacks, the samples delivered are the samples of the
      chunks cut followed by what is still buffered. */
  lemma {:induction false} FeedConserves(c: Capture, blocks: seq<seq<Sample>>)
    ensures var f := Feed(c, blocks);
      c.buffer + Flatten(blocks) == Flatten(f.chunks) + f.capture.buffer
    decreases |blocks|
  {
    if blocks != [] {
      var d := AudioCallback(c, blocks[0]);
      var rest := Feed(d.capture, blocks[1..]);
      FeedConserves(d.capture, blocks[1..]);
      FlattenAppend(AsSeq(d.chunk), rest.chunks);
      assert Flatten(blocks) == blocks[0] + Flatten(blocks[1..]);
      Regroup(c.buffer, blocks[0], Flatten(blocks[1..]), Flatten(AsSeq(d.chunk)), d.capture.buffer,
              Flatten(rest.chunks), rest.capture.buffer);
    }
  }

  /** `a + b == x + y` and `y + c == z + w` give `a + (b + c) == (x + z) + w`. */
  lemma Regroup<T>(a: seq<T>, b: seq<T>, c: seq<T>, x: seq<T>, y: seq<T>, z: seq<T>, w: seq<T>)
    requires a + b == x + y
    requires y + c == z + w
    ensures a + (b + c) == (x + z) + w
  {
    calc {
      a + (b + c);
      (a + b) + c;
      (x + y) + c;
      x + (y + c);
      x + (z + w);
    }
  }

  /** The chunks a run of callbacks cuts join the back of the queue in the
      order they were cut, and nothing but the buffer and the queue changes. */
  lemma {:induction false} FeedEnqueues(c: Capture, blocks: seq<seq<Sample>>)
    ensures var f := Feed(c, blocks);
      && f.capture.queue == c.queue + f.chunks
      && f.capture == c.(buffer := f.capture.buffer, queue := f.capture.queue)
    decreases |blocks|
  {
    if blocks != [] {
      var d := AudioCallback(c, blocks[0]);
      var rest := Feed(d.capture, blocks[1..]);
      FeedEnqueues(d.capture, blocks[1..]);
      assert d.capture.queue == c.queue + AsSeq(d.chunk);
      AppendAssoc(c.queue, AsSeq(d.chunk), rest.chunks);
    }
  }

  lemma AppendAssoc<T>(a: seq<T>, b: seq<T>, c: seq<T>)
    ensures a + (b + c) == (a + b) + c
  {
  }

  /** Every chunk has length `size`. */
  predicate Uniform(chunks: seq<Chunk>, size: int) {
    forall k :: 0 <= k < |chunks| ==> |chunks[k]| == size
  }

  /** Every chunk a run of callbacks cuts is exactly a chunk long. */
  lemma {:induction false} FeedChunkLength(c: Capture, blocks: seq<seq<Sample>>)
    requires ChunkSize(c) >= 0
    ensures Uniform(Feed(c, blocks).chunks, ChunkSize(c))
    decreases |blocks|
  {
    if blocks != [] {
      var d := AudioCallback(c, blocks[0]);
      var rest := Feed(d.capture, blocks[1..]);
      assert ChunkSize(d.capture) == ChunkSize(c);
      FeedChunkLength(d.capture, blocks[1..]);
      var chunks := AsSeq(d.chunk) + rest.chunks;
      forall k | 0 <= k < |chunks|
        ensures |chunks[k]| == ChunkSize(c)
      {
        if k >= |AsSeq(d.chunk)| {
          assert chunks[k] == rest.chunks[k - |AsSeq(d.chunk)|];
        } else {
          assert chunks[k] == d.chunk.value;
        }
      }
    }
  }

  /** `q * size + r` with `0 <= r < size` determines quotient and remainder. */
  lemma DivModUnique(t: int, q: int, r: int, size: int)
    requires size > 0 && 0 <= r < size && t == q * size + r
    ensures q == t / size && r == t % size
  {
    var q', r' := t / size, t % size;
    var d := q - q';
    assert d * size == r' - r by {
      assert q * size == q' * size + d * size;
    }
    if d >= 1 {
      MulAtLeast(d, size);
    } else if d <= -1 {
      assert (-d) * size == -(d * size);
      MulAtLeast(-d, size);
    }
  }

  lemma MulAtLeast(d: int, size: int)
    requires d >= 1 && size > 0
    ensures d * size >= size
  {
    assert d * size == size + (d - 1) * size;
  }

  lemma {:induction false} FlattenUniform(chunks: seq<Chunk>, size: nat)
    requires Uniform(chunks, size)
    ensures |Flatten(chunks)| == |chunks| * size
  {
    if chunks != [] {
      FlattenUniform(chunks[1..], size);
      assert |Flatten(chunks)| == size + (|chunks| - 1) * size;
    }
  }

  lemma {:induction false} FeedStaysBelow(c: Capture, blocks: seq<seq<Sample>>)
    requires |c.buffer| < ChunkSize(c)
    requires forall k :: 0 <= k < |blocks| ==> |blocks[k]| <= ChunkSize(c)
    ensures |Feed(c, blocks).capture.buffer| < ChunkSize(c)
    decreases |blocks|
  {
    if blocks != [] {
      var d := AudioCallback(c, blocks[0]);
      assert ChunkSize(d.capture) == ChunkSize(c);
      FeedStaysBelow(d.capture, blocks[1..]);
    }
  }

  /** When every block is at most a chunk long (the stream delivers blocks of
      a tenth of a second, and a chunk lasts whole seconds), a run of
      callbacks starting below the chunk size cuts `floor(N / size)` chunks
      of `N` samples and keeps `N mod size` buffered. */
  lemma FeedCounts(c: Capture, blocks: seq<seq<Sample>>)
    requires ChunkSize(c) > 0 && |c.buffer| < ChunkSize(c)
    requires forall k :: 0 <= k < |blocks| ==> |blocks[k]| <= ChunkSize(c)
    ensures var f := Feed(c, blocks);
      var n := |c.buffer| + |Flatten(blocks)|;
      && |f.chunks| == n / ChunkSize(c)
      && |f.capture.buffer| == n % ChunkSize(c)
  {
    var f := Feed(c, blocks);
    var size := ChunkSize(c);
    FeedConserves(c, blocks);
    FeedChunkLength(c, blocks);
    FeedStaysBelow(c, blocks);
    FlattenUniform(f.chunks, size);
    assert |c.buffer| + |Flatten(blocks)| == |f.chunks| * size + |f.capture.buffer|;
    DivModUnique(|c.buffer| + |Flatten(blocks)|, |f.chunks|, |f.capture.buffer|, size);
  }

  /** 48000 silent samples (16000 Hz, 3 s chunks) arriving at once make one
      chunk of silence and leave the buffer empty. */
  lemma OneChunkOfSilence()
    ensures var c := NewCapture(16000, 3, false);
      var d := AudioCallback(c, seq(48000, _ => 0));
      && d.chunk == Some(seq(48000, _ => 0))
      && d.capture.buffer == []
      && d.capture.queue == [seq(48000, _ => 0)]
  {
    var c := NewCapture(16000, 3, false);
    var zeros: seq<Sample> := seq(48000, _ => 0);
    assert c.buffer + zeros == zeros;
  }

  /** 100000 samples arriving in one block still make only one chunk:
      52000 samples stay buffered. */
  lemma LargeBlockMakesOneChunk(block: seq<Sample>)
    requires |block| == 100000
    ensures var d := AudioCallback(NewCapture(16000, 3, false), block);
      && d.chunk == Some(block[..48000])
      && d.capture.buffer == block[48000..]
      && |d.capture.buffer| == 52000
  {
    assert [] + block == block;
  }

  /** 100000 samples arriving in blocks of at most a chunk make two chunks
      and leave 4000 samples buffered. */
  lemma SmallBlocksMakeTwoChunks(blocks: seq<seq<Sample>>)
    requires |Flatten(blocks)| == 100000
    requires forall k :: 0 <= k < |blocks| ==> |blocks[k]| <= 48000
    ensures var f := Feed(NewCapture(16000, 3, false), blocks);
      |f.chunks| == 2 && |f.capture.buffer| == 4000
  {
    FeedCounts(NewCapture(16000, 3, false), blocks);
  }

  /** How `start_capture` chooses the device: an explicit index is used as
      given; otherwise the configured index, where -1 means the default output
      device used as a loopback source. */
  function ResolveDevice(requested: Option<int>, configured: int, defaultOutput: int): (d: int)
    ensures requested.Some? ==> d == requested.value
    ensures requested.None? && configured != -1 ==> d == configured
    ensures requested.None? && configured == -1 ==> d == defaultOutput
  {
    match requested
    case Some(i) => i
    case None => if configured == -1 then defaultOutput else configured
  }

  /** How one attempt to open an input stream ends: `sd.InputStream(...)`
      raises, or the stream is built and assigned to `self.stream` but its
      `start()` raises, or it starts. */
  datatype Opening = NotCreated | NotStarted | Opens

  /** What `start_capture` learns from the sound library: the requested
      device, the configured index, the default output device, and how the
      attempt on the chosen device, and then on the default input, ends. */
  datatype StartEnv = StartEnv(
    requested: Option<int>,
    configuredDevice: int,
    defaultOutput: int,
    device: Opening,
    defaultInput: Opening)

  /** Both the chosen device and the default input failed and the exception
      is raised; `left` is the object as the failed attempts leave it. */
  datatype StartError = NoInputStream(left: Capture)

  /** One attempt: a stream that was built is assigned to the object before
      it is started, so it stays there even when `start()` raises. */
  function TryOpen(c: Capture, source: StreamSource, o: Opening): (d: Capture)
    ensures o.NotCreated? ==> d == c
    ensures !o.NotCreated? ==> d.stream == Some(source)
    ensures d.isRecording == (c.isRecording || o.Opens?)
    ensures d == c.(stream := d.stream, isRecording := d.isRecording)
  {
    match o
    case NotCreated => c
    case NotStarted => c.(stream := Some(source))
    case Opens => c.(stream := Some(source), isRecording := true)
  }

  function StartCapture(c: Capture, env: StartEnv): (r: Result<Capture, StartError>)
    // already recording: nothing changes
    ensures c.isRecording ==> r == Ok(c)
    ensures !c.isRecording ==> (r.Ok? <==> env.device.Opens? || env.defaultInput.Opens?)
    ensures !c.isRecording && r.Ok? ==> r.value.isRecording
    ensures !c.isRecording && r.Ok? && env.device.Opens? ==>
      r.value.stream == Some(Device(ResolveDevice(env.requested, env.configuredDevice, env.defaultOutput)))
    ensures !c.isRecording && r.Ok? && !env.device.Opens? ==> r.value.stream == Some(DefaultInput)
    // neither the buffer nor the queue is touched
    ensures r.Ok? ==> r.value == c.(isRecording := r.value.isRecording, stream := r.value.stream)
    // a start that raises is not recording and holds the last stream built,
    // which was never started
    ensures r.Err? ==> !c.isRecording && !r.error.left.isRecording
    ensures r.Err? ==> r.error.left == c.(stream := r.error.left.stream)
    ensures r.Err? && env.defaultInput.NotStarted? ==> r.error.left.stream == Some(DefaultInput)
    ensures r.Err? && env.defaultInput.NotCreated? && env.device.NotStarted? ==>
      r.error.left.stream == Some(Device(ResolveDevice(env.requested, env.configuredDevice, env.defaultOutput)))
    ensures r.Err? && env.defaultInput.NotCreated? && env.device.NotCreated? ==> r.error.left.stream == c.stream
  {
    if c.isRecording then Ok(c)
    else
      var device := ResolveDevice(env.requested, env.configuredDevice, env.defaultOutput);
      var first := TryOpen(c, Device(device), env.device);
      if first.isRecording then Ok(first)
      else
        var second := TryOpen(first, DefaultInput, env.defaultInput);
        if second.isRecording then Ok(second) else Err(NoInputStream(second))
  }

  /** A failed start keeps the stream it built, and `stop_capture`, seeing
      that nothing is recording, returns before closing it. */
  lemma FailedStartKeepsStream(sampleRate: int, chunkDuration: int, hasCallback: bool)
    ensures var c := NewCapture(sampleRate, chunkDuration, hasCallback);
      var r := StartCapture(c, StartEnv(None, 0, 0, NotCreated, NotStarted));
      && r.Err? && r.error.left.stream == Some(DefaultInput) && !r.error.left.isRecording
      && StopCapture(r.error.left).stream == Some(DefaultInput)
  {
  }

  /** `stop_capture`: closes the stream and discards the partial buffer;
      chunks already queued stay queued. */
  function StopCapture(c: Capture): (r: Capture)
    ensures !c.isRecording ==> r == c
    ensures !r.isRecording
    ensures c.isRecording ==> r.stream.None? && r.buffer == []
    ensures r.queue == c.queue
    ensures r == c.(isRecording := r.isRecording, stream := r.stream, buffer := r.buffer)
  {
    if !c.isRecording then c
    else c.(stream := None, isRecording := false, buffer := [])
  }

  /** The state after `get_audio_chunk`, and the chunk it returned. */
  datatype Taken = Taken(capture: Capture, chunk: Option<Chunk>)

  /** `get_audio_chunk`: the oldest queued chunk, or `None` once the wait
      times out on an empty queue; it never raises. */
  function GetAudioChunk(c: Capture): (r: Taken)
    ensures c.queue == [] ==> r.chunk.None? && r.capture == c
    ensures c.queue != [] ==> r.chunk == Some(c.queue[0]) && r.capture == c.(queue := c.queue[1..])
    ensures c.queue == AsSeq(r.chunk) + r.capture.queue
  {
    if c.queue == [] then Taken(c, None)
    else Taken(c.(queue := c.queue[1..]), Some(c.queue[0]))
  }

  /** Anything that happens to the capture object, in the order it happens. */
  datatype Event =
    | Delivered(block: seq<Sample>)   // the stream callback fires
    | Took                            // the worker calls get_audio_chunk
    | Started(env: StartEnv)          // start_capture
    | Stopped                         // stop_capture

  /** A capture state, the chunks enqueued and the chunks taken, in order. */
  datatype Replayed = Replayed(capture: Capture, produced: seq<Chunk>, consumed: seq<Chunk>)

  /** One event applied to the capture object.  A start that raises keeps
      the recording flag, the buffer and the queue, and holds the last stream
      it built. */
  function Step(c: Capture, e: Event): (r: Replayed)
    ensures c.queue + r.produced == r.consumed + r.capture.queue
  {
    match e
    case Delivered(block) =>
      var d := AudioCallback(c, block);
      Replayed(d.capture, AsSeq(d.chunk), [])
    case Took =>
      var t := GetAudioChunk(c);
      Replayed(t.capture, [], AsSeq(t.chunk))
    case Started(env) =>
      Replayed(match StartCapture(c, env) case Ok(c') => c' case Err(e) => e.left, [], [])
    case Stopped =>
      Replayed(StopCapture(c), [], [])
  }

  function Replay(c: Capture, events: seq<Event>): Replayed
    decreases |events|
  {
    if events == [] then Replayed(c, [], [])
    else
      var s := Step(c, events[0]);
      var rest := Replay(s.capture, events[1..]);
      Replayed(rest.capture, s.produced + rest.produced, s.consumed + rest.consumed)
  }

  /** The queue is first-in first-out under any interleaving of callbacks,
      takes, starts and stops: what was queued before plus what was enqueued
      equals what was taken followed by what is still queued. */
  lemma {:induction false} QueueIsFifo(c: Capture, events: seq<Event>)
    ensures var r := Replay(c, events);
      c.queue + r.produced == r.consumed + r.capture.queue
    decreases |events|
  {
    if events != [] {
      var s := Step(c, events[0]);
      var rest := Replay(s.capture, events[1..]);
      QueueIsFifo(s.capture, events[1..]);
      FifoCompose(c.queue, s.produced, rest.produced, s.consumed, rest.consumed,
                  s.capture.queue, rest.capture.queue);
    }
  }

  /** Two first-in first-out segments in a row make one. */
  lemma FifoCompose<T>(q0: seq<T>, p1: seq<T>, p2: seq<T>, c1: seq<T>, c2: seq<T>, q1: seq<T>, q2: seq<T>)
    requires q0 + p1 == c1 + q1
    requires q1 + p2 == c2 + q2
    ensures q0 + (p1 + p2) == (c1 + c2) + q2
  {
    calc {
      q0 + (p1 + p2);
      (q0 + p1) + p2;
      (c1 + q1) + p2;
      c1 + (q1 + p2);
      c1 + (c2 + q2);
    }
  }
}

=== FILE: config.dfy ===
/** Application configuration (`Config` in config.py): every setting is read
    from the process environment, falling back to a default, and integer
    settings go through Python's `int()`.  `validate` checks that the chosen
    service has its credentials. */
module Config {
  import opened Results
  import opened Text

  /** The four service selectors the factory and the settings dialog know. */
  const ServiceKeys: seq<string> := ["openai", "azure", "aliyun", "local_whisper"]

  datatype Settings = Settings(
    aiService: string,
    openaiApiKey: string,
    openaiModel: string,
    openaiBaseUrl: string,
    azureSpeechKey: string,
    azureSpeechRegion: string,
    aliyunApiKey: string,
    aliyunModel: string,
    sampleRate: int,
    chunkDuration: int,
    audioDeviceIndex: int,
    windowWidth: int,
    windowHeight: int,
    fontSize: int)

  /** The values used when a variable is not set. */
  const Defaults := Settings(
    "openai", "", "whisper-1", "https://api.openai.com/v1", "", "eastus",
    "", "paraformer-realtime-v2", 16000, 3, -1, 800, 120, 24)

  /** An integer variable whose text `int()` rejects; the `ValueError`
      escapes while the configuration is being loaded. */
  datatype LoadError = NotAnInteger(variable: string)

  /** `os.getenv(name, default)`. */
  function GetText(env: map<string, string>, name: string, default: string): (v: string)
    ensures name in env ==> v == env[name]
    ensures name !in env ==> v == default
  {
    if name in env then env[name] else default
  }

  /** `int(os.getenv(name, default))`: the default is already an integer. */
  function GetInt(env: map<string, string>, name: string, default: int): (r: Result<int, LoadError>)
    ensures name !in env ==> r == Ok(default)
    ensures name in env && ParseInt(env[name]).Some? ==> r == Ok(ParseInt(env[name]).value)
    ensures name in env && ParseInt(env[name]).None? ==> r == Err(NotAnInteger(name))
  {
    if name !in env then Ok(default)
    else match ParseInt(env[name])
      case Some(n) => Ok(n)
      case None => Err(NotAnInteger(name))
  }

  /** The names of the integer variables, in the order they are read, and
      their defaults. */
  const IntNames: seq<string> :=
    ["SAMPLE_RATE", "CHUNK_DURATION", "AUDIO_DEVICE_INDEX", "WINDOW_WIDTH", "WINDOW_HEIGHT", "FONT_SIZE"]
  const IntDefaults: seq<int> :=
    [Defaults.sampleRate, Defaults.chunkDuration, Defaults.audioDeviceIndex,
     Defaults.windowWidth, Defaults.windowHeight, Defaults.fontSize]

  /** An integer variable that is set but is not an integer. */
  predicate BadInt(env: map<string, string>, name: string) {
    name in env && ParseInt(env[name]).None?
  }

  /** `names[k]` is the first of `names` that is set to a non-integer. */
  predicate FirstBadInt(env: map<string, string>, names: seq<string>, k: nat)
    requires k < |names|
  {
    BadInt(env, names[k]) && forall j :: 0 <= j < k ==> !BadInt(env, names[j])
  }

  /** The value `int(os.getenv(name, default))` gives for a variable that
      parses. */
  function IntValue(env: map<string, string>, name: string, default: int): int {
    if name in env && ParseInt(env[name]).Some? then ParseInt(env[name]).value else default
  }

  /** Reads integer variables in order; the first one that does not parse
      is the error. */
  function ReadInts(env: map<string, string>, names: seq<string>, defaults: seq<int>): (r: Result<seq<int>, LoadError>)
    requires |names| == |defaults|
    ensures r.Err? <==> exists k :: 0 <= k < |names| && BadInt(env, names[k])
    ensures r.Err? ==> exists k :: 0 <= k < |names| && FirstBadInt(env, names, k) && r.error == NotAnInteger(names[k])
    ensures r.Ok? ==> (|r.value| == |names|
      && forall k :: 0 <= k < |names| ==> r.value[k] == IntValue(env, names[k], defaults[k]))
  {
    if names == [] then Ok([])
    else
      match GetInt(env, names[0], defaults[0])
      case Err(e) =>
        assert FirstBadInt(env, names, 0);
        Err(e)
      case Ok(n) =>
        match ReadInts(env, names[1..], defaults[1..])
        case Err(e) =>
          assert forall k :: 0 <= k < |names| - 1 ==> names[1..][k] == names[k + 1];
          FirstBadShift(env, names, e);
          Err(e)
        case Ok(rest) =>
          assert forall k :: 1 <= k < |names| ==> names[k] == names[1..][k - 1];
          Ok([n] + rest)
  }

  /** The first bad variable after a good first one is the first bad
      variable of the whole list. */
  lemma FirstBadShift(env: map<string, string>, names: seq<string>, e: LoadError)
    requires |names| >= 1 && !BadInt(env, names[0])
    requires exists k :: 0 <= k < |names| - 1 && FirstBadInt(env, names[1..], k) && e == NotAnInteger(names[1..][k])
    ensures exists k :: 0 <= k < |names| && FirstBadInt(env, names, k) && e == NotAnInteger(names[k])
  {
    var k :| 0 <= k < |names| - 1 && FirstBadInt(env, names[1..], k) && e == NotAnInteger(names[1..][k]);
    assert forall j :: 1 <= j <= k ==> names[j] == names[1..][j - 1];
    assert FirstBadInt(env, names, k + 1);
  }

  /** The class body of `Config`, evaluated against an environment. */
  function Load(env: map<string, string>): (r: Result<Settings, LoadError>)
    // it raises exactly when some integer variable is set to something
    // `int()` rejects, and names the first such variable in reading order
    ensures r.Err? <==> exists k :: 0 <= k < |IntNames| && BadInt(env, IntNames[k])
    ensures r.Err? ==> exists k :: 0 <= k < |IntNames| && FirstBadInt(env, IntNames, k) && r.error == NotAnInteger(IntNames[k])
    // otherwise each setting is its variable's value, or the default when unset
    ensures r.Ok? ==> (
      && r.value.aiService == GetText(env, "AI_SERVICE", Defaults.aiService)
      && r.value.openaiApiKey == GetText(env, "OPENAI_API_KEY", Defaults.openaiApiKey)
      && r.value.openaiModel == GetText(env, "OPENAI_MODEL", Defaults.openaiModel)
      && r.value.openaiBaseUrl == GetText(env, "OPENAI_BASE_URL", Defaults.openaiBaseUrl)
      && r.value.azureSpeechKey == GetText(env, "AZURE_SPEECH_KEY", Defaults.azureSpeechKey)
      && r.value.azureSpeechRegion == GetText(env, "AZURE_SPEECH_REGION", Defaults.azureSpeechRegion)
      && r.value.aliyunApiKey == GetText(env, "ALIYUN_API_KEY", Defaults.aliyunApiKey)
      && r.value.aliyunModel == GetText(env, "ALIYUN_MODEL", Defaults.aliyunModel))
    ensures r.Ok? ==> (
      && r.value.sampleRate == IntValue(env, "SAMPLE_RATE", Defaults.sampleRate)
      && r.value.chunkDuration == IntValue(env, "CHUNK_DURATION", Defaults.chunkDuration)
      && r.value.audioDeviceIndex == IntValue(env, "AUDIO_DEVICE_INDEX", Defaults.audioDeviceIndex)
      && r.value.windowWidth == IntValue(env, "WINDOW_WIDTH", Defaults.windowWidth)
      && r.value.windowHeight == IntValue(env, "WINDOW_HEIGHT", Defaults.windowHeight)
      && r.value.fontSize == IntValue(env, "FONT_SIZE", Defaults.fontSize))
  {
    match ReadInts(env, IntNames, IntDefaults)
    case Err(e) => Err(e)
    case Ok(v) =>
      IntsRead(env, v);
      Ok(Settings(
        GetText(env, "AI_SERVICE", Defaults.aiService),
        GetText(env, "OPENAI_API_KEY", Defaults.openaiApiKey),
        GetText(env, "OPENAI_MODEL", Defaults.openaiModel),
        GetText(env, "OPENAI_BASE_URL", Defaults.openaiBaseUrl),
        GetText(env, "AZURE_SPEECH_KEY", Defaults.azureSpeechKey),
        GetText(env, "AZURE_SPEECH_REGION", Defaults.azureSpeechRegion),
        GetText(env, "ALIYUN_API_KEY", Defaults.aliyunApiKey),
        GetText(env, "ALIYUN_MODEL", Defaults.aliyunModel),
        v[0], v[1], v[2], v[3], v[4], v[5]))
  }

  /** The integers read, by variable name. */
  lemma IntsRead(env: map<string, string>, v: seq<int>)
    requires ReadInts(env, IntNames, IntDefaults) == Ok(v)
    ensures |v| == 6
    ensures v[0] == IntValue(env, "SAMPLE_RATE", Defaults.sampleRate)
    ensures v[1] == IntValue(env, "CHUNK_DURATION", Defaults.chunkDuration)
    ensures v[2] == IntValue(env, "AUDIO_DEVICE_INDEX", Defaults.audioDeviceIndex)
    ensures v[3] == IntValue(env, "WINDOW_WIDTH", Defaults.windowWidth)
    ensures v[4] == IntValue(env, "WINDOW_HEIGHT", Defaults.windowHeight)
    ensures v[5] == IntValue(env, "FONT_SIZE", Defaults.fontSize)
  {
  }

  /** With nothing set, every setting takes its default. */
  lemma LoadEmpty()
    ensures Load(map[]) == Ok(Defaults)
  {
  }

  /** The environment that spells out every setting, integers in decimal. */
  function AsEnvironment(s: Settings): map<string, string> {
    map[
      "AI_SERVICE" := s.aiService,
      "OPENAI_API_KEY" := s.openaiApiKey,
      "OPENAI_MODEL" := s.openaiModel,
      "OPENAI_BASE_URL" := s.openaiBaseUrl,
      "AZURE_SPEECH_KEY" := s.azureSpeechKey,
      "AZURE_SPEECH_REGION" := s.azureSpeechRegion,
      "ALIYUN_API_KEY" := s.aliyunApiKey,
      "ALIYUN_MODEL" := s.aliyunModel,
      "SAMPLE_RATE" := IntToString(s.sampleRate),
      "CHUNK_DURATION" := IntToString(s.chunkDuration),
      "AUDIO_DEVICE_INDEX" := IntToString(s.audioDeviceIndex),
      "WINDOW_WIDTH" := IntToString(s.windowWidth),
      "WINDOW_HEIGHT" := IntToString(s.windowHeight),
      "FONT_SIZE" := IntToString(s.fontSize)]
  }

  /** Loading an environment that spells out a configuration gives that
      configuration back, for integers no longer than `int()` converts. */
  lemma LoadAsEnvironment(s: Settings)
    requires forall k :: 0 <= k < |IntNames| ==> WithinDigitLimit(IntValues(s)[k])
    ensures Load(AsEnvironment(s)) == Ok(s)
  {
    SpelledIntegers(s);
    SpelledTexts(s);
    ReadSpelledInts(AsEnvironment(s), IntNames, IntDefaults, IntValues(s));
  }

  /** The integer settings, in reading order. */
  function IntValues(s: Settings): (v: seq<int>)
    ensures |v| == |IntNames|
  {
    [s.sampleRate, s.chunkDuration, s.audioDeviceIndex, s.windowWidth, s.windowHeight, s.fontSize]
  }

  lemma SpelledIntegers(s: Settings)
    ensures forall k :: 0 <= k < |IntNames| ==>
      IntNames[k] in AsEnvironment(s) && AsEnvironment(s)[IntNames[k]] == IntToString(IntValues(s)[k])
  {
    var env := AsEnvironment(s);
    assert env[IntNames[0]] == IntToString(s.sampleRate);
    assert env[IntNames[1]] == IntToString(s.chunkDuration);
    assert env[IntNames[2]] == IntToString(s.audioDeviceIndex);
    assert env[IntNames[3]] == IntToString(s.windowWidth);
    assert env[IntNames[4]] == IntToString(s.windowHeight);
    assert env[IntNames[5]] == IntToString(s.fontSize);
  }

  /** The text settings read back from the environment that spells them. */
  lemma SpelledTexts(s: Settings)
    ensures var env := AsEnvironment(s);
      && GetText(env, "AI_SERVICE", Defaults.aiService) == s.aiService
      && GetText(env, "OPENAI_API_KEY", Defaults.openaiApiKey) == s.openaiApiKey
      && GetText(env, "OPENAI_MODEL", Defaults.openaiModel) == s.openaiModel
      && GetText(env, "OPENAI_BASE_URL", Defaults.openaiBaseUrl) == s.openaiBaseUrl
      && GetText(env, "AZURE_SPEECH_KEY", Defaults.azureSpeechKey) == s.azureSpeechKey
      && GetText(env, "AZURE_SPEECH_REGION", Defaults.azureSpeechRegion) == s.azureSpeechRegion
      && GetText(env, "ALIYUN_API_KEY", Defaults.aliyunApiKey) == s.aliyunApiKey
      && GetText(env, "ALIYUN_MODEL", Defaults.aliyunModel) == s.aliyunModel
  {
    SpelledOpenAITexts(s);
    SpelledOtherTexts(s);
  }

  lemma SpelledOpenAITexts(s: Settings)
    ensures var env := AsEnvironment(s);
      && GetText(env, "AI_SERVICE", Defaults.aiService) == s.aiService
      && GetText(env, "OPENAI_API_KEY", Defaults.openaiApiKey) == s.openaiApiKey
      && GetText(env, "OPENAI_MODEL", Defaults.openaiModel) == s.openaiModel
      && GetText(env, "OPENAI_BASE_URL", Defaults.openaiBaseUrl) == s.openaiBaseUrl
  {
    var env := AsEnvironment(s);
    assert env["AI_SERVICE"] == s.aiService;
    assert env["OPENAI_API_KEY"] == s.openaiApiKey;
    assert env["OPENAI_MODEL"] == s.openaiModel;
    assert env["OPENAI_BASE_URL"] == s.openaiBaseUrl;
  }

  lemma SpelledOtherTexts(s: Settings)
    ensures var env := AsEnvironment(s);
      && GetText(env, "AZURE_SPEECH_KEY", Defaults.azureSpeechKey) == s.azureSpeechKey
      && GetText(env, "AZURE_SPEECH_REGION", Defaults.azureSpeechRegion) == s.azureSpeechRegion
      && GetText(env, "ALIYUN_API_KEY", Defaults.aliyunApiKey) == s.aliyunApiKey
      && GetText(env, "ALIYUN_MODEL", Defaults.aliyunModel) == s.aliyunModel
  {
    var env := AsEnvironment(s);
    assert env["AZURE_SPEECH_KEY"] == s.azureSpeechKey;
    assert env["AZURE_SPEECH_REGION"] == s.azureSpeechRegion;
    assert env["ALIYUN_API_KEY"] == s.aliyunApiKey;
    assert env["ALIYUN_MODEL"] == s.aliyunModel;
  }

  /** Integer variables spelled in decimal read back as the integers spelled. */
  lemma {:induction false} ReadSpelledInts(env: map<string, string>, names: seq<string>, defaults: seq<int>, values: seq<int>)
    requires |names| == |defaults| == |values|
    requires forall k :: 0 <= k < |names| ==> names[k] in env && env[names[k]] == IntToString(values[k])
    requires forall k :: 0 <= k < |values| ==> WithinDigitLimit(values[k])
    ensures ReadInts(env, names, defaults) == Ok(values)
  {
    if names != [] {
      IntRoundTrip(values[0]);
      ReadSpelledInts(env, names[1..], defaults[1..], values[1..]);
      assert values == [values[0]] + values[1..];
    }
  }

  /** Why `validate` raises. */
  datatype ValidationError = OpenAIKeyRequired | AzureCredentialsRequired | AliyunKeyRequired

  /** `Config.validate`: `None` where the source returns `True`.  The
      selector is compared exactly, with no case folding, and a credential
      is missing only when it is the empty string. */
  function Validate(s: Settings): (r: Option<ValidationError>)
    ensures r == Some(OpenAIKeyRequired) <==> s.aiService == "openai" && s.openaiApiKey == ""
    ensures r == Some(AzureCredentialsRequired) <==>
      s.aiService == "azure" && (s.azureSpeechKey == "" || s.azureSpeechRegion == "")
    ensures r == Some(AliyunKeyRequired) <==> s.aiService == "aliyun" && s.aliyunApiKey == ""
    ensures s.aiService !in ["openai", "azure", "aliyun"] ==> r.None?
  {
    if s.aiService == "openai" && s.openaiApiKey == "" then Some(OpenAIKeyRequired)
    else if s.aiService == "azure" && (s.azureSpeechKey == "" || s.azureSpeechRegion == "") then
      Some(AzureCredentialsRequired)
    else if s.aiService == "aliyun" && s.aliyunApiKey == "" then Some(AliyunKeyRequired)
    else None
  }

  /** The defaults select OpenAI with no key, so they do not validate. */
  lemma DefaultsNeedOpenAIKey()
    ensures Validate(Defaults) == Some(OpenAIKeyRequired)
  {
  }
}

=== FILE: devices.dfy ===
/** The audio-device checker (`check_audio_devices` in check_devices.py): it
    tags every device, recommends the first input device that is a stereo
    mix (the loopback that carries what the computer plays), and when there
    is none lists the input devices instead.  The device list is an input;
    querying the sound system is not modelled. */
module Devices {
  import opened Results
  import opened Text

  /** One entry of the device list, as the sound library reports it. */
  datatype Device = Device(name: string, maxInputChannels: int, maxOutputChannels: int)

  const EnglishMarker := "stereo mix"
  const ChineseMarker := "立体声混音"

  /** The lower-cased name contains either marker. */
  predicate IsStereoMix(d: Device) {
    var n := Lower(d.name);
    Contains(n, EnglishMarker) || Contains(n, ChineseMarker)
  }

  predicate IsInput(d: Device) {
    d.maxInputChannels > 0
  }

  /** The label printed beside a device. */
  datatype Tag = StereoMixTag | InputTag | OutputTag | NoTag

  /** The first test that holds decides the label: the stereo-mix name
      (whatever the channels), then input channels, then output channels. */
  function TagOf(d: Device): (t: Tag)
    ensures t == StereoMixTag <==> IsStereoMix(d)
    ensures t == InputTag <==> !IsStereoMix(d) && IsInput(d)
    ensures t == OutputTag <==> !IsStereoMix(d) && !IsInput(d) && d.maxOutputChannels > 0
    ensures t == NoTag <==> !IsStereoMix(d) && !IsInput(d) && d.maxOutputChannels <= 0
  {
    if IsStereoMix(d) then StereoMixTag
    else if IsInput(d) then InputTag
    else if d.maxOutputChannels > 0 then OutputTag
    else NoTag
  }

  /** A device the checker may recommend: it records, and it is a stereo
      mix. */
  predicate Recommendable(d: Device) {
    IsInput(d) && IsStereoMix(d)
  }

  /** The scan for a device to recommend, from position `from` on; it stops
      at the first match. */
  function FirstRecommendable(devices: seq<Device>, from: nat := 0): (r: Option<nat>)
    requires from <= |devices|
    ensures r.Some? ==> from <= r.value < |devices| && Recommendable(devices[r.value])
    ensures r.Some? ==> forall j :: from <= j < r.value ==> !Recommendable(devices[j])
    ensures r.None? ==> forall j :: from <= j < |devices| ==> !Recommendable(devices[j])
    decreases |devices| - from
  {
    if from == |devices| then None
    else if Recommendable(devices[from]) then Some(from)
    else FirstRecommendable(devices, from + 1)
  }

  /** The positions of the input devices at `from` and after, in order. */
  function InputPositions(devices: seq<Device>, from: nat := 0): (ps: seq<nat>)
    requires from <= |devices|
    ensures forall k :: 0 <= k < |ps| ==> from <= ps[k] < |devices| && IsInput(devices[ps[k]])
    ensures forall k, l :: 0 <= k < l < |ps| ==> ps[k] < ps[l]
    ensures forall j :: from <= j < |devices| && IsInput(devices[j]) ==> j in ps
    decreases |devices| - from
  {
    if from == |devices| then []
    else if IsInput(devices[from]) then [from] + InputPositions(devices, from + 1)
    else InputPositions(devices, from + 1)
  }

  /** What the checker advises: the device to set as `AUDIO_DEVICE_INDEX`,
      or, lacking one, the input devices to choose from; or the error when
      the device list cannot be read. */
  datatype Advice =
    | Recommend(index: nat, name: string)
    | NoStereoMix(inputs: seq<nat>)
    | QueryFailed

  function Advise(devices: Option<seq<Device>>): (a: Advice)
    // a recommended device records and is a stereo mix, and none before it is
    ensures a.Recommend? ==> (
      && devices.Some? && a.index < |devices.value|
      && Recommendable(devices.value[a.index]) && a.name == devices.value[a.index].name
      && forall j :: 0 <= j < a.index ==> !Recommendable(devices.value[j]))
    // without one, every recording device is listed, in order, and nothing else
    ensures a.NoStereoMix? ==> (
      && devices.Some?
      && (forall j :: 0 <= j < |devices.value| ==> !Recommendable(devices.value[j]))
      && (forall j :: 0 <= j < |devices.value| ==> (IsInput(devices.value[j]) <==> j in a.inputs))
      && (forall k, l :: 0 <= k < l < |a.inputs| ==> a.inputs[k] < a.inputs[l]))
    // there is a recommendation exactly when some device qualifies
    ensures devices.Some? ==>
      (a.Recommend? <==> exists j :: 0 <= j < |devices.value| && Recommendable(devices.value[j]))
    ensures a.QueryFailed? <==> devices.None?
  {
    match devices
    case None => QueryFailed
    case Some(ds) =>
      match FirstRecommendable(ds)
      case Some(i) => Recommend(i, ds[i].name)
      case None => NoStereoMix(InputPositions(ds))
  }

  /** Lower-casing a slice is slicing the lower-cased text. */
  lemma LowerSlice(s: string, i: nat, j: nat)
    requires i <= j <= |s|
    ensures Lower(s)[i..j] == Lower(s[i..j])
  {
  }

  /** The English marker matches in any letter case: a name holding "Stereo
      Mix", "STEREO MIX" or any other casing of it is a stereo mix. */
  lemma MarkerInAnyCase(d: Device, i: nat)
    requires i + |EnglishMarker| <= |d.name|
    requires Lower(d.name[i..i + |EnglishMarker|]) == EnglishMarker
    ensures IsStereoMix(d)
  {
    LowerSlice(d.name, i, i + |EnglishMarker|);
    assert OccursAt(Lower(d.name), EnglishMarker, i);
  }

  /** A stereo mix that cannot record is tagged as a stereo mix but is never
      recommended: the tag looks only at the name, the recommendation also at
      the input channels. */
  lemma TagAndRecommendationDiffer(d: Device)
    requires IsStereoMix(d) && !IsInput(d)
    ensures TagOf(d) == StereoMixTag
    ensures Advise(Some([d])) == NoStereoMix([])
  {
    assert !Recommendable([d][0]);
    assert FirstRecommendable([d]) == None;
    assert InputPositions([d], 1) == [];
  }

  /** The advice depends only on the devices up to the recommended one:
      devices added after it change nothing. */
  lemma RecommendationIgnoresLaterDevices(devices: seq<Device>, more: seq<Device>)
    requires Advise(Some(devices)).Recommend?
    ensures Advise(Some(devices + more)) == Advise(Some(devices))
  {
    var i := Advise(Some(devices)).index;
    var all := devices + more;
    assert all[i] == devices[i];
    assert forall j :: 0 <= j < i ==> all[j] == devices[j];
    FirstRecommendableUnique(all, i);
  }

  /** A recording stereo mix with none before it is what the scan finds. */
  lemma FirstRecommendableUnique(devices: seq<Device>, i: nat)
    requires i < |devices| && Recommendable(devices[i])
    requires forall j :: 0 <= j < i ==> !Recommendable(devices[j])
    ensures FirstRecommendable(devices) == Some(i)
  {
  }
}

=== FILE: env_file.dfy ===
/** The `.env` file as the settings dialog reads and writes it
    (settings_window.py): `load_config` reads `KEY=value` lines into a
    dictionary, and `save_config` writes a fixed layout of comment, blank and
    `KEY=value` lines.  Reading what was written gives back the dictionary. */
module EnvFile {
  import opened Results
  import opened Text

  /** The dialog's `config_data`. */
  type Env = map<string, string>

  datatype Entry = Entry(key: string, value: string)

  /** `t[i]` is the first `=` of `t`. */
  predicate FirstEquals(t: string, i: int) {
    0 <= i < |t| && t[i] == '=' && '=' !in t[..i]
  }

  /** One line of the file: stripped; blank lines, lines starting with `#`
      and lines without `=` are skipped; the rest split at the first `=` into
      a stripped key and a stripped value. */
  function ParseLine(line: string): (r: Option<Entry>)
    ensures var t := Strip(line);
      r.None? <==> (t == [] || t[0] == '#' || '=' !in t)
    ensures var t := Strip(line);
      r.Some? ==> exists i :: FirstEquals(t, i) && r.value == Entry(Strip(t[..i]), Strip(t[i + 1..]))
  {
    var t := Strip(line);
    if t == [] || t[0] == '#' then None
    else match IndexOf(t, '=')
      case None => None
      case Some(i) => Some(Entry(Strip(t[..i]), Strip(t[i + 1..])))
  }

  /** Every line of a text, parsed. */
  function Parsed(lines: seq<string>): (es: seq<Option<Entry>>)
    ensures |es| == |lines|
  {
    seq(|lines|, i requires 0 <= i < |lines| => ParseLine(lines[i]))
  }

  /** The parsed lines, read in order; a later line for a key overwrites an
      earlier one. */
  function Apply(data: Env, es: seq<Option<Entry>>): Env
    decreases |es|
  {
    if es == [] then data
    else
      var before := Apply(data, es[..|es| - 1]);
      match es[|es| - 1]
      case None => before
      case Some(e) => before[e.key := e.value]
  }

  /** Reference reading of one key: the value of the last line for it, if
      any line has one. */
  function LastValue(es: seq<Option<Entry>>, key: string): (v: Option<string>)
    decreases |es|
  {
    if es == [] then None
    else match es[|es| - 1]
      case Some(e) => if e.key == key then Some(e.value) else LastValue(es[..|es| - 1], key)
      case None => LastValue(es[..|es| - 1], key)
  }

  /** After reading, every key holds the value of its last line, and keys
      that no line mentions keep what they had. */
  lemma {:induction false} LastLineWins(data: Env, es: seq<Option<Entry>>, key: string)
    ensures var d := Apply(data, es);
      && (key in d <==> LastValue(es, key).Some? || key in data)
      && (LastValue(es, key).Some? ==> d[key] == LastValue(es, key).value)
      && (LastValue(es, key).None? && key in data ==> d[key] == data[key])
    decreases |es|
  {
    if es != [] {
      LastLineWins(data, es[..|es| - 1], key);
    }
  }

  /** `load_config` on one file's text, added to what is already there.
      Universal newlines: `\r\n` and a lone `\r` end a line too. */
  function ParseEnv(data: Env, text: string): Env {
    Apply(data, Parsed(SplitLines(UniversalNewlines(text))))
  }

  /** The file `load_config` reads: `.env` if it exists, else `.env.example`
      if that exists, else none; `config_data` starts empty. */
  function LoadConfig(envFile: Option<string>, exampleFile: Option<string>): (data: Env)
    ensures envFile.None? && exampleFile.None? ==> data == map[]
    ensures envFile.Some? ==> data == ParseEnv(map[], envFile.value)
    ensures envFile.None? && exampleFile.Some? ==> data == ParseEnv(map[], exampleFile.value)
  {
    match envFile
    case Some(text) => ParseEnv(map[], text)
    case None =>
      match exampleFile
      case Some(text) => ParseEnv(map[], text)
      case None => map[]
  }

  // ---- the keys of the file ----

  /** The sixteen settings `save_config` writes. */
  datatype Key =
    | AiService
    | AliyunApiKey | AliyunAppId | AliyunEndpoint | AliyunModel
    | OpenAIApiKey | OpenAIModel
    | AzureSpeechKey | AzureSpeechRegion
    | SampleRate | ChunkDuration | AudioDeviceIndex
    | WindowWidth | WindowHeight | WindowOpacity | FontSize

  /** The variable name of a key, as written before `=`. */
  function Name(k: Key): string {
    match k
    case AiService => "AI_SERVICE"
    case AliyunApiKey => "ALIYUN_API_KEY"
    case AliyunAppId => "ALIYUN_APP_ID"
    case AliyunEndpoint => "ALIYUN_ENDPOINT"
    case AliyunModel => "ALIYUN_MODEL"
    case OpenAIApiKey => "OPENAI_API_KEY"
    case OpenAIModel => "OPENAI_MODEL"
    case AzureSpeechKey => "AZURE_SPEECH_KEY"
    case AzureSpeechRegion => "AZURE_SPEECH_REGION"
    case SampleRate => "SAMPLE_RATE"
    case ChunkDuration => "CHUNK_DURATION"
    case AudioDeviceIndex => "AUDIO_DEVICE_INDEX"
    case WindowWidth => "WINDOW_WIDTH"
    case WindowHeight => "WINDOW_HEIGHT"
    case WindowOpacity => "WINDOW_OPACITY"
    case FontSize => "FONT_SIZE"
  }

  /** The key a variable name stands for, if any. */
  function Named(s: string): (r: Option<Key>)
    ensures r.Some? ==> Name(r.value) == s
  {
    if |s| == 0 then None
    else if s[0] == 'A' then
      if s == "AI_SERVICE" then Some(AiService)
      else if s == "ALIYUN_API_KEY" then Some(AliyunApiKey)
      else if s == "ALIYUN_APP_ID" then Some(AliyunAppId)
      else if s == "ALIYUN_ENDPOINT" then Some(AliyunEndpoint)
      else if s == "ALIYUN_MODEL" then Some(AliyunModel)
      else if s == "AZURE_SPEECH_KEY" then Some(AzureSpeechKey)
      else if s == "AZURE_SPEECH_REGION" then Some(AzureSpeechRegion)
      else if s == "AUDIO_DEVICE_INDEX" then Some(AudioDeviceIndex)
      else None
    else if s == "OPENAI_API_KEY" then Some(OpenAIApiKey)
    else if s == "OPENAI_MODEL" then Some(OpenAIModel)
    else if s == "SAMPLE_RATE" then Some(SampleRate)
    else if s == "CHUNK_DURATION" then Some(ChunkDuration)
    else if s == "WINDOW_WIDTH" then Some(WindowWidth)
    else if s == "WINDOW_HEIGHT" then Some(WindowHeight)
    else if s == "WINDOW_OPACITY" then Some(WindowOpacity)
    else if s == "FONT_SIZE" then Some(FontSize)
    else None
  }

  /** Every key's name leads back to the key, so no two keys share a name. */
  lemma NamedName(k: Key)
    ensures Named(Name(k)) == Some(k)
  {
  }

  lemma NameInjective(a: Key, b: Key)
    requires Name(a) == Name(b)
    ensures a == b
  {
    NamedName(a);
    NamedName(b);
  }

  /** What may precede `=` on a written line: capitals and underscores. */
  predicate KeyLike(k: string) {
    |k| > 0 && forall i :: 0 <= i < |k| ==> ('A' <= k[i] <= 'Z' || k[i] == '_')
  }

  lemma NameIsKeyLike(k: Key)
    ensures KeyLike(Name(k))
  {
    if k.AiService? || k.AliyunApiKey? || k.AliyunAppId? || k.AliyunEndpoint? {
      NamesKeyLike1(k);
    } else if k.AliyunModel? || k.OpenAIApiKey? || k.OpenAIModel? || k.AzureSpeechKey? {
      NamesKeyLike2(k);
    } else if k.AzureSpeechRegion? || k.SampleRate? || k.ChunkDuration? || k.AudioDeviceIndex? {
      NamesKeyLike3(k);
    } else {
      NamesKeyLike4(k);
    }
  }

  lemma NamesKeyLike1(k: Key)
    requires k.AiService? || k.AliyunApiKey? || k.AliyunAppId? || k.AliyunEndpoint?
    ensures KeyLike(Name(k))
  {
    match k
    case AiService =>
    case AliyunApiKey =>
    case AliyunAppId =>
    case AliyunEndpoint =>
  }

  lemma NamesKeyLike2(k: Key)
    requires k.AliyunModel? || k.OpenAIApiKey? || k.OpenAIModel? || k.AzureSpeechKey?
    ensures KeyLike(Name(k))
  {
    match k
    case AliyunModel =>
    case OpenAIApiKey =>
    case OpenAIModel =>
    case AzureSpeechKey =>
  }

  lemma NamesKeyLike3(k: Key)
    requires k.AzureSpeechRegion? || k.SampleRate? || k.ChunkDuration? || k.AudioDeviceIndex?
    ensures KeyLike(Name(k))
  {
    match k
    case AzureSpeechRegion =>
    case SampleRate =>
    case ChunkDuration =>
    case AudioDeviceIndex =>
  }

  lemma NamesKeyLike4(k: Key)
    requires k.WindowWidth? || k.WindowHeight? || k.WindowOpacity? || k.FontSize?
    ensures KeyLike(Name(k))
  {
    match k
    case WindowWidth =>
    case WindowHeight =>
    case WindowOpacity =>
    case FontSize =>
  }

  /** The dictionary of variable names a keyed dictionary stands for. */
  function EnvOf(keys: set<Key>, values: map<Key, string>): (env: Env)
    requires keys <= values.Keys
    ensures forall k :: k in keys ==> Name(k) in env
  {
    map k | k in keys :: Name(k) := values[k]
  }

  /** Looking up a key's name finds the key's value. */
  lemma EnvOfLookup(keys: set<Key>, values: map<Key, string>, k: Key)
    requires keys <= values.Keys && k in keys
    ensures EnvOf(keys, values)[Name(k)] == values[k]
  {
    var env := EnvOf(keys, values);
    var j :| j in keys && Name(j) == Name(k) && env[Name(k)] == values[j];
    NameInjective(j, k);
  }

  /** Adding one key's entry to the dictionary of a set of keys gives the
      dictionary of the larger set. */
  lemma EnvOfAdd(keys: set<Key>, values: map<Key, string>, k: Key)
    requires keys <= values.Keys && k in values
    ensures EnvOf(keys, values)[Name(k) := values[k]] == EnvOf(keys + {k}, values)
  {
    var a := EnvOf(keys, values)[Name(k) := values[k]];
    var b := EnvOf(keys + {k}, values);
    forall s | s in a
      ensures s in b && a[s] == b[s]
    {
      EnvOfAddAt(keys, values, k, s);
    }
    forall s | s in b
      ensures s in a
    {
    }
  }

  /** `EnvOfAdd` at one variable name. */
  lemma EnvOfAddAt(keys: set<Key>, values: map<Key, string>, k: Key, s: string)
    requires keys <= values.Keys && k in values
    requires s in EnvOf(keys, values)[Name(k) := values[k]]
    ensures s in EnvOf(keys + {k}, values)
    ensures EnvOf(keys, values)[Name(k) := values[k]][s] == EnvOf(keys + {k}, values)[s]
  {
    if s != Name(k) {
      var j :| j in keys && Name(j) == s;
      EnvOfLookup(keys, values, j);
      EnvOfLookup(keys + {k}, values, j);
    } else {
      EnvOfLookup(keys + {k}, values, k);
    }
  }

  // ---- writing ----

  /** A line of the written file: a fixed text, or `KEY=value`. */
  datatype Line = Note(text: string) | Field(key: Key)

  /** A note the reader skips: blank, or a comment. */
  predicate Skipped(text: string) {
    '\n' !in text && '\r' !in text && (text == [] || text[0] == '#')
  }

  /** Every note of the layout is skipped by the reader. */
  predicate WellFormed(layout: seq<Line>) {
    forall i :: 0 <= i < |layout| && layout[i].Note? ==> Skipped(layout[i].text)
  }

  /** The keys a layout writes. */
  function Keys(layout: seq<Line>): (keys: set<Key>)
    decreases |layout|
  {
    if layout == [] then {}
    else
      var last := layout[|layout| - 1];
      Keys(layout[..|layout| - 1]) + if last.Field? then {last.key} else {}
  }

  function Comment(title: string): Line {
    Note("# " + title)
  }

  const Blank := Note("")

  /** A section of the file: its title between `=====` bars, then its keys. */
  function Section(title: string, keys: seq<Key>): (s: seq<Line>)
    ensures |s| == |keys| + 1
  {
    [Note("# ===== " + title + " =====")] + seq(|keys|, i requires 0 <= i < |keys| => Field(keys[i]))
  }

  const Head: seq<Line> := [Comment("AI实时字幕工具配置文件"), Comment("由配置界面自动生成"), Blank]

  const ServiceGroup: seq<Key> := [AiService]
  const AliyunGroup: seq<Key> := [AliyunApiKey, AliyunAppId, AliyunEndpoint, AliyunModel]
  const OpenAIGroup: seq<Key> := [OpenAIApiKey, OpenAIModel]
  const AzureGroup: seq<Key> := [AzureSpeechKey, AzureSpeechRegion]
  const AudioGroup: seq<Key> := [SampleRate, ChunkDuration, AudioDeviceIndex]
  const UiGroup: seq<Key> := [WindowWidth, WindowHeight, WindowOpacity, FontSize]

  const ServiceSection := Section("AI服务配置", ServiceGroup)
  const AliyunSection := Section("阿里云百炼配置", AliyunGroup)
  const OpenAISection := Section("OpenAI配置", OpenAIGroup)
  const AzureSection := Section("Azure配置", AzureGroup)
  const AudioSection := Section("音频设置", AudioGroup)
  const UiSection := Section("UI设置", UiGroup)

  /** The file `save_config` writes, line by line: a heading, then the six
      sections with a blank line between each two. */
  const Layout: seq<Line> :=
    Head + ServiceSection + [Blank] + AliyunSection + [Blank] + OpenAISection + [Blank]
    + AzureSection + [Blank] + AudioSection + [Blank] + UiSection

  /** The keys of the six sections, in the order they are written. */
  const KeyOrder: seq<Key> := ServiceGroup + AliyunGroup + OpenAIGroup + AzureGroup + AudioGroup + UiGroup

  /** The keys `save_config` writes: `SavedKeysListed` shows these are the
      keys of `Layout`, and every key is among them. */
  const SavedKeys: set<Key> := set k | k in KeyOrder

  /** The lines of the file for a dictionary that has every key written. */
  function Render(layout: seq<Line>, values: map<Key, string>): (lines: seq<string>)
    requires Keys(layout) <= values.Keys
    ensures |lines| == |layout|
  {
    seq(|layout|, i requires 0 <= i < |layout| =>
      match layout[i]
      case Note(t) => t
      case Field(k) => KeyOfLine(layout, i); Name(k) + "=" + values[k])
  }

  /** The key of every `Field` line is among the layout's keys. */
  lemma {:induction false} KeyOfLine(layout: seq<Line>, i: nat)
    requires i < |layout| && layout[i].Field?
    ensures layout[i].key in Keys(layout)
    decreases |layout|
  {
    if i < |layout| - 1 {
      KeyOfLine(layout[..|layout| - 1], i);
    }
  }

  /** The lines `save_config` writes for `values`. */
  function SavedRender(values: map<Key, string>): (lines: seq<string>)
    requires SavedKeys <= values.Keys
    ensures |lines| == |Layout|
  {
    SavedKeysListed();
    Render(Layout, values)
  }

  /** The text `save_config` writes for `values`. */
  function SaveText(values: map<Key, string>): string
    requires SavedKeys <= values.Keys
  {
    JoinLines(SavedRender(values))
  }

  /** Values the reader gives back unchanged: no surrounding whitespace and
      no line break. */
  predicate Storable(v: string) {
    IsStripped(v) && '\n' !in v && '\r' !in v
  }

  /** A written `KEY=value` line reads back as that entry. */
  lemma FieldLine(k: string, v: string)
    requires KeyLike(k) && Storable(v)
    ensures ParseLine(k + "=" + v) == Some(Entry(k, v))
  {
    var line := k + "=" + v;
    assert !IsSpace(line[0]) && line[0] != '#';
    StripStripped(line);
    assert line[|k|] == '=';
    assert line[..|k|] == k;
    assert line[|k| + 1..] == v;
    IndexOfFirst(line, '=', |k|);
    StripStripped(k);
    StripStripped(v);
  }

  /** A written note is skipped by the reader. */
  lemma NoteLine(t: string)
    requires Skipped(t)
    ensures ParseLine(t).None?
  {
    if t != [] {
      assert !IsSpace(t[0]);
      assert Strip(t)[0] == '#' by {
        if Strip(t) == [] {
          BlankIffAllSpace(t);
        }
      }
    }
  }

  /** Writing `a` then `b` writes the keys of both. */
  lemma {:induction false} KeysAppend(a: seq<Line>, b: seq<Line>)
    ensures Keys(a + b) == Keys(a) + Keys(b)
    decreases |b|
  {
    if b == [] {
      assert a + b == a;
    } else {
      var n := |b| - 1;
      KeysAppend(a, b[..n]);
      assert (a + b)[..|a + b| - 1] == a + b[..n];
    }
  }

  /** Lines that are all notes write no key. */
  lemma {:induction false} NotesWriteNoKeys(layout: seq<Line>)
    requires forall i :: 0 <= i < |layout| ==> layout[i].Note?
    ensures Keys(layout) == {}
    decreases |layout|
  {
    if layout != [] {
      NotesWriteNoKeys(layout[..|layout| - 1]);
    }
  }

  /** A section writes exactly its keys. */
  lemma {:induction false} KeysSection(title: string, keys: seq<Key>)
    ensures forall k :: k in Keys(Section(title, keys)) <==> k in keys
    decreases |keys|
  {
    var s := Section(title, keys);
    if keys == [] {
      assert Keys(s) == Keys(s[..0]);
    } else {
      var n := |keys| - 1;
      KeysSection(title, keys[..n]);
      assert s[..|s| - 1] == Section(title, keys[..n]);
      assert s[|s| - 1] == Field(keys[n]);
      assert keys == keys[..n] + [keys[n]];
    }
  }

  /** Appending a blank line and a section adds the section's keys. */
  lemma KeysAfterBlank(p: seq<Line>, s: seq<Line>)
    ensures Keys(p + [Blank] + s) == Keys(p) + Keys(s)
  {
    NotesWriteNoKeys([Blank]);
    KeysAppend(p, [Blank]);
    KeysAppend(p + [Blank], s);
  }

  /** The keys of a heading and six sections joined by blank lines. */
  lemma ShapeKeys(h: seq<Line>, s1: seq<Line>, s2: seq<Line>, s3: seq<Line>, s4: seq<Line>, s5: seq<Line>, s6: seq<Line>)
    ensures Keys(h + s1 + [Blank] + s2 + [Blank] + s3 + [Blank] + s4 + [Blank] + s5 + [Blank] + s6)
      == Keys(h) + Keys(s1) + Keys(s2) + Keys(s3) + Keys(s4) + Keys(s5) + Keys(s6)
  {
    var p1 := h + s1;
    var p2 := p1 + [Blank] + s2;
    var p3 := p2 + [Blank] + s3;
    var p4 := p3 + [Blank] + s4;
    var p5 := p4 + [Blank] + s5;
    KeysAppend(h, s1);
    KeysAfterBlank(p1, s2);
    KeysAfterBlank(p2, s3);
    KeysAfterBlank(p3, s4);
    KeysAfterBlank(p4, s5);
    KeysAfterBlank(p5, s6);
  }

  /** `save_config` writes every one of the sixteen keys. */
  lemma SavedKeysListed()
    ensures Keys(Layout) == SavedKeys
    ensures forall k: Key :: k in SavedKeys
  {
    ShapeKeys(Head, ServiceSection, AliyunSection, OpenAISection, AzureSection, AudioSection, UiSection);
    NotesWriteNoKeys(Head);
    KeysSection("AI服务配置", ServiceGroup);
    KeysSection("阿里云百炼配置", AliyunGroup);
    KeysSection("OpenAI配置", OpenAIGroup);
    KeysSection("Azure配置", AzureGroup);
    KeysSection("音频设置", AudioGroup);
    KeysSection("UI设置", UiGroup);
    KeyOrderComplete();
  }

  /** Every key has a place in the written order. */
  lemma KeyOrderComplete()
    ensures forall k: Key :: k in KeyOrder
  {
    forall k: Key
      ensures k in KeyOrder
    {
      match k
      case AiService => assert KeyOrder[0] == k;
      case AliyunApiKey => assert KeyOrder[1] == k;
      case AliyunAppId => assert KeyOrder[2] == k;
      case AliyunEndpoint => assert KeyOrder[3] == k;
      case AliyunModel => assert KeyOrder[4] == k;
      case OpenAIApiKey => assert KeyOrder[5] == k;
      case OpenAIModel => assert KeyOrder[6] == k;
      case AzureSpeechKey => assert KeyOrder[7] == k;
      case AzureSpeechRegion => assert KeyOrder[8] == k;
      case SampleRate => assert KeyOrder[9] == k;
      case ChunkDuration => assert KeyOrder[10] == k;
      case AudioDeviceIndex => assert KeyOrder[11] == k;
      case WindowWidth => assert KeyOrder[12] == k;
      case WindowHeight => assert KeyOrder[13] == k;
      case WindowOpacity => assert KeyOrder[14] == k;
      case FontSize => assert KeyOrder[15] == k;
    }
  }

  lemma SectionWellFormed(title: string, keys: seq<Key>)
    requires '\n' !in title && '\r' !in title
    ensures WellFormed(Section(title, keys))
  {
    var s := Section(title, keys);
    forall i | 0 <= i < |s| && s[i].Note?
      ensures Skipped(s[i].text)
    {
    }
  }

  lemma JoinWellFormed(a: seq<Line>, b: seq<Line>)
    requires WellFormed(a) && WellFormed(b)
    ensures WellFormed(a + b)
  {
    forall i | 0 <= i < |a + b| && (a + b)[i].Note?
      ensures Skipped((a + b)[i].text)
    {
      if i < |a| {
        assert (a + b)[i] == a[i];
      } else {
        assert (a + b)[i] == b[i - |a|];
      }
    }
  }

  /** A heading and six well-formed sections joined by blank lines are
      well formed. */
  lemma ShapeWellFormed(h: seq<Line>, s1: seq<Line>, s2: seq<Line>, s3: seq<Line>, s4: seq<Line>, s5: seq<Line>, s6: seq<Line>)
    requires WellFormed(h) && WellFormed(s1) && WellFormed(s2) && WellFormed(s3)
    requires WellFormed(s4) && WellFormed(s5) && WellFormed(s6)
    ensures WellFormed(h + s1 + [Blank] + s2 + [Blank] + s3 + [Blank] + s4 + [Blank] + s5 + [Blank] + s6)
  {
    var b := [Blank];
    assert WellFormed(b);
    JoinWellFormed(h, s1);
    JoinWellFormed(h + s1, b);
    JoinWellFormed(h + s1 + b, s2);
    JoinWellFormed(h + s1 + b + s2, b);
    JoinWellFormed(h + s1 + b + s2 + b, s3);
    JoinWellFormed(h + s1 + b + s2 + b + s3, b);
    JoinWellFormed(h + s1 + b + s2 + b + s3 + b, s4);
    JoinWellFormed(h + s1 + b + s2 + b + s3 + b + s4, b);
    JoinWellFormed(h + s1 + b + s2 + b + s3 + b + s4 + b, s5);
    JoinWellFormed(h + s1 + b + s2 + b + s3 + b + s4 + b + s5, b);
    JoinWellFormed(h + s1 + b + s2 + b + s3 + b + s4 + b + s5 + b, s6);
  }

  /** The file `save_config` writes is a well-formed layout. */
  lemma LayoutWellFormed()
    ensures WellFormed(Layout)
  {
    HeadWellFormed();
    SectionsWellFormed();
    ShapeWellFormed(Head, ServiceSection, AliyunSection, OpenAISection, AzureSection, AudioSection, UiSection);
  }

  lemma HeadWellFormed()
    ensures WellFormed(Head)
  {
    CommentSkipped("AI实时字幕工具配置文件");
    CommentSkipped("由配置界面自动生成");
    assert Skipped(Blank.text);
  }

  /** A comment line whose title has no line break is skipped. */
  lemma CommentSkipped(title: string)
    requires '\n' !in title && '\r' !in title
    ensures Skipped(Comment(title).text)
  {
    assert Comment(title).text[0] == '#';
  }

  lemma SectionsWellFormed()
    ensures WellFormed(ServiceSection) && WellFormed(AliyunSection) && WellFormed(OpenAISection)
    ensures WellFormed(AzureSection) && WellFormed(AudioSection) && WellFormed(UiSection)
  {
    SectionWellFormed("AI服务配置", ServiceGroup);
    SectionWellFormed("阿里云百炼配置", AliyunGroup);
    SectionWellFormed("OpenAI配置", OpenAIGroup);
    SectionWellFormed("Azure配置", AzureGroup);
    SectionWellFormed("音频设置", AudioGroup);
    SectionWellFormed("UI设置", UiGroup);
  }

  /** What reading a rendered layout yields, line by line: nothing for a
      note, the written entry for a field. */
  function Expected(layout: seq<Line>, values: map<Key, string>): (es: seq<Option<Entry>>)
    requires Keys(layout) <= values.Keys
    ensures |es| == |layout|
  {
    seq(|layout|, i requires 0 <= i < |layout| =>
      match layout[i]
      case Note(_) => None
      case Field(k) => KeyOfLine(layout, i); Some(Entry(Name(k), values[k])))
  }

  lemma RenderedEntries(layout: seq<Line>, values: map<Key, string>)
    requires WellFormed(layout) && Keys(layout) <= values.Keys
    requires forall k :: k in Keys(layout) ==> Storable(values[k])
    ensures Parsed(Render(layout, values)) == Expected(layout, values)
  {
    var lines := Render(layout, values);
    forall i | 0 <= i < |layout|
      ensures Parsed(lines)[i] == Expected(layout, values)[i]
    {
      match layout[i]
      case Note(t) =>
        NoteLine(t);
      case Field(k) =>
        KeyOfLine(layout, i);
        NameIsKeyLike(k);
        FieldLine(Name(k), values[k]);
    }
  }

  /** Reading the entries of a layout gives exactly its keys with their
      values. */
  lemma {:induction false} ReadExpected(layout: seq<Line>, values: map<Key, string>)
    requires Keys(layout) <= values.Keys
    ensures Apply(map[], Expected(layout, values)) == EnvOf(Keys(layout), values)
    decreases |layout|
  {
    if layout == [] {
      assert EnvOf({}, values) == map[];
    } else {
      var n := |layout| - 1;
      var front := layout[..n];
      ExpectedFront(layout, values);
      ReadExpected(front, values);
      match layout[n]
      case Note(_) =>
      case Field(k) =>
        EnvOfAdd(Keys(front), values, k);
    }
  }

  /** Dropping a layout's last line drops the last expected entry. */
  lemma ExpectedFront(layout: seq<Line>, values: map<Key, string>)
    requires layout != [] && Keys(layout) <= values.Keys
    ensures var n := |layout| - 1;
      && Keys(layout) == Keys(layout[..n]) + (if layout[n].Field? then {layout[n].key} else {})
      && Expected(layout, values)[..n] == Expected(layout[..n], values)
  {
    var n := |layout| - 1;
    var front := layout[..n];
    assert Keys(layout) == Keys(front) + (if layout[n].Field? then {layout[n].key} else {});
    var a := Expected(layout, values)[..n];
    var b := Expected(front, values);
    forall i | 0 <= i < n
      ensures a[i] == b[i]
    {
      assert front[i] == layout[i];
    }
  }

  lemma RenderedLinesClean(layout: seq<Line>, values: map<Key, string>)
    requires Keys(layout) <= values.Keys && WellFormed(layout)
    requires forall k :: k in Keys(layout) ==> Storable(values[k])
    ensures var lines := Render(layout, values);
      forall i :: 0 <= i < |lines| ==> '\n' !in lines[i] && '\r' !in lines[i]
  {
    var lines := Render(layout, values);
    forall i | 0 <= i < |lines|
      ensures '\n' !in lines[i] && '\r' !in lines[i]
    {
      match layout[i]
      case Note(t) =>
      case Field(k) =>
        KeyOfLine(layout, i);
        NameIsKeyLike(k);
        var name := Name(k);
        assert lines[i] == name + "=" + values[k];
        assert forall j :: 0 <= j < |name| ==> name[j] != '\n' && name[j] != '\r';
    }
  }

  /** The saved text splits back into the rendered lines and the empty
      piece after the final newline. */
  lemma SavedLines(values: map<Key, string>)
    requires values.Keys == SavedKeys
    requires forall k :: k in values ==> Storable(values[k])
    ensures SplitLines(UniversalNewlines(SaveText(values))) == SavedRender(values) + [""]
  {
    SavedKeysListed();
    LayoutWellFormed();
    var lines := SavedRender(values);
    RenderedLinesClean(Layout, values);
    NoCarriageReturns(JoinLines(lines));
    SplitJoin(lines);
  }

  /** The empty last piece adds nothing to what is read. */
  lemma TrailingBlankIgnored(data: Env, lines: seq<string>)
    ensures Apply(data, Parsed(lines + [""])) == Apply(data, Parsed(lines))
  {
    var es := Parsed(lines);
    assert Parsed(lines + [""]) == es + [None] by {
      NoteLine("");
      forall i | 0 <= i < |lines| ensures (lines + [""])[i] == lines[i] { }
    }
    assert (es + [None])[..|es|] == es;
  }

  /** Reading the file `save_config` wrote gives back the dictionary it was
      written from, provided every value is stripped and has no line break
      (the dialog strips what it saves). */
  lemma SaveThenLoad(values: map<Key, string>)
    requires values.Keys == SavedKeys
    requires forall k :: k in values ==> Storable(values[k])
    ensures ParseEnv(map[], SaveText(values)) == EnvOf(SavedKeys, values)
  {
    SavedKeysListed();
    var lines := SavedRender(values);
    SavedLines(values);
    TrailingBlankIgnored(map[], lines);
    LayoutWellFormed();
    RenderedEntries(Layout, values);
    ReadExpected(Layout, values);
  }
}

=== FILE: results.dfy ===
/** Optional values and success-or-error values shared by every module.
    Python's `None` and its raised exceptions are modelled with these. */
module Results {

  /** A value that may be absent (Python's `None`). */
  datatype Option<+T> = None | Some(value: T)

  /** The outcome of an operation that the source lets raise. */
  datatype Result<+T, +E> = Ok(value: T) | Err(error: E)

  /** Zero or one element, as a sequence. */
  function AsSeq<T>(o: Option<T>): (s: seq<T>)
    ensures |s| <= 1
    ensures o.Some? <==> |s| == 1
    ensures o.Some? ==> s[0] == o.value
  {
    match o
    case None => []
    case Some(v) => [v]
  }
}

=== FILE: settings.dfy ===
/** The settings dialog (`SettingsWindow` in settings_window.py): it opens on
    the dictionary read from the `.env` file, shows it in its widgets, and on
    save checks the chosen service's credentials, collects the widgets back
    into a dictionary and writes the `.env` file.  Saving and reopening shows
    what was saved. */
module Settings {
  import opened Results
  import opened Text
  import Config
  import opened EnvFile

  // ---- combo boxes ----

  /** A combo-box item: a key, `" - "`, and a description. */
  function Label(key: string, description: string): string {
    key + " - " + description
  }

  /** `currentText().split(" - ")[0]`: the key part of an item. */
  function KeyOf(item: string): string {
    BeforeFirst(item, " - ")
  }

  /** The key of an item is the key it was made from, when that key has no
      space in it. */
  lemma KeyOfLabel(key: string, description: string)
    requires ' ' !in key
    ensures KeyOf(Label(key, description)) == key
  {
    var s := Label(key, description);
    assert OccursAt(s, " - ", |key|) by {
      assert s[|key|..|key| + 3] == " - ";
    }
    match Find(s, " - ")
    case None =>
    case Some(i) =>
      assert s[i] == ' ';
      assert s[..|key|] == key;
  }

  /** The services the dialog offers, in the order of its list. */
  const ServiceNames: seq<string> := ["aliyun", "openai", "azure", "local_whisper"]
  const ServiceLabels: seq<string> :=
    [Label("aliyun", "阿里云百炼（推荐）"), Label("openai", "OpenAI Whisper"),
     Label("azure", "Azure Speech"), Label("local_whisper", "本地Whisper")]

  /** The Aliyun models the dialog offers. */
  const ModelNames: seq<string> := ["paraformer-realtime-v2", "paraformer-v2", "paraformer-8k-v2", "paraformer-mtl-v2"]
  const ModelLabels: seq<string> :=
    [Label("paraformer-realtime-v2", "实时识别（推荐）"), Label("paraformer-v2", "高精度识别"),
     Label("paraformer-8k-v2", "8kHz采样率"), Label("paraformer-mtl-v2", "多语言")]

  /** The sample rates the dialog offers, as text. */
  const SampleRates: seq<string> := ["8000", "16000", "22050", "44100", "48000"]

  /** The only item of the OpenAI model box. */
  const OpenAIModel := "whisper-1"

  const DefaultEndpoint := "https://dashscope.aliyuncs.com/api/v1/services/audio/asr"

  /** The first position of `x` in `items`, if any. */
  function IndexIn(items: seq<string>, x: string): (r: Option<nat>)
    ensures r.None? <==> x !in items
    ensures r.Some? ==> r.value < |items| && items[r.value] == x && x !in items[..r.value]
  {
    if items == [] then None
    else if items[0] == x then Some(0)
    else match IndexIn(items[1..], x)
      case None => None
      case Some(i) =>
        assert items[1..][..i] == items[1..i + 1];
        Some(i + 1)
  }

  /** `service_map.get(name, 0)` and `model_map.get(name, 0)`: the position
      of a known key, else the first item. */
  function IndexOr0(names: seq<string>, name: string): (i: nat)
    requires |names| > 0
    ensures i < |names|
    ensures name in names ==> names[i] == name
    ensures name !in names ==> i == 0
  {
    match IndexIn(names, name)
    case Some(i) => i
    case None => 0
  }

  /** `setCurrentText(text)` on a box that cannot be edited: selects the
      first item equal to `text`, and keeps the selection otherwise. */
  function SetCurrentText(items: seq<string>, current: nat, text: string): (i: nat)
    requires current < |items|
    ensures i < |items|
    ensures text in items ==> items[i] == text
    ensures text !in items ==> i == current
  {
    match IndexIn(items, text)
    case Some(i) => i
    case None => current
  }

  /** `QSpinBox.setValue`: a value outside the range is pulled to the
      nearer end. */
  function Clamp(v: int, lo: int, hi: int): (r: int)
    requires lo <= hi
    ensures lo <= r <= hi
    ensures lo <= v <= hi ==> r == v
    ensures v < lo ==> r == lo
    ensures v > hi ==> r == hi
  {
    if v < lo then lo else if v > hi then hi else v
  }

  // ---- the widgets ----

  /** What the dialog's widgets hold.  Combo boxes hold the index of their
      selected item; line edits hold any text; spin boxes hold a number in
      their range.  The opacity box holds a floating-point number, kept here
      as the text `str()` gives for it. */
  datatype Ui = Ui(
    service: nat,
    aliyunKey: string,
    aliyunAppId: string,
    aliyunModel: nat,
    aliyunEndpoint: string,
    openaiKey: string,
    azureKey: string,
    azureRegion: string,
    sampleRate: nat,
    chunkDuration: int,
    deviceIndex: int,
    windowWidth: int,
    windowHeight: int,
    opacity: string,
    fontSize: int)

  /** Every combo box has an item selected and every spin box is within its
      range: 1..10 seconds, device -1..99, width 400..2000, height 80..500,
      font 12..72. */
  predicate Ranged(ui: Ui) {
    && ui.service < |ServiceLabels|
    && ui.aliyunModel < |ModelLabels|
    && ui.sampleRate < |SampleRates|
    && 1 <= ui.chunkDuration <= 10
    && -1 <= ui.deviceIndex <= 99
    && 400 <= ui.windowWidth <= 2000
    && 80 <= ui.windowHeight <= 500
    && 12 <= ui.fontSize <= 72
  }

  /** The widgets as the dialog builds them, before any configuration is
      applied. */
  const InitialUi := Ui(0, "", "", 0, DefaultEndpoint, "", "", "", 1, 3, -1, 800, 120, "0.85", 24)

  // ---- load_config / apply_config_to_ui ----

  /** Why the dialog cannot open: a spin-box setting `int()` rejects, an
      integer too wide for the C `int` that `QSpinBox.setValue` takes, or an
      opacity `float()` rejects.  The exception escapes the constructor. */
  datatype OpenError = NotAnInteger(key: string) | OutOfRange(key: string) | NotAFloat(key: string)

  /** The bound of a C `int`: the binding raises `OverflowError` for an
      argument outside `-IntLimit .. IntLimit - 1`. */
  const IntLimit := 0x8000_0000

  predicate FitsCInt(n: int) {
    -IntLimit <= n < IntLimit
  }

  /** What `box.setValue(int(data.get(name, str(default))))` raises, if
      anything: `int()` first, then the conversion to a C `int`. */
  function SpinError(data: Env, name: string, default: int): Option<OpenError> {
    if Config.BadInt(data, name) then Some(NotAnInteger(name))
    else if !FitsCInt(Config.IntValue(data, name, default)) then Some(OutOfRange(name))
    else None
  }

  /** Position `k` is the first whose spin box raises. */
  predicate FirstSpinError(data: Env, names: seq<string>, defaults: seq<int>, k: nat)
    requires |names| == |defaults|
  {
    && k < |names| && SpinError(data, names[k], defaults[k]).Some?
    && forall j :: 0 <= j < k ==> SpinError(data, names[j], defaults[j]).None?
  }

  /** The spin boxes set one after the other, each read and set before the
      next is read: the first exception stops the rest. */
  function SetSpins(data: Env, names: seq<string>, defaults: seq<int>): (r: Result<seq<int>, OpenError>)
    requires |names| == |defaults|
    ensures r.Err? <==> exists k :: 0 <= k < |names| && SpinError(data, names[k], defaults[k]).Some?
    ensures r.Err? ==> exists k :: (0 <= k < |names| && FirstSpinError(data, names, defaults, k)
      && r.error == SpinError(data, names[k], defaults[k]).value)
    ensures r.Ok? ==> |r.value| == |names| && forall k :: 0 <= k < |names| ==>
      r.value[k] == Config.IntValue(data, names[k], defaults[k]) && FitsCInt(r.value[k])
  {
    if names == [] then Ok([])
    else
      match SpinError(data, names[0], defaults[0])
      case Some(e) =>
        assert FirstSpinError(data, names, defaults, 0);
        Err(e)
      case None =>
        match SetSpins(data, names[1..], defaults[1..])
        case Err(e) =>
          assert forall k :: 0 <= k < |names| - 1 ==> names[1..][k] == names[k + 1] && defaults[1..][k] == defaults[k + 1];
          FirstSpinShift(data, names, defaults, e);
          Err(e)
        case Ok(rest) =>
          assert forall k :: 1 <= k < |names| ==> names[k] == names[1..][k - 1] && defaults[k] == defaults[1..][k - 1];
          Ok([Config.IntValue(data, names[0], defaults[0])] + rest)
  }

  /** The first spin box to raise after a quiet first one is the first of
      the whole list. */
  lemma FirstSpinShift(data: Env, names: seq<string>, defaults: seq<int>, e: OpenError)
    requires |names| == |defaults| >= 1 && SpinError(data, names[0], defaults[0]).None?
    requires exists k :: (0 <= k < |names| - 1 && FirstSpinError(data, names[1..], defaults[1..], k)
      && e == SpinError(data, names[1..][k], defaults[1..][k]).value)
    ensures exists k :: (0 <= k < |names| && FirstSpinError(data, names, defaults, k)
      && e == SpinError(data, names[k], defaults[k]).value)
  {
    var k :| 0 <= k < |names| - 1 && FirstSpinError(data, names[1..], defaults[1..], k)
      && e == SpinError(data, names[1..][k], defaults[1..][k]).value;
    assert forall j :: 1 <= j <= k ==> names[j] == names[1..][j - 1] && defaults[j] == defaults[1..][j - 1];
    assert FirstSpinError(data, names, defaults, k + 1);
  }

  /** The integer settings read before the opacity, in order, and their
      defaults. */
  const SpinNames: seq<string> := ["CHUNK_DURATION", "AUDIO_DEVICE_INDEX", "WINDOW_WIDTH", "WINDOW_HEIGHT"]
  const SpinDefaults: seq<int> := [3, -1, 800, 120]

  /** `apply_config_to_ui`.  `float` stands for `float(text)` followed by the
      opacity box's `setValue`: the text the box then holds, or `None` when
      `float()` raises. */
  function ApplyConfig(ui: Ui, data: Env, float: string -> Option<string>): (r: Result<Ui, OpenError>)
    requires Ranged(ui)
    // it fails at the first spin box whose setting is not an integer or
    // does not fit a C int, then at an opacity that is not a number, then
    // at the font size box
    ensures SetSpins(data, SpinNames, SpinDefaults).Err? ==> r == Err(SetSpins(data, SpinNames, SpinDefaults).error)
    ensures SetSpins(data, SpinNames, SpinDefaults).Ok? ==>
      && (float(Config.GetText(data, "WINDOW_OPACITY", "0.85")).None? ==> r == Err(NotAFloat("WINDOW_OPACITY")))
      && (float(Config.GetText(data, "WINDOW_OPACITY", "0.85")).Some? && SpinError(data, "FONT_SIZE", 24).Some? ==>
            r == Err(SpinError(data, "FONT_SIZE", 24).value))
      && (float(Config.GetText(data, "WINDOW_OPACITY", "0.85")).Some? && SpinError(data, "FONT_SIZE", 24).None? ==> r.Ok?)
    // on success every widget shows its setting, or its default when unset
    ensures r.Ok? ==> Ranged(r.value)
    ensures r.Ok? ==> Selects(ServiceNames, r.value.service, Config.GetText(data, "AI_SERVICE", "aliyun"))
    ensures r.Ok? ==> Selects(ModelNames, r.value.aliyunModel, Config.GetText(data, "ALIYUN_MODEL", "paraformer-realtime-v2"))
    ensures r.Ok? ==> (
      && r.value.aliyunKey == Config.GetText(data, "ALIYUN_API_KEY", "")
      && r.value.aliyunAppId == Config.GetText(data, "ALIYUN_APP_ID", "")
      && r.value.aliyunEndpoint == Config.GetText(data, "ALIYUN_ENDPOINT", DefaultEndpoint)
      && r.value.openaiKey == Config.GetText(data, "OPENAI_API_KEY", "")
      && r.value.azureKey == Config.GetText(data, "AZURE_SPEECH_KEY", "")
      && r.value.azureRegion == Config.GetText(data, "AZURE_SPEECH_REGION", ""))
    ensures r.Ok? ==> (
      var rate := Config.GetText(data, "SAMPLE_RATE", "16000");
      && (rate in SampleRates ==> SampleRates[r.value.sampleRate] == rate)
      && (rate !in SampleRates ==> r.value.sampleRate == ui.sampleRate))
    ensures r.Ok? ==> (
      && r.value.chunkDuration == Clamp(Config.IntValue(data, "CHUNK_DURATION", 3), 1, 10)
      && r.value.deviceIndex == Clamp(Config.IntValue(data, "AUDIO_DEVICE_INDEX", -1), -1, 99)
      && r.value.windowWidth == Clamp(Config.IntValue(data, "WINDOW_WIDTH", 800), 400, 2000)
      && r.value.windowHeight == Clamp(Config.IntValue(data, "WINDOW_HEIGHT", 120), 80, 500)
      && Some(r.value.opacity) == float(Config.GetText(data, "WINDOW_OPACITY", "0.85"))
      && r.value.fontSize == Clamp(Config.IntValue(data, "FONT_SIZE", 24), 12, 72))
  {
    match SetSpins(data, SpinNames, SpinDefaults)
    case Err(e) => Err(e)
    case Ok(v) =>
      SpinValues(data, v);
      ApplyRest(ui, data, v, float)
  }

  /** The rest of `apply_config_to_ui` once the first four spin boxes are
      set: the opacity box, then the font size box. */
  function ApplyRest(ui: Ui, data: Env, v: seq<int>, float: string -> Option<string>): (r: Result<Ui, OpenError>)
    requires Ranged(ui) && |v| == 4
    ensures float(Config.GetText(data, "WINDOW_OPACITY", "0.85")).None? ==> r == Err(NotAFloat("WINDOW_OPACITY"))
    ensures float(Config.GetText(data, "WINDOW_OPACITY", "0.85")).Some? && SpinError(data, "FONT_SIZE", 24).Some? ==>
      r == Err(SpinError(data, "FONT_SIZE", 24).value)
    ensures float(Config.GetText(data, "WINDOW_OPACITY", "0.85")).Some? && SpinError(data, "FONT_SIZE", 24).None? ==> r.Ok?
    ensures r.Ok? ==> Ranged(r.value)
    ensures r.Ok? ==> Selects(ServiceNames, r.value.service, Config.GetText(data, "AI_SERVICE", "aliyun"))
    ensures r.Ok? ==> Selects(ModelNames, r.value.aliyunModel, Config.GetText(data, "ALIYUN_MODEL", "paraformer-realtime-v2"))
    ensures r.Ok? ==> (
      && r.value.aliyunKey == Config.GetText(data, "ALIYUN_API_KEY", "")
      && r.value.aliyunAppId == Config.GetText(data, "ALIYUN_APP_ID", "")
      && r.value.aliyunEndpoint == Config.GetText(data, "ALIYUN_ENDPOINT", DefaultEndpoint)
      && r.value.openaiKey == Config.GetText(data, "OPENAI_API_KEY", "")
      && r.value.azureKey == Config.GetText(data, "AZURE_SPEECH_KEY", "")
      && r.value.azureRegion == Config.GetText(data, "AZURE_SPEECH_REGION", ""))
    ensures r.Ok? ==> (
      var rate := Config.GetText(data, "SAMPLE_RATE", "16000");
      && (rate in SampleRates ==> SampleRates[r.value.sampleRate] == rate)
      && (rate !in SampleRates ==> r.value.sampleRate == ui.sampleRate))
    ensures r.Ok? ==> (
      && r.value.chunkDuration == Clamp(v[0], 1, 10)
      && r.value.deviceIndex == Clamp(v[1], -1, 99)
      && r.value.windowWidth == Clamp(v[2], 400, 2000)
      && r.value.windowHeight == Clamp(v[3], 80, 500)
      && Some(r.value.opacity) == float(Config.GetText(data, "WINDOW_OPACITY", "0.85"))
      && r.value.fontSize == Clamp(Config.IntValue(data, "FONT_SIZE", 24), 12, 72))
  {
    match float(Config.GetText(data, "WINDOW_OPACITY", "0.85"))
    case None => Err(NotAFloat("WINDOW_OPACITY"))
    case Some(opacity) =>
      match SpinError(data, "FONT_SIZE", 24)
      case Some(e) => Err(e)
      case None => Ok(Show(ui, data, v, opacity, Config.IntValue(data, "FONT_SIZE", 24)))
  }

  /** The integers the spin boxes read, by variable name. */
  lemma SpinValues(data: Env, v: seq<int>)
    requires SetSpins(data, SpinNames, SpinDefaults) == Ok(v)
    ensures |v| == 4
    ensures v[0] == Config.IntValue(data, "CHUNK_DURATION", 3)
    ensures v[1] == Config.IntValue(data, "AUDIO_DEVICE_INDEX", -1)
    ensures v[2] == Config.IntValue(data, "WINDOW_WIDTH", 800)
    ensures v[3] == Config.IntValue(data, "WINDOW_HEIGHT", 120)
  {
    assert SpinNames[1] == "AUDIO_DEVICE_INDEX" && SpinDefaults[1] == -1;
  }

  /** The widgets once every setting has been read: selectors and line
      edits from `data`, spin boxes from the integers read. */
  function Show(ui: Ui, data: Env, v: seq<int>, opacity: string, font: int): (u: Ui)
    requires Ranged(ui) && |v| == 4
    ensures Ranged(u)
    ensures Selects(ServiceNames, u.service, Config.GetText(data, "AI_SERVICE", "aliyun"))
    ensures Selects(ModelNames, u.aliyunModel, Config.GetText(data, "ALIYUN_MODEL", "paraformer-realtime-v2"))
    ensures var rate := Config.GetText(data, "SAMPLE_RATE", "16000");
      && (rate in SampleRates ==> SampleRates[u.sampleRate] == rate)
      && (rate !in SampleRates ==> u.sampleRate == ui.sampleRate)
  {
    Ui(
      IndexOr0(ServiceNames, Config.GetText(data, "AI_SERVICE", "aliyun")),
      Config.GetText(data, "ALIYUN_API_KEY", ""),
      Config.GetText(data, "ALIYUN_APP_ID", ""),
      IndexOr0(ModelNames, Config.GetText(data, "ALIYUN_MODEL", "paraformer-realtime-v2")),
      Config.GetText(data, "ALIYUN_ENDPOINT", DefaultEndpoint),
      Config.GetText(data, "OPENAI_API_KEY", ""),
      Config.GetText(data, "AZURE_SPEECH_KEY", ""),
      Config.GetText(data, "AZURE_SPEECH_REGION", ""),
      SetCurrentText(SampleRates, ui.sampleRate, Config.GetText(data, "SAMPLE_RATE", "16000")),
      Clamp(v[0], 1, 10),
      Clamp(v[1], -1, 99),
      Clamp(v[2], 400, 2000),
      Clamp(v[3], 80, 500),
      opacity,
      Clamp(font, 12, 72))
  }

  /** A box over `names` shows `name` when it knows it, else its first item. */
  predicate Selects(names: seq<string>, index: nat, name: string) {
    && index < |names|
    && (name in names ==> names[index] == name)
    && (name !in names ==> index == 0)
  }

  /** Opening the dialog: read `.env` (or `.env.example`) into an empty
      dictionary and show it in freshly built widgets. */
  function OpenDialog(envFile: Option<string>, exampleFile: Option<string>, float: string -> Option<string>): Result<Ui, OpenError> {
    ApplyConfig(InitialUi, LoadConfig(envFile, exampleFile), float)
  }

  // ---- get_config_from_ui ----

  /** The text a widget gives for one key: combo boxes give the key part
      of their item (`ServiceKeys` and `ModelKeys` show that cutting the
      item at `" - "` gives these names), line edits give their text, spin
      boxes give `str()` of their value. */
  function WidgetText(ui: Ui, k: Key): string
    requires Ranged(ui)
  {
    match k
    case AiService => ServiceNames[ui.service]
    case AliyunApiKey => ui.aliyunKey
    case AliyunAppId => ui.aliyunAppId
    case AliyunModel => ModelNames[ui.aliyunModel]
    case AliyunEndpoint => ui.aliyunEndpoint
    case OpenAIApiKey => ui.openaiKey
    case OpenAIModel => OpenAIModel
    case AzureSpeechKey => ui.azureKey
    case AzureSpeechRegion => ui.azureRegion
    case SampleRate => SampleRates[ui.sampleRate]
    case ChunkDuration => IntToString(ui.chunkDuration)
    case AudioDeviceIndex => IntToString(ui.deviceIndex)
    case WindowWidth => IntToString(ui.windowWidth)
    case WindowHeight => IntToString(ui.windowHeight)
    case WindowOpacity => ui.opacity
    case FontSize => IntToString(ui.fontSize)
  }

  /** The widgets with every line edit's text stripped, as
      `get_config_from_ui` reads them. */
  function Stripped(ui: Ui): (s: Ui)
    ensures Ranged(ui) ==> Ranged(s)
  {
    ui.(aliyunKey := Strip(ui.aliyunKey), aliyunAppId := Strip(ui.aliyunAppId),
        aliyunEndpoint := Strip(ui.aliyunEndpoint), openaiKey := Strip(ui.openaiKey),
        azureKey := Strip(ui.azureKey), azureRegion := Strip(ui.azureRegion))
  }

  /** `get_config_from_ui`: one entry for each of the sixteen keys, the
      line edits stripped. */
  function ConfigFromUi(ui: Ui): (config: map<Key, string>)
    requires Ranged(ui)
    ensures config.Keys == SavedKeys
    ensures forall k: Key :: k in config && config[k] == WidgetText(Stripped(ui), k)
  {
    SavedKeysListed();
    map k | k in SavedKeys :: WidgetText(Stripped(ui), k)
  }

  /** The selectors are saved as bare keys, not as the labels shown. */
  lemma ServiceKeys(i: nat)
    requires i < |ServiceLabels|
    ensures KeyOf(ServiceLabels[i]) == ServiceNames[i]
  {
    if i == 0 {
      KeyOfLabel("aliyun", "阿里云百炼（推荐）");
    } else if i == 1 {
      KeyOfLabel("openai", "OpenAI Whisper");
    } else if i == 2 {
      KeyOfLabel("azure", "Azure Speech");
    } else {
      KeyOfLabel("local_whisper", "本地Whisper");
    }
  }

  lemma ModelKeys(i: nat)
    requires i < |ModelLabels|
    ensures KeyOf(ModelLabels[i]) == ModelNames[i]
  {
    if i == 0 {
      KeyOfLabel("paraformer-realtime-v2", "实时识别（推荐）");
    } else if i == 1 {
      KeyOfLabel("paraformer-v2", "高精度识别");
    } else if i == 2 {
      KeyOfLabel("paraformer-8k-v2", "8kHz采样率");
    } else {
      KeyOfLabel("paraformer-mtl-v2", "多语言");
    }
  }

  /** A selector survives the trip from position to item to saved key and
      back to position: reopening selects the item that was saved. */
  lemma SelectorsRoundTrip(i: nat, j: nat)
    requires i < |ServiceLabels| && j < |ModelLabels|
    ensures IndexOr0(ServiceNames, KeyOf(ServiceLabels[i])) == i
    ensures IndexOr0(ModelNames, KeyOf(ModelLabels[j])) == j
  {
    ServiceKeys(i);
    ModelKeys(j);
    ItemsDistinct();
    FindsOwnPosition(ServiceNames, i, 0);
    FindsOwnPosition(ModelNames, j, 0);
  }

  // ---- validate_config / save_config ----

  /** Why the dialog refuses to save. */
  datatype Problem = AliyunKeyMissing | OpenAIKeyMissing | AzureKeyMissing | AzureRegionMissing

  /** `validate_config`: the chosen service needs a credential that is not
      blank; Azure needs its key first, then its region. */
  function Validate(ui: Ui): (r: Option<Problem>)
    requires Ranged(ui)
    ensures r == Some(AliyunKeyMissing) <==> ServiceNames[ui.service] == "aliyun" && IsBlank(ui.aliyunKey)
    ensures r == Some(OpenAIKeyMissing) <==> ServiceNames[ui.service] == "openai" && IsBlank(ui.openaiKey)
    ensures r == Some(AzureKeyMissing) <==> ServiceNames[ui.service] == "azure" && IsBlank(ui.azureKey)
    ensures r == Some(AzureRegionMissing) <==>
      ServiceNames[ui.service] == "azure" && !IsBlank(ui.azureKey) && IsBlank(ui.azureRegion)
    ensures ServiceNames[ui.service] == "local_whisper" ==> r.None?
  {
    ServiceKeys(ui.service);
    var service := KeyOf(ServiceLabels[ui.service]);
    if service == "aliyun" then
      if IsBlank(ui.aliyunKey) then Some(AliyunKeyMissing) else None
    else if service == "openai" then
      if IsBlank(ui.openaiKey) then Some(OpenAIKeyMissing) else None
    else if service == "azure" then
      if IsBlank(ui.azureKey) then Some(AzureKeyMissing)
      else if IsBlank(ui.azureRegion) then Some(AzureRegionMissing)
      else None
    else None
  }

  /** `save_config`: nothing is written when validation fails; otherwise
      the text of the new `.env` file. */
  function SaveConfig(ui: Ui): (text: Option<string>)
    requires Ranged(ui)
    ensures text.None? <==> Validate(ui).Some?
  {
    if Validate(ui).Some? then None else Some(SaveText(ConfigFromUi(ui)))
  }

  /** `on_service_changed`: which credential groups are shown. */
  datatype Groups = Groups(aliyun: bool, openai: bool, azure: bool)

  function VisibleGroups(ui: Ui): (g: Groups)
    requires Ranged(ui)
    // exactly the chosen service's group is shown; the local model has none
    ensures g.aliyun <==> ServiceNames[ui.service] == "aliyun"
    ensures g.openai <==> ServiceNames[ui.service] == "openai"
    ensures g.azure <==> ServiceNames[ui.service] == "azure"
    ensures ServiceNames[ui.service] == "local_whisper" ==> g == Groups(false, false, false)
  {
    ServiceKeys(ui.service);
    var service := KeyOf(ServiceLabels[ui.service]);
    Groups(service == "aliyun", service == "openai", service == "azure")
  }

  // ---- saving and reopening ----

  /** Text with no line break. */
  predicate NoBreaks(s: string) {
    '\n' !in s && '\r' !in s
  }

  /** The widget contents the file can carry: no line edit holds a line
      break, and the opacity text is stored as it is. */
  predicate Writable(ui: Ui) {
    && NoBreaks(ui.aliyunKey) && NoBreaks(ui.aliyunAppId) && NoBreaks(ui.aliyunEndpoint)
    && NoBreaks(ui.openaiKey) && NoBreaks(ui.azureKey) && NoBreaks(ui.azureRegion)
    && Storable(ui.opacity)
  }

  lemma StripKeepsNoBreaks(s: string)
    requires NoBreaks(s)
    ensures Storable(Strip(s))
  {
    var r := Strip(s);
    var a := LeadingSpaces(s);
    assert forall i :: 0 <= i < |r| ==> r[i] == s[a + i];
  }

  lemma IntTextStorable(n: int)
    ensures Storable(IntToString(n))
  {
    var s := IntToString(n);
    var d := if n < 0 then s[1..] else s;
    assert forall i :: 0 <= i < |d| ==> IsDigit(d[i]);
    assert n < 0 ==> s == "-" + d;
  }

  /** Every line edit, and the opacity box, holds text the file carries
      unchanged. */
  predicate TextsStorable(u: Ui) {
    && Storable(u.aliyunKey) && Storable(u.aliyunAppId) && Storable(u.aliyunEndpoint)
    && Storable(u.openaiKey) && Storable(u.azureKey) && Storable(u.azureRegion)
    && Storable(u.opacity)
  }

  /** Stripping writable widgets leaves text the file carries unchanged. */
  lemma StrippedStorable(ui: Ui)
    requires Writable(ui)
    ensures TextsStorable(Stripped(ui))
  {
    StripKeepsNoBreaks(ui.aliyunKey);
    StripKeepsNoBreaks(ui.aliyunAppId);
    StripKeepsNoBreaks(ui.aliyunEndpoint);
    StripKeepsNoBreaks(ui.openaiKey);
    StripKeepsNoBreaks(ui.azureKey);
    StripKeepsNoBreaks(ui.azureRegion);
  }

  /** Every value `get_config_from_ui` produces survives the file. */
  lemma SavedValueStorable(u: Ui, k: Key)
    requires Ranged(u) && TextsStorable(u)
    ensures Storable(WidgetText(u, k))
  {
    match k
    case AiService => ListedStorable(ServiceNames, u.service);
    case AliyunModel => ListedStorable(ModelNames, u.aliyunModel);
    case SampleRate => ListedStorable(SampleRates, u.sampleRate);
    case OpenAIModel => assert Storable(OpenAIModel);
    case ChunkDuration => IntTextStorable(u.chunkDuration);
    case AudioDeviceIndex => IntTextStorable(u.deviceIndex);
    case WindowWidth => IntTextStorable(u.windowWidth);
    case WindowHeight => IntTextStorable(u.windowHeight);
    case FontSize => IntTextStorable(u.fontSize);
    case _ =>
  }

  /** Every item of the selector boxes survives the file. */
  lemma ListedStorable(names: seq<string>, i: nat)
    requires names == ServiceNames || names == ModelNames || names == SampleRates
    requires i < |names|
    ensures Storable(names[i])
  {
    if names == ServiceNames {
      ServiceNamesStorable(i);
    } else if names == ModelNames {
      ModelNamesStorable(i);
    } else {
      SampleRatesStorable(i);
    }
  }

  lemma ServiceNamesStorable(i: nat)
    requires i < |ServiceNames|
    ensures Storable(ServiceNames[i])
  {
    assert i in {0, 1, 2, 3};
  }

  lemma ModelNamesStorable(i: nat)
    requires i < |ModelNames|
    ensures Storable(ModelNames[i])
  {
    assert i in {0, 1, 2, 3};
  }

  lemma SampleRatesStorable(i: nat)
    requires i < |SampleRates|
    ensures Storable(SampleRates[i])
  {
    assert i in {0, 1, 2, 3, 4};
  }

  /** `env` holds, under each key's variable name, what the widgets save
      for that key. */
  predicate Holds(env: Env, ui: Ui)
    requires Ranged(ui)
  {
    forall k: Key :: Name(k) in env && env[Name(k)] == WidgetText(ui, k)
  }

  /** The dictionary of variable names the dialog saves. */
  function SavedEnv(ui: Ui): (env: Env)
    requires Ranged(ui)
    ensures Holds(env, Stripped(ui))
  {
    var config := ConfigFromUi(ui);
    forall k: Key
      ensures EnvOf(SavedKeys, config)[Name(k)] == WidgetText(Stripped(ui), k)
    {
      EnvOfLookup(SavedKeys, config, k);
    }
    EnvOf(SavedKeys, config)
  }

  /** A saved integer reads back as itself, whatever the default. */
  lemma SavedInteger(env: Env, key: string, v: int)
    requires key in env && env[key] == IntToString(v) && WithinDigitLimit(v)
    ensures !Config.BadInt(env, key)
    ensures forall d :: Config.IntValue(env, key, d) == v
  {
    IntRoundTrip(v);
  }

  /** The integer settings of a saved dictionary read back as the spin
      boxes' values. */
  lemma SavedIntegers(ui: Ui, env: Env)
    requires Ranged(ui)
    requires Holds(env, ui)
    ensures forall k :: 0 <= k < |SpinNames| ==> !Config.BadInt(env, SpinNames[k])
    ensures !Config.BadInt(env, "FONT_SIZE")
    ensures Config.IntValue(env, "CHUNK_DURATION", 3) == ui.chunkDuration
    ensures Config.IntValue(env, "AUDIO_DEVICE_INDEX", -1) == ui.deviceIndex
    ensures Config.IntValue(env, "WINDOW_WIDTH", 800) == ui.windowWidth
    ensures Config.IntValue(env, "WINDOW_HEIGHT", 120) == ui.windowHeight
    ensures Config.IntValue(env, "FONT_SIZE", 24) == ui.fontSize
  {
    SavedSpins(ui, env);
    HeldInteger(env, ui, FontSize, ui.fontSize);
  }

  /** The four spin boxes read by one `int()` each. */
  lemma SavedSpins(ui: Ui, env: Env)
    requires Ranged(ui)
    requires Holds(env, ui)
    ensures forall k :: 0 <= k < |SpinNames| ==> !Config.BadInt(env, SpinNames[k])
    ensures Config.IntValue(env, "CHUNK_DURATION", 3) == ui.chunkDuration
    ensures Config.IntValue(env, "AUDIO_DEVICE_INDEX", -1) == ui.deviceIndex
    ensures Config.IntValue(env, "WINDOW_WIDTH", 800) == ui.windowWidth
    ensures Config.IntValue(env, "WINDOW_HEIGHT", 120) == ui.windowHeight
  {
    SavedCaptureSpins(ui, env);
    SavedWindowSpins(ui, env);
    forall k | 0 <= k < |SpinNames|
      ensures !Config.BadInt(env, SpinNames[k])
    {
      assert k in {0, 1, 2, 3};
    }
  }

  lemma SavedCaptureSpins(ui: Ui, env: Env)
    requires Ranged(ui)
    requires Holds(env, ui)
    ensures !Config.BadInt(env, "CHUNK_DURATION") && !Config.BadInt(env, "AUDIO_DEVICE_INDEX")
    ensures Config.IntValue(env, "CHUNK_DURATION", 3) == ui.chunkDuration
    ensures Config.IntValue(env, "AUDIO_DEVICE_INDEX", -1) == ui.deviceIndex
  {
    HeldInteger(env, ui, ChunkDuration, ui.chunkDuration);
    HeldInteger(env, ui, AudioDeviceIndex, ui.deviceIndex);
  }

  lemma SavedWindowSpins(ui: Ui, env: Env)
    requires Ranged(ui)
    requires Holds(env, ui)
    ensures !Config.BadInt(env, "WINDOW_WIDTH") && !Config.BadInt(env, "WINDOW_HEIGHT")
    ensures Config.IntValue(env, "WINDOW_WIDTH", 800) == ui.windowWidth
    ensures Config.IntValue(env, "WINDOW_HEIGHT", 120) == ui.windowHeight
  {
    HeldInteger(env, ui, WindowWidth, ui.windowWidth);
    HeldInteger(env, ui, WindowHeight, ui.windowHeight);
  }

  /** One spin box's value, held under its variable name, reads back. */
  lemma HeldInteger(env: Env, ui: Ui, k: Key, v: int)
    requires Ranged(ui) && Holds(env, ui) && WidgetText(ui, k) == IntToString(v)
    requires -1 <= v <= 2000
    ensures !Config.BadInt(env, Name(k))
    ensures forall d :: Config.IntValue(env, Name(k), d) == v
  {
    SmallWithinLimit(v);
    SavedInteger(env, Name(k), v);
  }

  /** Distinct positions of a box hold distinct names. */
  predicate Distinct(names: seq<string>) {
    forall i, j :: 0 <= i < j < |names| ==> names[i] != names[j]
  }

  lemma ItemsDistinct()
    ensures Distinct(ServiceNames) && Distinct(ModelNames) && Distinct(SampleRates)
  {
  }

  /** In a box of distinct names, looking up the name at a position finds
      that position. */
  lemma FindsOwnPosition(names: seq<string>, i: nat, current: nat)
    requires Distinct(names) && i < |names| && current < |names|
    ensures IndexOr0(names, names[i]) == i
    ensures SetCurrentText(names, current, names[i]) == i
  {
  }

  /** The spin boxes' settings of a dictionary holding what the widgets
      give read back as the spin boxes' values. */
  lemma SpinsRead(u: Ui, env: Env)
    requires Ranged(u) && Holds(env, u)
    ensures SetSpins(env, SpinNames, SpinDefaults)
      == Ok([u.chunkDuration, u.deviceIndex, u.windowWidth, u.windowHeight])
    ensures SpinError(env, "FONT_SIZE", 24).None? && Config.IntValue(env, "FONT_SIZE", 24) == u.fontSize
  {
    SavedIntegers(u, env);
    forall k | 0 <= k < |SpinNames|
      ensures SpinError(env, SpinNames[k], SpinDefaults[k]).None?
    {
      assert k in {0, 1, 2, 3};
    }
    var r := SetSpins(env, SpinNames, SpinDefaults);
    assert r.Ok?;
    assert r.value == [u.chunkDuration, u.deviceIndex, u.windowWidth, u.windowHeight];
  }

  /** A dictionary holding what widgets `u` give opens without error. */
  lemma AppliedOk(u: Ui, env: Env, float: string -> Option<string>)
    requires Ranged(u) && Holds(env, u) && float(u.opacity) == Some(u.opacity)
    ensures ApplyConfig(InitialUi, env, float).Ok?
  {
    SpinsRead(u, env);
    assert env[Name(WindowOpacity)] == u.opacity;
  }

  /** The text settings of a dictionary holding what widgets `u` give are
      the widgets' texts. */
  lemma HeldTexts(u: Ui, env: Env)
    requires Ranged(u) && Holds(env, u)
    ensures Config.GetText(env, "ALIYUN_API_KEY", "") == u.aliyunKey
    ensures Config.GetText(env, "ALIYUN_APP_ID", "") == u.aliyunAppId
    ensures Config.GetText(env, "ALIYUN_ENDPOINT", DefaultEndpoint) == u.aliyunEndpoint
    ensures Config.GetText(env, "OPENAI_API_KEY", "") == u.openaiKey
    ensures Config.GetText(env, "AZURE_SPEECH_KEY", "") == u.azureKey
    ensures Config.GetText(env, "AZURE_SPEECH_REGION", "") == u.azureRegion
  {
    assert env[Name(AliyunApiKey)] == u.aliyunKey;
    assert env[Name(AliyunAppId)] == u.aliyunAppId;
    assert env[Name(AliyunEndpoint)] == u.aliyunEndpoint;
    assert env[Name(OpenAIApiKey)] == u.openaiKey;
    assert env[Name(AzureSpeechKey)] == u.azureKey;
    assert env[Name(AzureSpeechRegion)] == u.azureRegion;
  }

  /** The selector settings of a dictionary holding what widgets `u` give
      are the selected items' keys. */
  lemma HeldSelectors(u: Ui, env: Env)
    requires Ranged(u) && Holds(env, u)
    ensures Config.GetText(env, "AI_SERVICE", "aliyun") == ServiceNames[u.service]
    ensures Config.GetText(env, "ALIYUN_MODEL", "paraformer-realtime-v2") == ModelNames[u.aliyunModel]
    ensures Config.GetText(env, "SAMPLE_RATE", "16000") == SampleRates[u.sampleRate]
  {
    assert env[Name(AiService)] == ServiceNames[u.service];
    assert env[Name(AliyunModel)] == ModelNames[u.aliyunModel];
    assert env[Name(SampleRate)] == SampleRates[u.sampleRate];
  }

  /** In a list without repeats, the position showing item `i` is `i`. */
  lemma ShowsOwnPosition(names: seq<string>, index: nat, i: nat)
    requires Distinct(names) && index < |names| && i < |names| && names[index] == names[i]
    ensures index == i
  {
  }

  /** The service box selects the saved service again. */
  lemma ApplyService(u: Ui, env: Env, float: string -> Option<string>)
    requires Ranged(u) && Holds(env, u) && float(u.opacity) == Some(u.opacity)
    ensures ApplyConfig(InitialUi, env, float).Ok?
    ensures ApplyConfig(InitialUi, env, float).value.service == u.service
  {
    AppliedOk(u, env, float);
    HeldSelectors(u, env);
    ItemsDistinct();
    ShowsOwnPosition(ServiceNames, ApplyConfig(InitialUi, env, float).value.service, u.service);
  }

  /** The model box selects the saved model again. */
  lemma ApplyModel(u: Ui, env: Env, float: string -> Option<string>)
    requires Ranged(u) && Holds(env, u) && float(u.opacity) == Some(u.opacity)
    ensures ApplyConfig(InitialUi, env, float).Ok?
    ensures ApplyConfig(InitialUi, env, float).value.aliyunModel == u.aliyunModel
  {
    AppliedOk(u, env, float);
    HeldSelectors(u, env);
    ItemsDistinct();
    ShowsOwnPosition(ModelNames, ApplyConfig(InitialUi, env, float).value.aliyunModel, u.aliyunModel);
  }

  /** The sample-rate box selects the saved rate again. */
  lemma ApplySampleRate(u: Ui, env: Env, float: string -> Option<string>)
    requires Ranged(u) && Holds(env, u) && float(u.opacity) == Some(u.opacity)
    ensures ApplyConfig(InitialUi, env, float).Ok?
    ensures ApplyConfig(InitialUi, env, float).value.sampleRate == u.sampleRate
  {
    AppliedOk(u, env, float);
    HeldSelectors(u, env);
    ItemsDistinct();
    ShowsOwnPosition(SampleRates, ApplyConfig(InitialUi, env, float).value.sampleRate, u.sampleRate);
  }

  /** The line edits show the saved text again. */
  lemma ApplyTexts(u: Ui, env: Env, float: string -> Option<string>)
    requires Ranged(u) && Holds(env, u) && float(u.opacity) == Some(u.opacity)
    ensures ApplyConfig(InitialUi, env, float).Ok?
    ensures var v := ApplyConfig(InitialUi, env, float).value;
      && v.aliyunKey == u.aliyunKey && v.aliyunAppId == u.aliyunAppId
      && v.aliyunEndpoint == u.aliyunEndpoint && v.openaiKey == u.openaiKey
      && v.azureKey == u.azureKey && v.azureRegion == u.azureRegion
  {
    ApplyAliyunTexts(u, env, float);
    ApplyOtherTexts(u, env, float);
  }

  lemma ApplyAliyunTexts(u: Ui, env: Env, float: string -> Option<string>)
    requires Ranged(u) && Holds(env, u) && float(u.opacity) == Some(u.opacity)
    ensures ApplyConfig(InitialUi, env, float).Ok?
    ensures var v := ApplyConfig(InitialUi, env, float).value;
      v.aliyunKey == u.aliyunKey && v.aliyunAppId == u.aliyunAppId && v.aliyunEndpoint == u.aliyunEndpoint
  {
    AppliedOk(u, env, float);
    HeldTexts(u, env);
  }

  lemma ApplyOtherTexts(u: Ui, env: Env, float: string -> Option<string>)
    requires Ranged(u) && Holds(env, u) && float(u.opacity) == Some(u.opacity)
    ensures ApplyConfig(InitialUi, env, float).Ok?
    ensures var v := ApplyConfig(InitialUi, env, float).value;
      v.openaiKey == u.openaiKey && v.azureKey == u.azureKey && v.azureRegion == u.azureRegion
  {
    AppliedOk(u, env, float);
    HeldTexts(u, env);
  }

  /** The spin boxes and the opacity box show the saved numbers again. */
  lemma ApplyNumbers(u: Ui, env: Env, float: string -> Option<string>)
    requires Ranged(u) && Holds(env, u) && float(u.opacity) == Some(u.opacity)
    ensures ApplyConfig(InitialUi, env, float).Ok?
    ensures var v := ApplyConfig(InitialUi, env, float).value;
      && v.chunkDuration == u.chunkDuration && v.deviceIndex == u.deviceIndex
      && v.windowWidth == u.windowWidth && v.windowHeight == u.windowHeight
      && v.opacity == u.opacity && v.fontSize == u.fontSize
  {
    SpinsRead(u, env);
    assert env[Name(WindowOpacity)] == u.opacity;
  }

  /** Applying a dictionary that holds what the widgets `u` give to fresh
      widgets shows `u` again. */
  lemma ApplySaved(u: Ui, env: Env, float: string -> Option<string>)
    requires Ranged(u) && Holds(env, u) && float(u.opacity) == Some(u.opacity)
    ensures ApplyConfig(InitialUi, env, float) == Ok(u)
  {
    ApplyService(u, env, float);
    ApplyModel(u, env, float);
    ApplySampleRate(u, env, float);
    ApplyTexts(u, env, float);
    ApplyNumbers(u, env, float);
  }

  /** A chunk duration outside the C `int` range, but not so long that
      `int()` refuses it, is refused by the spin box, not clamped: the box
      raises before its range applies. */
  lemma OverflowingSpinRefused(n: int, float: string -> Option<string>)
    requires !FitsCInt(n) && WithinDigitLimit(n)
    ensures ApplyConfig(InitialUi, map["CHUNK_DURATION" := IntToString(n)], float) == Err(OutOfRange("CHUNK_DURATION"))
  {
    var env := map["CHUNK_DURATION" := IntToString(n)];
    IntRoundTrip(n);
    assert SpinError(env, SpinNames[0], SpinDefaults[0]) == Some(OutOfRange("CHUNK_DURATION"));
  }

  /** A chunk duration with more digits than `int()` converts is not an
      integer to the dialog. */
  lemma OverlongSpinRefused(n: int, float: string -> Option<string>)
    requires !WithinDigitLimit(n)
    ensures ApplyConfig(InitialUi, map["CHUNK_DURATION" := IntToString(n)], float) == Err(NotAnInteger("CHUNK_DURATION"))
  {
    var env := map["CHUNK_DURATION" := IntToString(n)];
    TooManyDigitsRefused(n);
    assert SpinError(env, SpinNames[0], SpinDefaults[0]) == Some(NotAnInteger("CHUNK_DURATION"));
  }

  /** Saving and reopening the dialog shows what was saved: the widgets come
      back with their text stripped, whatever `.env.example` holds. */
  lemma SaveThenReopen(ui: Ui, float: string -> Option<string>, example: Option<string>)
    requires Ranged(ui) && Writable(ui) && float(ui.opacity) == Some(ui.opacity)
    requires SaveConfig(ui).Some?
    ensures OpenDialog(SaveConfig(ui), example, float) == Ok(Stripped(ui))
  {
    var config := ConfigFromUi(ui);
    StrippedStorable(ui);
    forall k | k in config
      ensures Storable(config[k])
    {
      SavedValueStorable(Stripped(ui), k);
    }
    SaveThenLoad(config);
    ApplySaved(Stripped(ui), SavedEnv(ui), float);
  }

  /** A sample rate the dialog offers is a string of decimal digits. */
  lemma SampleRatesAreDigits(i: nat)
    requires i < |SampleRates|
    ensures AllDigits(SampleRates[i]) && |SampleRates[i]| <= 5
  {
    assert i in {0, 1, 2, 3, 4};
  }

  /** A variable set to decimal digits is an integer to `int()`. */
  lemma DigitsAreNotBad(env: Env, name: string)
    requires name in env && AllDigits(env[name]) && |env[name]| <= MaxStrDigits
    ensures !Config.BadInt(env, name)
  {
    ParseDigits(env[name]);
  }

  /** The saved sample rate is an integer to `int()`. */
  lemma SampleRateParses(u: Ui, env: Env)
    requires Ranged(u) && Holds(env, u)
    ensures !Config.BadInt(env, "SAMPLE_RATE")
  {
    assert env[Name(SampleRate)] == SampleRates[u.sampleRate];
    SampleRatesAreDigits(u.sampleRate);
    DigitsAreNotBad(env, "SAMPLE_RATE");
  }

  /** Every integer setting of a dictionary that holds what the widgets
      give is an integer to `int()`. */
  lemma IntegersParse(u: Ui, env: Env)
    requires Ranged(u) && Holds(env, u)
    ensures forall k :: 0 <= k < |Config.IntNames| ==> !Config.BadInt(env, Config.IntNames[k])
  {
    SampleRateParses(u, env);
    SavedIntegers(u, env);
    forall k | 0 <= k < |Config.IntNames|
      ensures !Config.BadInt(env, Config.IntNames[k])
    {
      if 1 <= k <= 4 {
        assert Config.IntNames[k] == SpinNames[k - 1];
      }
    }
  }

  /** The application's configuration loads from a dictionary that holds
      what the widgets `u` give, and sees their service and credentials. */
  lemma LoadsSaved(u: Ui, env: Env)
    requires Ranged(u) && Holds(env, u)
    ensures Config.Load(env).Ok?
    ensures var s := Config.Load(env).value;
      && s.aiService == ServiceNames[u.service]
      && s.openaiApiKey == u.openaiKey
      && s.azureSpeechKey == u.azureKey
      && s.azureSpeechRegion == u.azureRegion
      && s.aliyunApiKey == u.aliyunKey
  {
    IntegersParse(u, env);
    assert env[Name(AiService)] == ServiceNames[u.service];
    assert env[Name(OpenAIApiKey)] == u.openaiKey;
    assert env[Name(AzureSpeechKey)] == u.azureKey;
    assert env[Name(AzureSpeechRegion)] == u.azureRegion;
    assert env[Name(AliyunApiKey)] == u.aliyunKey;
  }

  /** What the dialog accepts, the application accepts: when the process
      environment holds exactly the saved dictionary, `Config` loads it and
      `Config.validate` passes. */
  lemma AcceptedByApplication(ui: Ui)
    requires Ranged(ui) && Validate(ui).None?
    ensures Config.Load(SavedEnv(ui)).Ok?
    ensures Config.Validate(Config.Load(SavedEnv(ui)).value).None?
  {
    LoadsSaved(Stripped(ui), SavedEnv(ui));
  }
}

=== FILE: text.dfy ===
/** The handful of Python string operations the application relies on:
    `str.strip()`, `str.lower()`, `in` on strings, `split(sep)[0]`,
    `split('=', 1)`, iteration over the lines of a text file, `str(int)`
    and `int(str)`. */
module Text {
  import opened Results

  /** Python's `str.isspace()`: the characters `str.strip()` removes. */
  predicate IsSpace(c: char) {
    var n := c as int;
    || n == 0x20
    || 0x09 <= n <= 0x0D
    || 0x1C <= n <= 0x1F
    || n == 0x85
    || n == 0xA0
    || n == 0x1680
    || 0x2000 <= n <= 0x200A
    || n == 0x2028
    || n == 0x2029
    || n == 0x202F
    || n == 0x205F
    || n == 0x3000
  }

  /** Neither end of `s` is whitespace. */
  predicate IsStripped(s: string) {
    s == [] || (!IsSpace(s[0]) && !IsSpace(s[|s| - 1]))
  }

  /** Number of whitespace characters at the start of `s`. */
  function LeadingSpaces(s: string): (k: nat)
    ensures k <= |s|
    ensures forall i :: 0 <= i < k ==> IsSpace(s[i])
    ensures k < |s| ==> !IsSpace(s[k])
  {
    if |s| == 0 || !IsSpace(s[0]) then 0 else 1 + LeadingSpaces(s[1..])
  }

  /** Number of whitespace characters at the end of `s`. */
  function TrailingSpaces(s: string): (k: nat)
    ensures k <= |s|
    ensures forall i :: |s| - k <= i < |s| ==> IsSpace(s[i])
    ensures k < |s| ==> !IsSpace(s[|s| - 1 - k])
  {
    if |s| == 0 || !IsSpace(s[|s| - 1]) then 0 else 1 + TrailingSpaces(s[..|s| - 1])
  }

  /** Python's `s.strip()`: the longest middle part of `s` with whitespace
      removed from both ends. */
  function Strip(s: string): (r: string)
    ensures IsStripped(r)
    ensures LeadingSpaces(s) + |r| <= |s|
    ensures r == s[LeadingSpaces(s)..LeadingSpaces(s) + |r|]
    ensures forall i :: 0 <= i < LeadingSpaces(s) ==> IsSpace(s[i])
    ensures forall i :: LeadingSpaces(s) + |r| <= i < |s| ==> IsSpace(s[i])
  {
    var rest := s[LeadingSpaces(s)..];
    rest[..|rest| - TrailingSpaces(rest)]
  }

  /** Python's truth test `bool(s.strip())` fails exactly for blank text. */
  predicate IsBlank(s: string) {
    Strip(s) == []
  }

  /** Stripping text whose ends are not whitespace changes nothing. */
  lemma StripStripped(s: string)
    requires IsStripped(s)
    ensures Strip(s) == s
  {
    if s != [] {
      assert LeadingSpaces(s) == 0;
      assert TrailingSpaces(s) == 0;
    }
  }

  /** Stripping twice is stripping once. */
  lemma StripIdempotent(s: string)
    ensures Strip(Strip(s)) == Strip(s)
  {
    StripStripped(Strip(s));
  }

  /** Blank text is text made of whitespace only. */
  lemma BlankIffAllSpace(s: string)
    ensures IsBlank(s) <==> forall i :: 0 <= i < |s| ==> IsSpace(s[i])
  {
    if IsBlank(s) {
      forall i | 0 <= i < |s|
        ensures IsSpace(s[i])
      {
        assert i < LeadingSpaces(s) || LeadingSpaces(s) + |Strip(s)| <= i;
      }
    }
  }

  /** Python's `str.lower()` on the ASCII letters. */
  function LowerChar(c: char): (d: char)
    ensures 'A' <= c <= 'Z' ==> d as int == c as int + 32
    ensures !('A' <= c <= 'Z') ==> d == c
  {
    if 'A' <= c <= 'Z' then (c as int + 32) as char else c
  }

  function Lower(s: string): (r: string)
    ensures |r| == |s|
    ensures forall i :: 0 <= i < |s| ==> r[i] == LowerChar(s[i])
  {
    seq(|s|, i requires 0 <= i < |s| => LowerChar(s[i]))
  }

  /** `sub` occurs in `s` starting at position `i`. */
  predicate OccursAt(s: string, sub: string, i: nat) {
    i + |sub| <= |s| && s[i..i + |sub|] == sub
  }

  /** Python's `sub in s`. */
  predicate Contains(s: string, sub: string) {
    exists i: nat | i <= |s| :: OccursAt(s, sub, i)
  }

  /** The first position at which `sub` occurs in `s`, if any. */
  function Find(s: string, sub: string, from: nat := 0): (r: Option<nat>)
    requires from <= |s|
    ensures r.Some? ==> from <= r.value && OccursAt(s, sub, r.value)
    ensures r.Some? ==> forall j: nat :: from <= j < r.value ==> !OccursAt(s, sub, j)
    ensures r.None? ==> forall j: nat :: from <= j ==> !OccursAt(s, sub, j)
    decreases |s| - from
  {
    if from + |sub| > |s| then None
    else if s[from..from + |sub|] == sub then Some(from)
    else if from == |s| then None
    else Find(s, sub, from + 1)
  }

  /** `Find` answers Python's `in`. */
  lemma FindDecidesContains(s: string, sub: string)
    ensures Find(s, sub).Some? <==> Contains(s, sub)
  {
    if Find(s, sub).Some? {
      assert OccursAt(s, sub, Find(s, sub).value);
    }
  }

  /** Python's `s.split(sep)[0]`: the text before the first `sep`, or all
      of `s` when `sep` does not occur. */
  function BeforeFirst(s: string, sep: string): (r: string)
    ensures Find(s, sep).None? ==> r == s
    ensures Find(s, sep).Some? ==> r == s[..Find(s, sep).value]
  {
    match Find(s, sep)
    case None => s
    case Some(i) => s[..i]
  }

  /** The first position of the character `c` in `s`, if any. */
  function IndexOf(s: string, c: char): (r: Option<nat>)
    ensures r.None? ==> c !in s
    ensures r.Some? ==> r.value < |s| && s[r.value] == c && c !in s[..r.value]
  {
    if |s| == 0 then None
    else if s[0] == c then Some(0)
    else match IndexOf(s[1..], c)
      case None => None
      case Some(i) => Some(i + 1)
  }

  /** `IndexOf` finds the first occurrence and no other. */
  lemma IndexOfFirst(s: string, c: char, i: nat)
    requires i < |s| && s[i] == c && c !in s[..i]
    ensures IndexOf(s, c) == Some(i)
  {
  }

  /** The lines of a text file, cut at every `'\n'`.  A file that ends with a
      newline yields a final empty line, which every consumer here skips. */
  function SplitLines(text: string): (lines: seq<string>)
    ensures |lines| >= 1
    ensures forall k :: 0 <= k < |lines| ==> '\n' !in lines[k]
    decreases |text|
  {
    match IndexOf(text, '\n')
    case None => [text]
    case Some(i) => [text[..i]] + SplitLines(text[i + 1..])
  }

  /** Reading a file in Python's text mode: `"\r\n"` and a lone `'\r'` both
      become `'\n'`. */
  function UniversalNewlines(s: string): (r: string)
    ensures '\r' !in r
    decreases |s|
  {
    if s == [] then []
    else if s[0] == '\r' then
      if |s| >= 2 && s[1] == '\n' then "\n" + UniversalNewlines(s[2..]) else "\n" + UniversalNewlines(s[1..])
    else [s[0]] + UniversalNewlines(s[1..])
  }

  /** Text without carriage returns reads back unchanged. */
  lemma {:induction false} NoCarriageReturns(s: string)
    requires '\r' !in s
    ensures UniversalNewlines(s) == s
    decreases |s|
  {
    if s != [] {
      assert '\r' !in s[1..];
      NoCarriageReturns(s[1..]);
      assert s == [s[0]] + s[1..];
    }
  }

  /** The text of a file written line by line, each line followed by `'\n'`. */
  function JoinLines(lines: seq<string>): (text: string)
    ensures |text| >= |lines|
    ensures (forall k :: 0 <= k < |lines| ==> '\r' !in lines[k]) ==> '\r' !in text
  {
    if lines == [] then "" else lines[0] + "\n" + JoinLines(lines[1..])
  }

  /** Reading back a file written line by line gives the lines written, plus
      the empty tail after the last newline. */
  lemma {:induction false} SplitJoin(lines: seq<string>)
    requires forall k :: 0 <= k < |lines| ==> '\n' !in lines[k]
    ensures SplitLines(JoinLines(lines)) == lines + [""]
  {
    if lines != [] {
      SplitAfterFirst(lines[0], JoinLines(lines[1..]));
      SplitJoin(lines[1..]);
      assert lines == [lines[0]] + lines[1..];
    }
  }

  /** A line without a newline, then a newline, splits off as the first line. */
  lemma SplitAfterFirst(l: string, rest: string)
    requires '\n' !in l
    ensures SplitLines(l + "\n" + rest) == [l] + SplitLines(rest)
  {
    var text := l + "\n" + rest;
    assert text[..|l|] == l;
    IndexOfFirst(text, '\n', |l|);
    assert text[|l| + 1..] == rest;
  }

  // ---- decimal integers: Python's str(n) and int(s) ----

  predicate IsDigit(c: char) {
    '0' <= c <= '9'
  }

  function DigitChar(d: nat): (c: char)
    requires d < 10
    ensures IsDigit(c)
  {
    ('0' as int + d) as char
  }

  function DigitValue(c: char): (d: nat)
    requires IsDigit(c)
    ensures d < 10
  {
    c as int - '0' as int
  }

  /** Decimal digits of `n`, most significant first, without leading zeros. */
  function NatToString(n: nat): (s: string)
    ensures |s| >= 1
    ensures forall i :: 0 <= i < |s| ==> IsDigit(s[i])
  {
    if n < 10 then [DigitChar(n)] else NatToString(n / 10) + [DigitChar(n % 10)]
  }

  /** Python's `str(n)` for an integer. */
  function IntToString(n: int): (s: string)
    ensures |s| >= 1 && IsStripped(s)
    ensures '\n' !in s
    ensures (n < 0) <==> s[0] == '-'
    ensures n < 0 ==> s[1..] == NatToString(-n)
    ensures n >= 0 ==> s == NatToString(n)
  {
    if n < 0 then "-" + NatToString(-n) else NatToString(n)
  }

  /** The value of a non-empty string of decimal digits. */
  function DigitsValue(s: string): nat
    requires forall i :: 0 <= i < |s| ==> IsDigit(s[i])
  {
    if s == [] then 0 else 10 * DigitsValue(s[..|s| - 1]) + DigitValue(s[|s| - 1])
  }

  predicate AllDigits(s: string) {
    |s| >= 1 && forall i :: 0 <= i < |s| ==> IsDigit(s[i])
  }

  /** The ASCII information separators U+001C..U+001F.  `str.isspace()`
      counts them as whitespace, but `int()` does not skip them: it skips
      only the ASCII whitespace and the non-ASCII characters `isspace()`
      accepts. */
  predicate IsSeparator(c: char) {
    0x1C <= c as int <= 0x1F
  }

  predicate HasSeparator(s: string) {
    exists i :: 0 <= i < |s| && IsSeparator(s[i])
  }

  /** CPython's default limit on the number of digits `int()` converts
      (`sys.int_info.default_max_str_digits`). */
  const MaxStrDigits := 4300

  /** The digits of a numeral, after its sign if it has one. */
  function NumeralDigits(t: string): (d: string)
    ensures |d| <= |t|
  {
    if |t| >= 1 && (t[0] == '-' || t[0] == '+') then t[1..] else t
  }

  /** An optional sign, then one to `MaxStrDigits` decimal digits. */
  predicate IsNumeral(t: string) {
    AllDigits(NumeralDigits(t)) && |NumeralDigits(t)| <= MaxStrDigits
  }

  /** Python's `int(s)` on text: surrounding whitespace, an optional sign and
      one to `MaxStrDigits` decimal digits; anything else raises
      `ValueError`, which is `None` here. */
  function ParseInt(s: string): (r: Option<int>)
    ensures r.Some? <==> !HasSeparator(s) && IsNumeral(Strip(s))
    ensures r.Some? ==> |Strip(s)| >= 1
    ensures r.Some? && Strip(s)[0] == '-' ==> r.value + DigitsValue(NumeralDigits(Strip(s))) == 0
    ensures r.Some? && Strip(s)[0] != '-' ==> r.value == DigitsValue(NumeralDigits(Strip(s)))
    ensures r.Some? && r.value < 0 ==> Strip(s)[0] == '-'
  {
    var t := Strip(s);
    if HasSeparator(s) || !IsNumeral(t) then None
    else
      var v: int := DigitsValue(NumeralDigits(t));
      Some(if t[0] == '-' then -v else v)
  }

  /** `int()` ignores the whitespace around a number, except that it refuses
      an ASCII separator wherever it stands. */
  lemma ParseIgnoresWhitespace(s: string)
    ensures !HasSeparator(s) ==> ParseInt(s) == ParseInt(Strip(s))
    ensures HasSeparator(s) ==> ParseInt(s).None?
  {
    StripIdempotent(s);
    SeparatorSurvivesStrip(s);
  }

  /** A separator left after stripping was there before. */
  lemma SeparatorSurvivesStrip(s: string)
    ensures HasSeparator(Strip(s)) ==> HasSeparator(s)
  {
    if HasSeparator(Strip(s)) {
      var i :| 0 <= i < |Strip(s)| && IsSeparator(Strip(s)[i]);
      assert IsSeparator(s[LeadingSpaces(s) + i]);
    }
  }

  /** `"\x1c5".strip()` is `"5"`, yet `int("\x1c5")` raises. */
  lemma SeparatorRefused()
    ensures Strip([0x1C as char, '5']) == "5"
    ensures ParseInt([0x1C as char, '5']).None?
  {
    var s := [0x1C as char, '5'];
    assert IsSeparator(s[0]);
    assert LeadingSpaces(s) == 1;
  }

  /** A string of decimal digits, no more than `int()` converts, is an
      integer to `int()`. */
  lemma ParseDigits(s: string)
    requires AllDigits(s) && |s| <= MaxStrDigits
    ensures ParseInt(s) == Some(DigitsValue(s))
  {
    assert IsDigit(s[0]) && IsDigit(s[|s| - 1]);
    StripStripped(s);
    NoSeparatorIn(s);
  }

  /** Digits and a minus sign are not separators. */
  lemma NoSeparatorIn(s: string)
    requires forall i :: 0 <= i < |s| ==> IsDigit(s[i]) || s[i] == '-'
    ensures !HasSeparator(s)
  {
  }

  lemma {:induction false} DigitsRoundTrip(n: nat)
    ensures DigitsValue(NatToString(n)) == n
  {
    if n >= 10 {
      var s := NatToString(n);
      assert s[..|s| - 1] == NatToString(n / 10);
      DigitsRoundTrip(n / 10);
    }
  }

  /** `n` has no more digits than `int()` converts. */
  predicate WithinDigitLimit(n: int) {
    |NatToString(if n < 0 then -n else n)| <= MaxStrDigits
  }

  lemma {:induction false} NatLength(n: nat)
    ensures |NatToString(n)| <= n + 1
  {
    if n >= 10 {
      NatLength(n / 10);
    }
  }

  /** Every integer smaller in magnitude than the limit is within it. */
  lemma SmallWithinLimit(n: int)
    requires -MaxStrDigits < n < MaxStrDigits
    ensures WithinDigitLimit(n)
  {
    NatLength(if n < 0 then -n else n);
  }

  /** `str(n)` is already stripped, holds no separator, and its digits
      after the sign spell the magnitude of `n`. */
  lemma SpelledNumeral(n: int)
    ensures Strip(IntToString(n)) == IntToString(n)
    ensures !HasSeparator(IntToString(n))
    ensures NumeralDigits(IntToString(n)) == NatToString(if n < 0 then -n else n)
    ensures AllDigits(NatToString(if n < 0 then -n else n))
  {
    var s := IntToString(n);
    StripStripped(s);
    NoSeparatorIn(s);
    if n >= 0 {
      assert IsDigit(s[0]);
    }
  }

  /** `int()` refuses the decimal spelling of a number with too many
      digits. */
  lemma TooManyDigitsRefused(n: int)
    requires !WithinDigitLimit(n)
    ensures ParseInt(IntToString(n)).None?
  {
    SpelledNumeral(n);
  }

  /** `int(str(n)) == n` for a number within the digit limit. */
  lemma IntRoundTrip(n: int)
    requires WithinDigitLimit(n)
    ensures ParseInt(IntToString(n)) == Some(n)
  {
    SpelledNumeral(n);
    DigitsRoundTrip(if n < 0 then -n else n);
  }
}

=== FILE: transcription.dfy ===
/** The transcription back ends (transcription_service.py): a factory that
    picks one of four services by name, and each service's `transcribe`,
    which never raises; every failure is collapsed to the empty string.  The
    vendor calls themselves are parameters (`Externals`). */
module Transcription {
  import opened Results
  import opened Text
  import opened AudioCapture
  import opened Config
  import Wav
  import Worker

  /** A constructed service.  Aliyun keeps call counters; Local Whisper
      remembers whether its model could be loaded. */
  datatype Service =
    | OpenAI(model: string)
    | Azure(language: string)
    | Aliyun(model: string, totalCalls: nat, successCalls: nat)
    | LocalWhisper(modelLoaded: bool)

  /** The counters never claim more successes than calls. */
  predicate Valid(s: Service) {
    s.Aliyun? ==> s.successCalls <= s.totalCalls
  }

  /** Why the factory raises: an unknown selector (`ValueError`), or a
      vendor SDK that cannot be imported. */
  datatype FactoryError = UnknownService(name: string) | SdkMissing(name: string)

  /** Which SDKs import.  Local Whisper survives a missing or broken model:
      it is then constructed without one. */
  datatype Installed = Installed(openai: bool, azure: bool, dashscope: bool, whisperModel: bool)

  const AzureLanguage := "zh-CN"

  /** `create_transcription_service`: the selector is lower-cased first. */
  function CreateService(cfg: Settings, sdk: Installed): (r: Result<Service, FactoryError>)
    ensures r.Err? && r.error.UnknownService? <==> Lower(cfg.aiService) !in ServiceKeys
    ensures r.Err? ==> r.error.name == Lower(cfg.aiService)
    ensures r.Ok? ==> Valid(r.value)
    ensures Lower(cfg.aiService) == "openai" ==>
      r == (if sdk.openai then Ok(OpenAI(cfg.openaiModel)) else Err(SdkMissing("openai")))
    ensures Lower(cfg.aiService) == "azure" ==>
      r == (if sdk.azure then Ok(Azure(AzureLanguage)) else Err(SdkMissing("azure")))
    ensures Lower(cfg.aiService) == "aliyun" ==>
      r == (if sdk.dashscope then Ok(Aliyun(cfg.aliyunModel, 0, 0)) else Err(SdkMissing("aliyun")))
    ensures Lower(cfg.aiService) == "local_whisper" ==> r == Ok(LocalWhisper(sdk.whisperModel))
  {
    var name := Lower(cfg.aiService);
    if name == "openai" then
      if sdk.openai then Ok(OpenAI(cfg.openaiModel)) else Err(SdkMissing(name))
    else if name == "azure" then
      if sdk.azure then Ok(Azure(AzureLanguage)) else Err(SdkMissing(name))
    else if name == "aliyun" then
      if sdk.dashscope then Ok(Aliyun(cfg.aliyunModel, 0, 0)) else Err(SdkMissing(name))
    else if name == "local_whisper" then Ok(LocalWhisper(sdk.whisperModel))
    else Err(UnknownService(name))
  }

  /** The factory's choice does not depend on letter case. */
  lemma FactoryIgnoresCase(cfg: Settings, sdk: Installed)
    ensures CreateService(cfg, sdk) == CreateService(cfg.(aiService := Lower(cfg.aiService)), sdk)
  {
    LowerIdempotent(cfg.aiService);
  }

  lemma LowerIdempotent(s: string)
    ensures Lower(Lower(s)) == Lower(s)
  {
  }

  /** Validation compares the selector exactly but the factory lower-cases
      it: "OpenAI" with no key passes `validate` and still builds the OpenAI
      service. */
  lemma ValidationIsCaseSensitive(cfg: Settings, sdk: Installed)
    requires cfg.aiService == "OpenAI" && cfg.openaiApiKey == "" && sdk.openai
    ensures Validate(cfg).None?
    ensures CreateService(cfg, sdk) == Ok(OpenAI(cfg.openaiModel))
  {
    assert Lower(cfg.aiService) == "openai";
  }

  // ---- what the vendor libraries do, as parameters ----

  /** An exception escaping a vendor call. */
  datatype Fault = Fault

  datatype AzureReason = RecognizedSpeech | NoMatch | OtherReason
  datatype AzureResult = AzureResult(reason: AzureReason, text: string)

  /** The arguments of `Recognition(...)` and the file passed to `call`. */
  datatype AliyunRequest = AliyunRequest(
    model: string, format: string, sampleRate: int, languageHints: Option<seq<string>>, audio: seq<Wav.Byte>)

  /** A DashScope reply: the HTTP status and `get_sentence()` (`None` when
      there is no sentence). */
  datatype AliyunResult = AliyunResult(statusCode: int, sentence: Option<string>)

  const HttpOk := 200

  datatype Externals = Externals(
    quantise: Sample -> Wav.Int16,                                 // `(x * 32767).astype(np.int16)`
    openai: (string, seq<Wav.Byte>) -> Result<Option<string>, Fault>,  // transcriptions.create, text format
    azure: (string, seq<Wav.Byte>) -> Result<AzureResult, Fault>,  // recognize_once on the pushed bytes
    aliyun: AliyunRequest -> Result<AliyunResult, Fault>,          // Recognition(...).call(path)
    interpolate: (seq<Sample>, int, int) -> Result<seq<Sample>, Fault>,  // np.linspace / np.interp
    whisper: seq<Sample> -> Result<string, Fault>)                 // model.transcribe(...)["text"]

  /** `audio_to_wav_bytes`: the quantised samples in a mono 16-bit WAVE
      container at the given frame rate. */
  function WavBytes(ext: Externals, audio: Chunk, sampleRate: int): (r: Result<seq<Wav.Byte>, Wav.WavError>)
    ensures r.Ok? ==> sampleRate > 0 && Wav.Decode(r.value) == Some(Wav.Pcm(sampleRate, Quantised(ext, audio)))
    ensures r.Ok? ==> |r.value| == Wav.HeaderSize + 2 * |audio|
    ensures sampleRate <= 0 ==> r == Err(Wav.BadFrameRate)
  {
    var r := Wav.Encode(Quantised(ext, audio), sampleRate);
    if r.Ok? then Wav.EncodeDecode(Quantised(ext, audio), sampleRate); r else r
  }

  function Quantised(ext: Externals, audio: Chunk): (q: seq<Wav.Int16>)
    ensures |q| == |audio|
    ensures forall i :: 0 <= i < |audio| ==> q[i] == ext.quantise(audio[i])
  {
    seq(|audio|, i requires 0 <= i < |audio| => ext.quantise(audio[i]))
  }

  /** The language-hint rule: hints are passed only to the realtime v2 model. */
  const HintedModel := "paraformer-realtime-v2"

  function AliyunRequestFor(model: string, sampleRate: int, audio: seq<Wav.Byte>): (q: AliyunRequest)
    ensures q.languageHints.Some? <==> model == HintedModel
    ensures q.languageHints.Some? ==> q.languageHints.value == ["zh", "en"]
    ensures q.model == model && q.format == "wav" && q.sampleRate == sampleRate && q.audio == audio
  {
    AliyunRequest(model, "wav", sampleRate, if model == HintedModel then Some(["zh", "en"]) else None, audio)
  }

  /** `_resample`: the identity when the rates agree; otherwise a duration
      computed by dividing by the original rate (a rate of 0 raises) and a
      linear interpolation. */
  function Resample(ext: Externals, audio: Chunk, orig: int, target: int): (r: Result<Chunk, Fault>)
    ensures orig == target ==> r == Ok(audio)
    ensures orig != target && orig == 0 ==> r == Err(Fault)
  {
    if orig == target then Ok(audio)
    else if orig == 0 then Err(Fault)
    else ext.interpolate(audio, orig, target)
  }

  const WhisperRate := 16000

  /** Shown when Local Whisper has no model; it is non-blank, so the worker
      displays it as a subtitle. */
  const NotInstalledNotice := "[本地模型未安装，请在配置中安装]"

  /** What became of one call, before it is collapsed to a string. */
  datatype Failure =
    | ContainerFailed(error: Wav.WavError)   // `audio_to_wav_bytes` raised
    | Raised                                 // the vendor call raised
    | NotRecognised(reason: AzureReason)     // Azure gave up
    | BadStatus(code: int)                   // DashScope answered with an error

  datatype Attempt =
    | Heard(text: string)     // text was returned
    | Silent                  // the call succeeded with no text
    | NotInstalled            // Local Whisper without a model
    | Failed(failure: Failure)

  /** The string `transcribe` returns for an attempt. */
  function Collapse(a: Attempt): (text: string)
    ensures a.Failed? || a.Silent? ==> text == ""
    ensures a.Heard? ==> text == a.text
    ensures a.NotInstalled? ==> text == NotInstalledNotice
  {
    match a
    case Heard(t) => t
    case Silent => ""
    case NotInstalled => NotInstalledNotice
    case Failed(_) => ""
  }

  /** Python truthiness of an optional string. */
  predicate Truthy(o: Option<string>) {
    o.Some? && o.value != ""
  }

  function OpenAIAttempt(ext: Externals, model: string, audio: Chunk, sampleRate: int): (a: Attempt)
    ensures a.Heard? ==> IsStripped(a.text)
  {
    match WavBytes(ext, audio, sampleRate)
    case Err(e) => Failed(ContainerFailed(e))
    case Ok(bytes) =>
      match ext.openai(model, bytes)
      case Err(_) => Failed(Raised)
      case Ok(response) => if Truthy(response) then Heard(Strip(response.value)) else Silent
  }

  /** Azure's `recognize_once`: recognised speech is the text, no match is
      silence, and any other reason or a raised call is a failure. */
  function AzureAttempt(ext: Externals, language: string, audio: Chunk, sampleRate: int): (a: Attempt)
    ensures WavBytes(ext, audio, sampleRate).Err? ==>
      a == Failed(ContainerFailed(WavBytes(ext, audio, sampleRate).error))
    ensures WavBytes(ext, audio, sampleRate).Ok? ==>
      var reply := ext.azure(language, WavBytes(ext, audio, sampleRate).value);
      && (reply.Err? ==> a == Failed(Raised))
      && (reply.Ok? ==> (a.Heard? <==> reply.value.reason == RecognizedSpeech))
      && (reply.Ok? && reply.value.reason == RecognizedSpeech ==> a.text == reply.value.text)
      && (reply.Ok? ==> (a.Silent? <==> reply.value.reason == NoMatch))
      && (reply.Ok? && reply.value.reason == OtherReason ==> a == Failed(NotRecognised(OtherReason)))
    ensures !a.NotInstalled?
  {
    match WavBytes(ext, audio, sampleRate)
    case Err(e) => Failed(ContainerFailed(e))
    case Ok(bytes) =>
      match ext.azure(language, bytes)
      case Err(_) => Failed(Raised)
      case Ok(result) =>
        match result.reason
        case RecognizedSpeech => Heard(result.text)
        case NoMatch => Silent
        case OtherReason => Failed(NotRecognised(OtherReason))
  }

  /** An Aliyun call: the attempt, and whether it counted as a success. */
  datatype AliyunOutcome = AliyunOutcome(attempt: Attempt, succeeded: bool)

  /** DashScope's `Recognition.call`: only HTTP 200 is a success, and then the
      sentence, stripped, or silence when it is missing or empty. */
  function AliyunAttempt(ext: Externals, model: string, audio: Chunk, sampleRate: int): (o: AliyunOutcome)
    ensures o.attempt.Heard? ==> IsStripped(o.attempt.text)
    ensures WavBytes(ext, audio, sampleRate).Err? ==>
      o == AliyunOutcome(Failed(ContainerFailed(WavBytes(ext, audio, sampleRate).error)), false)
    ensures WavBytes(ext, audio, sampleRate).Ok? ==>
      var reply := ext.aliyun(AliyunRequestFor(model, sampleRate, WavBytes(ext, audio, sampleRate).value));
      && (reply.Err? ==> o == AliyunOutcome(Failed(Raised), false))
      && (reply.Ok? && reply.value.statusCode != HttpOk ==>
            o == AliyunOutcome(Failed(BadStatus(reply.value.statusCode)), false))
      && (reply.Ok? && reply.value.statusCode == HttpOk ==>
            && o.succeeded
            && (Truthy(reply.value.sentence) ==> o.attempt == Heard(Strip(reply.value.sentence.value)))
            && (!Truthy(reply.value.sentence) ==> o.attempt == Silent))
    ensures o.succeeded ==> o.attempt.Heard? || o.attempt.Silent?
  {
    match WavBytes(ext, audio, sampleRate)
    case Err(e) => AliyunOutcome(Failed(ContainerFailed(e)), false)
    case Ok(bytes) =>
      match ext.aliyun(AliyunRequestFor(model, sampleRate, bytes))
      case Err(_) => AliyunOutcome(Failed(Raised), false)
      case Ok(result) =>
        if result.statusCode != HttpOk then AliyunOutcome(Failed(BadStatus(result.statusCode)), false)
        else if Truthy(result.sentence) then AliyunOutcome(Heard(Strip(result.sentence.value)), true)
        else AliyunOutcome(Silent, true)
  }

  function WhisperAttempt(ext: Externals, modelLoaded: bool, audio: Chunk, sampleRate: int): (a: Attempt)
    ensures !modelLoaded <==> a.NotInstalled?
    ensures a.Heard? ==> IsStripped(a.text)
  {
    if !modelLoaded then NotInstalled
    else
      var input := if sampleRate != WhisperRate then Resample(ext, audio, sampleRate, WhisperRate) else Ok(audio);
      match input
      case Err(_) => Failed(Raised)
      case Ok(samples) =>
        match ext.whisper(samples)
        case Err(_) => Failed(Raised)
        case Ok(text) => Heard(Strip(text))
  }

  /** One call of a service's `transcribe`: the service afterwards (only the
      Aliyun counters change), what happened, and the string returned. */
  datatype Transcribed = Transcribed(service: Service, attempt: Attempt, text: string)

  function Transcribe(s: Service, ext: Externals, audio: Chunk, sampleRate: int): (r: Transcribed)
    ensures r.text == Collapse(r.attempt)
    ensures !s.Aliyun? ==> r.service == s
    ensures s.Aliyun? ==> (r.service.Aliyun? && r.service.model == s.model
      && r.service.totalCalls == s.totalCalls + 1)
    ensures Valid(s) ==> Valid(r.service)
  {
    match s
    case OpenAI(model) =>
      var a := OpenAIAttempt(ext, model, audio, sampleRate);
      Transcribed(s, a, Collapse(a))
    case Azure(language) =>
      var a := AzureAttempt(ext, language, audio, sampleRate);
      Transcribed(s, a, Collapse(a))
    case Aliyun(model, total, success) =>
      var o := AliyunAttempt(ext, model, audio, sampleRate);
      Transcribed(Aliyun(model, total + 1, if o.succeeded then success + 1 else success),
                  o.attempt, Collapse(o.attempt))
    case LocalWhisper(loaded) =>
      var a := WhisperAttempt(ext, loaded, audio, sampleRate);
      Transcribed(s, a, Collapse(a))
  }

  /** Every failure, whatever the service, comes back as the empty string. */
  lemma FailuresAreEmpty(s: Service, ext: Externals, audio: Chunk, sampleRate: int)
    ensures Transcribe(s, ext, audio, sampleRate).attempt.Failed? ==> Transcribe(s, ext, audio, sampleRate).text == ""
  {
  }

  /** An Aliyun call counts as a success exactly when DashScope answered
      with HTTP 200; a raising call or a container failure is not one. */
  lemma AliyunSuccessCounting(model: string, total: nat, success: nat, ext: Externals, audio: Chunk, sampleRate: int)
    ensures var r := Transcribe(Aliyun(model, total, success), ext, audio, sampleRate);
      var bytes := WavBytes(ext, audio, sampleRate);
      var reply := if bytes.Ok? then ext.aliyun(AliyunRequestFor(model, sampleRate, bytes.value)) else Err(Fault);
      r.service.successCalls == (if reply.Ok? && reply.value.statusCode == HttpOk then success + 1 else success)
  {
  }

  /** Azure returns text only for recognised speech, and for recognised
      speech it returns the recognised text. */
  lemma AzureTextOnlyWhenRecognised(language: string, ext: Externals, audio: Chunk, sampleRate: int)
    ensures var r := Transcribe(Azure(language), ext, audio, sampleRate);
      var bytes := WavBytes(ext, audio, sampleRate);
      r.text != "" ==> (bytes.Ok? && ext.azure(language, bytes.value).Ok?
        && ext.azure(language, bytes.value).value.reason == RecognizedSpeech
        && r.text == ext.azure(language, bytes.value).value.text)
    ensures var r := Transcribe(Azure(language), ext, audio, sampleRate);
      var bytes := WavBytes(ext, audio, sampleRate);
      (bytes.Ok? && ext.azure(language, bytes.value).Ok?
        && ext.azure(language, bytes.value).value.reason == RecognizedSpeech) ==>
      r.text == ext.azure(language, bytes.value).value.text
  {
  }

  /** OpenAI returns the stripped response, or "" for a missing or empty one. */
  lemma OpenAIStripsResponse(model: string, ext: Externals, audio: Chunk, sampleRate: int)
    ensures var r := Transcribe(OpenAI(model), ext, audio, sampleRate);
      var bytes := WavBytes(ext, audio, sampleRate);
      bytes.Ok? ==> r.text == (match ext.openai(model, bytes.value)
        case Ok(response) => if Truthy(response) then Strip(response.value) else ""
        case Err(_) => "")
  {
  }

  /** Local Whisper without a model answers with the notice, which the
      worker shows as a subtitle. */
  lemma NoticeIsShown(ext: Externals, audio: Chunk, sampleRate: int)
    ensures Transcribe(LocalWhisper(false), ext, audio, sampleRate).text == NotInstalledNotice
    ensures Worker.Shown(Worker.Returned(NotInstalledNotice)) == Some(NotInstalledNotice)
  {
    assert !IsSpace(NotInstalledNotice[0]);
    assert !IsBlank(NotInstalledNotice) by {
      BlankIffAllSpace(NotInstalledNotice);
    }
  }

  /** Local Whisper at its own rate hands the samples over unchanged. */
  lemma WhisperAtNativeRate(ext: Externals, audio: Chunk)
    ensures WhisperAttempt(ext, true, audio, WhisperRate) ==
      (match ext.whisper(audio) case Err(_) => Failed(Raised) case Ok(text) => Heard(Strip(text)))
  {
  }

  /** `get_stats`: nothing before the first call; afterwards both counters.
      The success-rate percentage is a float and is not modelled. */
  datatype Stats = Stats(totalCalls: nat, successCalls: nat)

  function GetStats(s: Service): (r: Option<Stats>)
    requires s.Aliyun?
    ensures r.None? <==> s.totalCalls == 0
    ensures r.Some? ==> r.value == Stats(s.totalCalls, s.successCalls)
  {
    if s.totalCalls > 0 then Some(Stats(s.totalCalls, s.successCalls)) else None
  }

  /** The service as the worker sees it: `transcribe` always returns. */
  function AsTranscriber(ext: Externals): (t: (Service, Chunk, int) -> Worker.Reply<Service>)
  {
    (s: Service, chunk: Chunk, rate: int) =>
      var r := Transcribe(s, ext, chunk, rate);
      Worker.Reply(r.service, Worker.Returned(r.text))
  }

  /** After the worker has handed `n` chunks to a fresh Aliyun service, it
      has counted `n` calls and at most `n` successes, so `get_stats`
      reports exactly when at least one chunk was transcribed. */
  lemma {:induction false} AliyunCountsCalls(model: string, ext: Externals, chunks: seq<Chunk>, rate: int)
    ensures var s := Worker.TranscribeAll(Aliyun(model, 0, 0), chunks, AsTranscriber(ext), rate).service;
      && s.Aliyun? && s.model == model
      && s.totalCalls == |chunks| && s.successCalls <= s.totalCalls
      && (GetStats(s).Some? <==> |chunks| > 0)
    decreases |chunks|
  {
    if chunks != [] {
      AliyunCountsCalls(model, ext, chunks[..|chunks| - 1], rate);
    }
  }
}

=== FILE: wav.dfy ===
/** The canonical audio container every cloud backend receives: a RIFF WAVE
    file holding one `fmt ` chunk for WAVE_FORMAT_PCM (mono, 16 bits per
    sample, little-endian) followed by one `data` chunk, laid out as in the
    WAVE Form Definition of the Microsoft/IBM "Multimedia Programming
    Interface and Data Specifications 1.0".  `Decode` reads such a file back
    and is the partner of `Encode`. */
module Wav {
  import opened Results

  type Byte = b: int | 0 <= b < 256

  /** A signed 16-bit PCM sample. */
  type Int16 = i: int | -32768 <= i < 32768

  const U32Limit: int := 0x1_0000_0000
  const HeaderSize: nat := 44
  const FmtChunkSize: Byte := 16
  const WaveFormatPcm: Byte := 1
  const Channels: Byte := 1
  const SampleWidth: Byte := 2
  const BitsPerSample: Byte := 16

  // Byte k (least significant first) of a non-negative number.
  function B0(x: nat): Byte { x % 256 }
  function B1(x: nat): Byte { (x / 256) % 256 }
  function B2(x: nat): Byte { (x / 256 / 256) % 256 }
  function B3(x: nat): Byte { (x / 256 / 256 / 256) % 256 }

  /** Little-endian unsigned 16-bit field starting at `at`. */
  function ReadU16(b: seq<Byte>, at: nat): nat
    requires at + 2 <= |b|
  {
    var lo: int := b[at];
    var hi: int := b[at + 1];
    lo + 256 * hi
  }

  /** Little-endian unsigned 32-bit field starting at `at`. */
  function ReadU32(b: seq<Byte>, at: nat): nat
    requires at + 4 <= |b|
  {
    ReadU16(b, at) + 65536 * ReadU16(b, at + 2)
  }

  lemma U16Bytes(x: nat)
    requires x < 65536
    ensures B0(x) + 256 * B1(x) == x
  {
  }

  lemma U32Bytes(x: nat)
    requires x < U32Limit
    ensures (B0(x) + 256 * B1(x)) + 65536 * (B2(x) + 256 * B3(x)) == x
  {
    var y := x / 256;
    var z := y / 256;
    var w := z / 256;
    assert x == B0(x) + 256 * y;
    assert y == B1(x) + 256 * z;
    assert z == B2(x) + 256 * w;
    assert w < 256;
    assert B3(x) == w;
  }

  /** Two's-complement bit pattern of a sample, and back. */
  function ToUnsigned(s: Int16): (u: nat)
    ensures u < 65536
  {
    if s < 0 then s + 65536 else s
  }

  function FromUnsigned(u: nat): Int16
    requires u < 65536
  {
    if u >= 32768 then u - 65536 else u
  }

  /** numpy's `int16.tobytes()`: each sample as two little-endian bytes. */
  function PcmData(samples: seq<Int16>): (d: seq<Byte>)
    ensures |d| == 2 * |samples|
  {
    if samples == [] then []
    else
      var u := ToUnsigned(samples[0]);
      [B0(u), B1(u)] + PcmData(samples[1..])
  }

  /** Samples of a byte string read two little-endian bytes at a time. */
  function DecodeSamples(d: seq<Byte>): seq<Int16>
  {
    if |d| < 2 then [] else [FromUnsigned(ReadU16(d, 0))] + DecodeSamples(d[2..])
  }

  lemma {:induction false} PcmRoundTrip(samples: seq<Int16>)
    ensures DecodeSamples(PcmData(samples)) == samples
  {
    if samples != [] {
      var u := ToUnsigned(samples[0]);
      var d := PcmData(samples);
      U16Bytes(u);
      assert ReadU16(d, 0) == u;
      assert d[2..] == PcmData(samples[1..]);
      PcmRoundTrip(samples[1..]);
    }
  }

  /** A 32-bit and a 16-bit little-endian field. */
  function Le32(x: nat): (b: seq<Byte>)
    ensures |b| == 4
  {
    [B0(x), B1(x), B2(x), B3(x)]
  }

  function Le16(x: nat): (b: seq<Byte>)
    ensures |b| == 2
  {
    [B0(x), B1(x)]
  }

  /** The 44-byte header for `dataLen` bytes of mono 16-bit audio. */
  function Header(frameRate: nat, dataLen: nat): (h: seq<Byte>)
    ensures |h| == HeaderSize
  {
    var riffHeader := [0x52, 0x49, 0x46, 0x46] + Le32(36 + dataLen) + [0x57, 0x41, 0x56, 0x45];
    var fmtChunk :=
      [0x66, 0x6D, 0x74, 0x20] + Le32(FmtChunkSize)
      + Le16(WaveFormatPcm) + Le16(Channels)
      + Le32(frameRate) + Le32(2 * frameRate)    // byte rate: channels * frame rate * sample width
      + Le16(2) + Le16(BitsPerSample);            // block align: channels * sample width
    var dataHeader := [0x64, 0x61, 0x74, 0x61] + Le32(dataLen);
    riffHeader + fmtChunk + dataHeader
  }

  /** Why the container could not be written. */
  datatype WavError =
    | BadFrameRate      // a frame rate that is not positive
    | FieldOverflow     // a header field that does not fit in 32 bits

  /** The bytes of `audio_to_wav_bytes` for samples already scaled to int16.
      Writing fails on a non-positive frame rate or on a header field (the
      byte rate or the RIFF size) that does not fit in 32 bits. */
  function Encode(samples: seq<Int16>, frameRate: int): (r: Result<seq<Byte>, WavError>)
    ensures r.Err? <==>
      frameRate <= 0 || 2 * frameRate >= U32Limit || 36 + 2 * |samples| >= U32Limit
    ensures r.Err? ==> (r.error == BadFrameRate <==> frameRate <= 0)
    ensures r.Ok? ==> |r.value| == HeaderSize + 2 * |samples|
    ensures r.Ok? ==> ReadU16(r.value, 20) == WaveFormatPcm
    ensures r.Ok? ==> ReadU16(r.value, 22) == 1                      // mono
    ensures r.Ok? ==> ReadU32(r.value, 24) == frameRate
    ensures r.Ok? ==> ReadU16(r.value, 34) == 16                     // 2-byte samples
    ensures r.Ok? ==> ReadU32(r.value, 40) == 2 * |samples|
    ensures r.Ok? ==> r.value[HeaderSize..] == PcmData(samples)
  {
    if frameRate <= 0 then Err(BadFrameRate)
    else if 2 * frameRate >= U32Limit || 36 + 2 * |samples| >= U32Limit then Err(FieldOverflow)
    else
      var data := PcmData(samples);
      HeaderFieldsRead(frameRate, data);
      Ok(Header(frameRate, |data|) + data)
  }

  /** The four bytes at `at` spell the chunk identifier `c0 c1 c2 c3`. */
  predicate Tag(b: seq<Byte>, at: nat, c0: Byte, c1: Byte, c2: Byte, c3: Byte)
    requires at + 4 <= |b|
  {
    b[at] == c0 && b[at + 1] == c1 && b[at + 2] == c2 && b[at + 3] == c3
  }

  /** What a reader of the container recovers. */
  datatype Pcm = Pcm(frameRate: nat, samples: seq<Int16>)

  /** The fields a reader takes from a 44-byte header: frame rate and
      length of the data chunk, when the header describes mono 16-bit PCM. */
  datatype HeaderInfo = HeaderInfo(frameRate: nat, dataLen: nat)

  function ReadHeader(h: seq<Byte>): Option<HeaderInfo>
    requires |h| == HeaderSize
  {
    var dataLen := ReadU32(h, 40);
    if !Tag(h, 0, 0x52, 0x49, 0x46, 0x46) || !Tag(h, 8, 0x57, 0x41, 0x56, 0x45)
       || !Tag(h, 12, 0x66, 0x6D, 0x74, 0x20) || !Tag(h, 36, 0x64, 0x61, 0x74, 0x61)
       || ReadU32(h, 4) != 36 + dataLen || ReadU32(h, 16) != FmtChunkSize
       || ReadU16(h, 20) != WaveFormatPcm || ReadU16(h, 22) != Channels
       || ReadU32(h, 28) != 2 * ReadU32(h, 24) || ReadU16(h, 32) != 2
       || ReadU16(h, 34) != BitsPerSample
    then None
    else Some(HeaderInfo(ReadU32(h, 24), dataLen))
  }

  /** Reads a mono 16-bit PCM WAVE file laid out as `Encode` writes it. */
  function Decode(b: seq<Byte>): Option<Pcm>
  {
    if |b| < HeaderSize then None
    else match ReadHeader(b[..HeaderSize])
      case None => None
      case Some(info) =>
        if |b| != HeaderSize + info.dataLen || info.dataLen % 2 != 0 then None
        else Some(Pcm(info.frameRate, DecodeSamples(b[HeaderSize..])))
  }

  /** Four bytes written by `B0`..`B3` read back as the number written. */
  lemma ReadWritten32(b: seq<Byte>, at: nat, x: nat)
    requires at + 4 <= |b| && x < U32Limit
    requires b[at] == B0(x) && b[at + 1] == B1(x) && b[at + 2] == B2(x) && b[at + 3] == B3(x)
    ensures ReadU32(b, at) == x
  {
    U32Bytes(x);
  }

  // The bytes of a written header, region by region.
  lemma RiffBytes(frameRate: nat, n: nat)
    ensures var h := Header(frameRate, n);
      && Tag(h, 0, 0x52, 0x49, 0x46, 0x46) && Tag(h, 8, 0x57, 0x41, 0x56, 0x45)
      && h[4] == B0(36 + n) && h[5] == B1(36 + n) && h[6] == B2(36 + n) && h[7] == B3(36 + n)
  {
  }

  lemma FmtBytes(frameRate: nat, n: nat)
    ensures var h := Header(frameRate, n);
      && Tag(h, 12, 0x66, 0x6D, 0x74, 0x20)
      && Tag(h, 16, 16, 0, 0, 0) && Tag(h, 20, 1, 0, 1, 0)
      && Tag(h, 24, B0(frameRate), B1(frameRate), B2(frameRate), B3(frameRate))
      && Tag(h, 28, B0(2 * frameRate), B1(2 * frameRate), B2(2 * frameRate), B3(2 * frameRate))
      && Tag(h, 32, 2, 0, 16, 0)
  {
  }

  lemma DataBytes(frameRate: nat, n: nat)
    ensures var h := Header(frameRate, n);
      && Tag(h, 36, 0x64, 0x61, 0x74, 0x61) && Tag(h, 40, B0(n), B1(n), B2(n), B3(n))
  {
  }

  /** The fields of a header followed by its data read back as written. */
  lemma HeaderFieldsRead(frameRate: nat, data: seq<Byte>)
    requires 2 * frameRate < U32Limit && 36 + |data| < U32Limit
    ensures var b := Header(frameRate, |data|) + data;
      && ReadU16(b, 20) == WaveFormatPcm && ReadU16(b, 22) == 1 && ReadU32(b, 24) == frameRate
      && ReadU16(b, 34) == 16 && ReadU32(b, 40) == |data| && b[HeaderSize..] == data
  {
    var h := Header(frameRate, |data|);
    var b := h + data;
    FmtBytes(frameRate, |data|);
    DataBytes(frameRate, |data|);
    assert forall i :: 0 <= i < HeaderSize ==> b[i] == h[i];
    ReadWritten32(b, 24, frameRate);
    ReadWritten32(b, 40, |data|);
    assert b[HeaderSize..] == data;
  }

  /** A header written by `Header` reads back as the fields written. */
  lemma ReadWrittenHeader(frameRate: nat, n: nat)
    requires 2 * frameRate < U32Limit && 36 + n < U32Limit
    ensures ReadHeader(Header(frameRate, n)) == Some(HeaderInfo(frameRate, n))
  {
    var h := Header(frameRate, n);
    RiffBytes(frameRate, n);
    FmtBytes(frameRate, n);
    DataBytes(frameRate, n);
    ReadWritten32(h, 4, 36 + n);
    ReadWritten32(h, 24, frameRate);
    ReadWritten32(h, 28, 2 * frameRate);
    ReadWritten32(h, 40, n);
  }

  /** A written container is the header followed by the sample bytes. */
  lemma EncodeLayout(samples: seq<Int16>, frameRate: int)
    requires Encode(samples, frameRate).Ok?
    ensures 0 < frameRate && 2 * frameRate < U32Limit && 36 + 2 * |samples| < U32Limit
    ensures Encode(samples, frameRate).value == Header(frameRate, 2 * |samples|) + PcmData(samples)
  {
  }

  lemma EvenDouble(k: nat)
    ensures (2 * k) % 2 == 0
  {
  }

  /** Whatever follows an accepted header is read as its samples. */
  lemma DecodeAfterHeader(h: seq<Byte>, d: seq<Byte>, frameRate: nat)
    requires |h| == HeaderSize && |d| % 2 == 0
    requires ReadHeader(h) == Some(HeaderInfo(frameRate, |d|))
    ensures Decode(h + d) == Some(Pcm(frameRate, DecodeSamples(d)))
  {
    assert (h + d)[..HeaderSize] == h;
    assert (h + d)[HeaderSize..] == d;
  }

  /** The header and sample bytes of a container read back as written. */
  lemma DecodeLayout(samples: seq<Int16>, frameRate: nat)
    requires 0 < frameRate && 2 * frameRate < U32Limit && 36 + 2 * |samples| < U32Limit
    ensures Decode(Header(frameRate, 2 * |samples|) + PcmData(samples)) == Some(Pcm(frameRate, samples))
  {
    var h := Header(frameRate, 2 * |samples|);
    var d := PcmData(samples);
    ReadWrittenHeader(frameRate, 2 * |samples|);
    assert |h| == HeaderSize;
    EvenDouble(|samples|);
    DecodeAfterHeader(h, d, frameRate);
    PcmRoundTrip(samples);
  }

  /** Reading back a written container yields its frame rate and samples. */
  lemma EncodeDecode(samples: seq<Int16>, frameRate: int)
    requires Encode(samples, frameRate).Ok?
    ensures frameRate > 0 && Decode(Encode(samples, frameRate).value) == Some(Pcm(frameRate, samples))
  {
    EncodeLayout(samples, frameRate);
    DecodeLayout(samples, frameRate);
  }
}

=== FILE: worker.dfy ===
/** The transcription worker (`TranscriptionWorker` in main.py): a loop
    that takes chunks from the capture queue, hands each to the
    transcription service at the configured sample rate, and shows the text
    as a subtitle unless it is blank.  The service is a parameter: any state
    `S` with a step function, so the same loop serves every back end. */
module Worker {
  import opened Results
  import opened Text
  import opened AudioCapture

  /** What one call of the service's `transcribe` does: returns text, or
      raises an exception that the loop catches. */
  datatype Outcome = Returned(text: string) | Raised

  /** The service state after a call, and what the call did. */
  datatype Reply<S> = Reply(service: S, outcome: Outcome)

  /** The worker's own state: whether its loop is meant to run, and how many
      threads it has spawned so far. */
  datatype Worker = Worker(running: bool, spawned: nat)

  function NewWorker(): (w: Worker)
    ensures !w.running && w.spawned == 0
  {
    Worker(false, 0)
  }

  /** `start`: a second start while running spawns nothing. */
  function Start(w: Worker): (r: Worker)
    ensures r.running
    ensures w.running ==> r == w
    ensures !w.running ==> r.spawned == w.spawned + 1
  {
    if w.running then w else Worker(true, w.spawned + 1)
  }

  /** `stop`: clears the flag; the loop ends at its next test.  The bounded
      `join` is not modelled. */
  function Stop(w: Worker): (r: Worker)
    ensures !r.running && r.spawned == w.spawned
  {
    w.(running := false)
  }

  /** Starting twice is starting once. */
  lemma StartIdempotent(w: Worker)
    ensures Start(Start(w)) == Start(w)
  {
  }

  /** What reaches the subtitle window: the text exactly as returned, but
      only when it is non-blank; a raised exception shows nothing. */
  function Shown(o: Outcome): (r: Option<string>)
    ensures r.Some? <==> o.Returned? && !IsBlank(o.text)
    ensures r.Some? ==> r.value == o.text
  {
    if o.Returned? && !IsBlank(o.text) then Some(o.text) else None
  }

  /** A shown subtitle always contains a character that is not whitespace. */
  lemma ShownIsNotBlank(o: Outcome)
    requires Shown(o).Some?
    ensures exists i :: 0 <= i < |Shown(o).value| && !IsSpace(Shown(o).value[i])
  {
    BlankIffAllSpace(o.text);
  }

  /** One pass of the loop body. */
  datatype Turn<S> = Turn(capture: Capture, service: S, taken: Option<Chunk>, shown: Option<string>)

  function ProcessOnce<S>(c: Capture, s: S, transcribe: (S, Chunk, int) -> Reply<S>, sampleRate: int): (r: Turn<S>)
    // an empty queue: the wait times out and nothing else happens
    ensures c.queue == [] ==> r == Turn(c, s, None, None)
    // otherwise the oldest chunk is taken and transcribed at the configured rate
    ensures c.queue != [] ==>
      && r.taken == Some(c.queue[0])
      && r.capture == c.(queue := c.queue[1..])
      && r.service == transcribe(s, c.queue[0], sampleRate).service
      && r.shown == Shown(transcribe(s, c.queue[0], sampleRate).outcome)
  {
    var t := GetAudioChunk(c);
    match t.chunk
    case None => Turn(t.capture, s, None, None)
    case Some(chunk) =>
      var reply := transcribe(s, chunk, sampleRate);
      Turn(t.capture, reply.service, Some(chunk), Shown(reply.outcome))
  }

  /** Reference meaning of the worker: the service state after transcribing
      `chunks` in order, and the subtitles shown, in order. */
  datatype Transcript<S> = Transcript(service: S, subtitles: seq<string>)

  function TranscribeAll<S>(s: S, chunks: seq<Chunk>, transcribe: (S, Chunk, int) -> Reply<S>, sampleRate: int): Transcript<S>
    decreases |chunks|
  {
    if chunks == [] then Transcript(s, [])
    else
      var before := TranscribeAll(s, chunks[..|chunks| - 1], transcribe, sampleRate);
      var reply := transcribe(before.service, chunks[|chunks| - 1], sampleRate);
      Transcript(reply.service, before.subtitles + AsSeq(Shown(reply.outcome)))
  }

  /** At most one subtitle per chunk. */
  lemma {:induction false} TranscriptBounded<S>(s: S, chunks: seq<Chunk>, transcribe: (S, Chunk, int) -> Reply<S>, sampleRate: int)
    ensures |TranscribeAll(s, chunks, transcribe, sampleRate).subtitles| <= |chunks|
    decreases |chunks|
  {
    if chunks != [] {
      TranscriptBounded(s, chunks[..|chunks| - 1], transcribe, sampleRate);
    }
  }

  /** `rounds` passes of the loop while `running` stays set: the worker takes
      the oldest `min(rounds, |queue|)` chunks, leaves the rest queued, and
      shows exactly the subtitles of the reference transcript of the chunks
      it took, in the order they were captured. */
  method RunRounds<S>(c: Capture, s: S, transcribe: (S, Chunk, int) -> Reply<S>, sampleRate: int, rounds: nat)
    returns (c': Capture, s': S, taken: seq<Chunk>, subtitles: seq<string>)
    ensures taken == c.queue[..if rounds < |c.queue| then rounds else |c.queue|]
    ensures c.queue == taken + c'.queue
    ensures c' == c.(queue := c'.queue)
    ensures TranscribeAll(s, taken, transcribe, sampleRate) == Transcript(s', subtitles)
  {
    c', s', taken, subtitles := c, s, [], [];
    var i := 0;
    while i < rounds
      invariant 0 <= i <= rounds
      invariant |taken| == if i < |c.queue| then i else |c.queue|
      invariant c.queue == taken + c'.queue
      invariant c' == c.(queue := c'.queue)
      invariant TranscribeAll(s, taken, transcribe, sampleRate) == Transcript(s', subtitles)
    {
      var turn := ProcessOnce(c', s', transcribe, sampleRate);
      if turn.taken.Some? {
        var chunk := turn.taken.value;
        MoveHead(c.queue, taken, c'.queue);
        TranscribeSnoc(s, taken, chunk, transcribe, sampleRate);
        taken := taken + [chunk];
        subtitles := subtitles + AsSeq(turn.shown);
      }
      c', s' := turn.capture, turn.service;
      i := i + 1;
    }
    assert c.queue[..|taken|] == taken;
  }

  /** Transcribing one more chunk extends the transcript by that chunk's reply. */
  lemma TranscribeSnoc<S>(s: S, chunks: seq<Chunk>, chunk: Chunk, transcribe: (S, Chunk, int) -> Reply<S>, sampleRate: int)
    ensures var before := TranscribeAll(s, chunks, transcribe, sampleRate);
      var reply := transcribe(before.service, chunk, sampleRate);
      TranscribeAll(s, chunks + [chunk], transcribe, sampleRate)
        == Transcript(reply.service, before.subtitles + AsSeq(Shown(reply.outcome)))
  {
    assert (chunks + [chunk])[..|chunks|] == chunks;
  }

  /** Moving the head of what is left onto the end of what was taken keeps
      the whole queue intact. */
  lemma MoveHead(queue: seq<Chunk>, taken: seq<Chunk>, left: seq<Chunk>)
    requires queue == taken + left && left != []
    ensures queue == (taken + [left[0]]) + left[1..]
  {
    assert left == [left[0]] + left[1..];
  }
}
